=== FILE: README.md ===
# prcn-unit-sort in Dafny

prcn-unit-sort is a browser for the units of a mobile game. The front end has two halves.

- **Unit list.** The raw unit data file is turned into `Unit` records. Each record's three skill descriptions are classified into skill categories by a keyword rule table. The list can be narrowed by name, element, attack type, limited availability and ticked skill categories. Each unit card shows the element icon, a one-character position label and, for every ticked category, the skills that raised it.
- **Character browser and ranking page.** Characters with structured skill data are filtered by effect properties and sorted by name or formation order. Skill formulas are evaluated for a given skill level and attack values. Ranking calculators list the skill versions with the largest total effect.

This project models that logic as pure Dafny functions over immutable datatypes and proves properties of them.

| module | what it models |
|---|---|
| `Wrappers` | `Option` |
| `Text` | string helpers in JavaScript's terms: `includes`, `replace(/x/g)`, `trim`, `split`, ASCII `toLowerCase` |
| `Numbers` | `Number(s)` on decimal text, `parseInt(s, 10)`, `String(n)` |
| `Arith` | an exact rational reading of the arithmetic that `new Function('return ' + e)` evaluates |
| `Formula` | `calculateValue` (ranking) and `calculateEffectValue` (skill detail view) |
| `Model` | the records: effects, skill versions, characters, filters, units |
| `Sorting` | the stable `Array.prototype.sort` with a numeric key |
| `Ranking` | `createRankingCalculator`, `createSpeedCalculator`, `createDebuffCalculator`, `rankingCalculators` |
| `Characters` | `checkEffect`, `katakanaToHiragana`, `filterAndSortCharacters`, `getIconPath` |
| `SkillRules` | the keyword rule table of `parseSkillFlags`, in source order |
| `Classifier` | the rule loop of `parseSkillFlags` |
| `Units` | the `parse*` helpers, the record derivation and skipping, and `getUnitIcon` |
| `Lists` | generic `filter` and the subsequence relation |
| `App` | `handleSkillFilterChange`, `activeSkillFilterKeys`, `filteredUnits` |
| `UnitCard` | `getElementIconPath`, `getShortPositionName`, `getMatchedSkillDetails` |
| `FilterPanel` | `skillFilterGroups` as a function of the category list, and the hiding of empty groups |

Some parts of the program become parameters:

- The data files: the unit data, the icon table, the category list, the formation order and the skill data.
- Japanese collation: `localeCompare(…, 'ja')` becomes a key function `collate`.
- The page state: the search term, the ticked categories and the selected element.

## Model

| member | source | states |
|---|---|---|
| Numbers.NatToStringRoundTrip | src/utils/rankingUtils.ts:25-27 | the decimal text `String(n)` substituted for a variable reads back as `n` |
| Numbers.IntToStringIsNumber | src/utils/rankingUtils.ts:14-15 | `Number(String(n))` is `n` for every integer, negative ones included |
| Numbers.ParseIntRoundTrip | src/hooks/useUnits.ts:50-52 | `parseInt(String(n) + rest, 10)` is `n` whenever `rest` does not start with a digit |
| Numbers.JsNumberChars | src/utils/rankingUtils.ts:14 | text that `Number` accepts consists only of digits, signs, points and white space |
| Arith.EvaluateRender | src/utils/rankingUtils.ts:30 | the text a person would write for any arithmetic tree is read back to the tree's value, and fails exactly where the tree divides by zero. The text has parentheses only where precedence or left associativity need them, a unary minus, decimal literals such as `1.15`, and any JavaScript white space around every binary operator |
| Arith.ProductOfLiterals | src/utils/rankingUtils.ts:30 | the text `a*b` of two natural numbers evaluates to their product |
| Formula.CalculateValue | src/utils/rankingUtils.ts:4-36 | no formula or an empty one has no value; a value that came from neither the `%` branch nor the literal branch comes from a formula with no uncalculable marker, whose substituted text passes the character whitelist, and is a whole number |
| Formula.EffectValue | src/components/SkillDetails.tsx:11-38 | no formula or an empty one has no value; a non-literal value comes from a formula that mentions `スキルLv` and is a whole number |
| Formula.NumericLiteral | src/utils/rankingUtils.ts:7-16 | numeric text is its own value; the `%` branch never claims it |
| Formula.PercentLiteral | src/utils/rankingUtils.ts:7-12 | `N%` is worth `N`, not `N / 100` |
| Formula.PercentCalculated | src/utils/rankingUtils.ts:7-12 | the ranking evaluator values `N%` at `N` for every natural `N` |
| Formula.PercentNotEffect | src/components/SkillDetails.tsx:11-38 | the detail view gives `N%` no value: the two evaluators disagree on percentages |
| Formula.MarkerGivesNone | src/utils/rankingUtils.ts:18-21 | a formula containing any of the thirteen uncalculable markers has no value |
| Formula.CalculateRendered | src/utils/rankingUtils.ts:7-31 | take the text of any arithmetic tree, written as `Arith.EvaluateRender` describes, under any bindings. A literal or negated literal is taken as the number it reads as, unfloored. Any other tree is worth the floor of its value. The text has no value exactly where the tree divides by zero |
| Formula.LevelTimes | src/utils/rankingUtils.ts:25-30 | `スキルLv*N` at a non-negative level `L` is worth `L * N` |
| Formula.LevelHundredTimesTen | src/utils/rankingUtils.ts:25-30 | worked example of `Formula.LevelTimes`: `スキルLv*10` at level 100 is worth 1000 |
| Formula.EvaluatorsAgree | src/components/SkillDetails.tsx:20-28 | on a level formula without attack variables or markers that the whitelist admits, the detail view and the ranking agree |
| Formula.SubstituteNothing | src/utils/rankingUtils.ts:24-27 | text naming no variable is left unchanged by the substitution |
| Sorting.SortBy | src/utils/rankingUtils.ts:152 | the result is ordered by key and is a permutation of the input |
| Sorting.SortedMembers | src/utils/rankingUtils.ts:152 | sorting keeps exactly the elements it is given |
| Sorting.SortStable | src/utils/rankingUtils.ts:152 | the sort is stable: for every key value, the elements with that key come out in the order they went in |
| Ranking.FirstRunWitness | src/utils/rankingUtils.ts:64 | a successful regular-expression search is the match at some position with no match before it |
| Ranking.FirstRunAt | src/utils/rankingUtils.ts:64 | a match with no earlier match is what the search returns |
| Ranking.FirstRunNone | src/utils/rankingUtils.ts:64 | an unsuccessful search means no position matches |
| Ranking.LevelRequirementOf | src/utils/rankingUtils.ts:63-68 | a text whose first `スキルLvN以上` follows any text without `ス`, such as an opening `【`, requires level `N` |
| Ranking.GateThreshold | src/utils/rankingUtils.ts:62-72 | a version whose description and note together state such a `スキルLvN以上` (bracketed, after other text, or in the note alone) is skipped exactly when `N` exceeds 260 |
| Ranking.HitCountOf | src/utils/rankingUtils.ts:124-125 | a note whose first digits are `N回`, after any text without digits (`最大3回`), counts `N` hits |
| Ranking.Children | src/utils/rankingUtils.ts:79-80 | a field effect's child list becomes as many effects, one per child and in order, none of them a field effect to expand again |
| Ranking.ExpandOrigin | src/utils/rankingUtils.ts:78-83 | every expanded effect is a non-field effect of the version or a child of one of its field effects |
| Ranking.ExpandKeeps | src/utils/rankingUtils.ts:82 | effects that are not field parents survive expansion |
| Ranking.ExpandChildren | src/utils/rankingUtils.ts:79-80 | every child of every field parent appears after expansion |
| Ranking.ExpandFlat | src/utils/rankingUtils.ts:78-83 | no field parent is left after expansion |
| Ranking.MatchingMember | src/utils/rankingUtils.ts:92-108 | an effect is matched exactly when it is one of the effects and passes the target, enemy and type tests |
| Ranking.BestIsFirstMaximum | src/utils/rankingUtils.ts:113-117 | the `reduce` that replaces the running best only by a strictly larger value ends on a maximal value, and every earlier value is strictly smaller |
| Ranking.Collapse | src/utils/rankingUtils.ts:112-119 | several matching effects that all carry a condition collapse to one of them; otherwise the list is unchanged |
| Ranking.CollapseKeepsFirstMaximum | src/utils/rankingUtils.ts:112-119 | the kept alternative is the first one of maximal value |
| Ranking.TotalOfUnvalued | src/utils/rankingUtils.ts:121-131 | effects without a truthy formula add nothing to the total |
| Ranking.TotalAppend | src/utils/rankingUtils.ts:121-131 | totals add up over concatenation |
| Ranking.Icon | src/utils/rankingUtils.ts:57-59 | `ub` exactly for union-burst keys; `special` exactly for the other keys that contain `special` |
| Ranking.RankVersion | src/utils/rankingUtils.ts:61-148 | an item is produced only for a version that passes the level gate and the companion check; its value is the positive total of the surviving effects, and it carries the skill key |
| Ranking.RankVersionExactly | src/utils/rankingUtils.ts:61-148 | a version is ranked exactly when it passes both checks and its total is positive |
| Ranking.GateSkips | src/utils/rankingUtils.ts:67-72 | a version above the level gate is skipped whatever the bindings |
| Ranking.CompanionSkips | src/utils/rankingUtils.ts:85-87 | the physical-defence ranking never counts a version that also lowers physical attack |
| Ranking.SpeedItems | src/utils/rankingUtils.ts:171-189 | every speed item has a positive value and carries no skill key |
| Ranking.SpeedItemOrigin | src/utils/rankingUtils.ts:172-187 | every speed item comes from an action-speed effect with a positive value |
| Ranking.SpeedItemFor | src/utils/rankingUtils.ts:172-187 | every action-speed effect with a positive value yields an item |
| Ranking.SpeedIgnoresGate | src/utils/rankingUtils.ts:156-195 | the speed ranking has no level gate: a gated version still yields its items |
| Ranking.SpeedIgnoresFields | src/utils/rankingUtils.ts:172 | the speed ranking does not look inside field effects |
| Ranking.CharacterItems | src/utils/rankingUtils.ts:49-55 | the walk over characters and skill entries yields only positive values |
| Ranking.RankOrdered | src/utils/rankingUtils.ts:152 | a ranking lists positive values, largest first |
| Ranking.RankMembers | src/utils/rankingUtils.ts:152 | the ranking holds exactly the items of the walk |
| Ranking.DebuffMetric | src/utils/rankingUtils.ts:198-202 | a debuff calculator tests effects against its own debuff type |
| Ranking.DebuffKeeps | src/utils/rankingUtils.ts:102-107 | a debuff ranking keeps exactly the effects of its type that are aimed at enemies |
| Ranking.CalculatorNamed | src/utils/rankingUtils.ts:204-224 | a calculator is found exactly for the names the table registers |
| Ranking.CalculatorTable | src/utils/rankingUtils.ts:204-224 | the table names eighteen calculators, each name once, and every non-speed calculator tests effects against its own effect type, so a debuff calculator's type and debuff type agree |
| Characters.AbsentNeverMatches | src/utils/characterUtils.ts:36-41 | an undefined property never matches, not even a `duration` filter with a `null` value |
| Characters.DescriptionNeverMatches | src/utils/characterUtils.ts:33 | a `description` filter never matches a structured effect, which has no such property |
| Characters.NullMatchesNull | src/utils/characterUtils.ts:43-45 | a `null` property matches exactly the `null` filter value |
| Characters.NumberMatchesEqual | src/utils/characterUtils.ts:52-54 | a number matches exactly the equal number |
| Characters.TextMatches | src/utils/characterUtils.ts:47-50 | text matches only text: the whole text in `exact` mode, a substring otherwise |
| Characters.EmptyTextMatches | src/utils/characterUtils.ts:47-50 | in the default `contains` mode the empty filter text matches every text property |
| Characters.KatakanaToHiragana | src/utils/characterUtils.ts:59-64 | characters U+30A1 to U+30F6 move down by 0x60 and every other character is kept |
| Characters.FoldIdempotent | src/utils/characterUtils.ts:59-64 | folding leaves no katakana behind, so folding twice is folding once |
| Characters.FoldKeepsContains | src/utils/characterUtils.ts:59-64 | text containing `p` folds to text containing the folded `p` |
| Characters.SearchIsFolded | src/utils/characterUtils.ts:80-90 | a non-empty term matches exactly when the folded name contains the folded term; the unfolded test is subsumed |
| Characters.SomeRole | src/utils/characterUtils.ts:96 | the role test holds exactly when some listed role is one of the character's roles |
| Characters.SomeEffectExists | src/utils/characterUtils.ts:116 | `effects.some(checkEffect)` holds exactly when some effect satisfies the filter |
| Characters.SomeVersionExists | src/utils/characterUtils.ts:115-117 | `versions.some` holds exactly when some version has a satisfying effect |
| Characters.SomeSlotExists | src/utils/characterUtils.ts:114-118 | `Object.values(charSkills).some` holds exactly when some defined entry has a satisfying version |
| Characters.FilterHoldsWitness | src/utils/characterUtils.ts:114-118 | with structured data, a filter holds exactly when some effect of some version of some entry satisfies it |
| Characters.EveryFilterAll | src/utils/characterUtils.ts:103 | the skill filters form a conjunction |
| Characters.FallbackOnlyDescription | src/utils/characterUtils.ts:105-111 | without structured data only a text `description` filter can hold, by containment in the joined simple descriptions |
| Characters.FilteredMember | src/utils/characterUtils.ts:78-123 | a character is listed exactly when it is given and passes every test, and the list keeps the input order |
| Characters.FilteredNothing | src/utils/characterUtils.ts:78-123 | with no search term and no filters every character is listed, in order |
| Characters.PositionIndex | src/utils/characterUtils.ts:130-131 | `indexOf`: the first position of the name, and past the end exactly when the name is unlisted |
| Characters.SortKeepsCharacters | src/utils/characterUtils.ts:125-140 | every sort order lists exactly the characters that pass, each as often as before |
| Characters.NameOrder | src/utils/characterUtils.ts:126-127 | the name order is ascending in the collation |
| Characters.FormationOrder | src/utils/characterUtils.ts:128-136 | listed characters come before unlisted ones, in formation-list order |
| Characters.IconFileId | src/utils/characterUtils.ts:9 | the file name of an icon path reads back as its id |
| Characters.IconPrefersFullName | src/utils/characterUtils.ts:6-10 | the entry for the full name is used first, and its three-star id is preferred |
| Characters.IconDefault | src/utils/characterUtils.ts:5-16 | without an entry under either name the default icon is used |
| Classifier.Mark | src/hooks/useUnits.ts:278-281 | recording a slot sets that slot and keeps the others |
| Classifier.AnyContained | src/hooks/useUnits.ts:210-215 | the keyword scan holds exactly when some keyword occurs in the text |
| Classifier.AnyContext | src/hooks/useUnits.ts:231-247 | the context scan holds exactly when some context keyword hits: delimited for exact rules, as a substring otherwise |
| Classifier.AnyNegative | src/hooks/useUnits.ts:263-275 | the negative scan holds exactly when some negative keyword blocks |
| Classifier.NoContextFires | src/hooks/useUnits.ts:207-276 | a rule without context keywords fires exactly on a non-empty text with a primary keyword, a secondary keyword if it has any, and no blocking negative |
| Classifier.SelfHealFallbackDead | src/hooks/useUnits.ts:250-256 | the self-heal rule is the first rule and has no context keywords, so the self-mention fallback for that rule is never reached |
| Classifier.SelfHealBlocked | src/hooks/useUnits.ts:264-272 | for the self-heal rule only the three special negatives can block, and only when the text does not mention the unit's own HP; its other two negatives never block |
| Classifier.Record | src/hooks/useUnits.ts:278-281 | recording adds the category to the keys, sets the recorded slot while keeping the category's earlier slots, and leaves every other category's record as it was |
| Classifier.ApplyRuleHas | src/hooks/useUnits.ts:206-282 | one rule records a slot exactly when that slot was recorded before or the rule fires on one of that slot's texts |
| Classifier.ApplyRulesHas | src/hooks/useUnits.ts:205-283 | the rules record a slot exactly when it was recorded before or some rule of that category fires on that slot's text |
| Classifier.ApplyRuleWellFormed | src/hooks/useUnits.ts:278-281 | every stored record keeps at least one slot set |
| Classifier.ApplyRuleKeys | src/hooks/useUnits.ts:278-281 | only the category of the rule tried can become a new key |
| Classifier.ApplyRulesShape | src/hooks/useUnits.ts:205-283 | records stay non-empty, and every new key is the category of some rule |
| Classifier.ParseSkillFlagsShape | src/hooks/useUnits.ts:68-285 | every key of the result is the category of some rule, and every record has a slot set |
| Classifier.SlotsFromRules | src/hooks/useUnits.ts:205-283 | with three slots that have different sources, each slot is recorded under a category exactly when a rule of that category fires on its text |
| Classifier.ParseSkillFlagsSlots | src/hooks/useUnits.ts:68-285 | each description is recorded under a category exactly when a rule of that category fires on its lower-cased text |
| Classifier.EmptyDescriptionSilent | src/hooks/useUnits.ts:207 | an empty description records nothing |
| Units.OrElse | src/hooks/useUnits.ts:305-323 | `f \|\| fallback`: the value when it is present and non-empty, and the fallback otherwise |
| Units.ParseRarity | src/hooks/useUnits.ts:10-13 | a missing or empty value counts as one star; otherwise the count is at most the text length, and zero exactly when no `★` occurs |
| Units.RarityOfStars | src/hooks/useUnits.ts:10-13 | a row of `n` stars reads as `n` |
| Units.ParseAttackType | src/hooks/useUnits.ts:15-19 | the result is 0, 1 or 2, and a non-zero result is given only for the name of that type |
| Units.AttackTypeRoundTrip | src/hooks/useUnits.ts:15-19 | the names of the physical and magical types read back as 1 and 2 |
| Units.ParseElement | src/hooks/useUnits.ts:21-30 | a known element is given only for its own name |
| Units.ElementRoundTrip | src/hooks/useUnits.ts:21-30 | every element, the unknown one included, reads back from its name |
| Units.ParsePosition | src/hooks/useUnits.ts:32-39 | a known position is given only for its own name |
| Units.PositionRoundTrip | src/hooks/useUnits.ts:32-39 | every position reads back from its name |
| Units.ParseIsLimited | src/hooks/useUnits.ts:41-44 | 1 exactly when a present value mentions 期間限定 or フェス限定, and 0 otherwise |
| Units.Roll | src/hooks/useUnits.ts:55 | `Date.UTC`'s carry of out-of-month days always lands on a real calendar day and keeps a day that is already valid |
| Units.RollKeepsDay | src/hooks/useUnits.ts:55-56 | a carried day never keeps its number |
| Units.DateUtc | src/hooks/useUnits.ts:55-56 | a date that is read back is a real calendar day within the range a JavaScript date can hold |
| Units.UtcReadsBack | src/hooks/useUnits.ts:55-57 | the read-back check succeeds exactly for real calendar days within the date range whose year is outside 0 to 99 |
| Units.ParseDate | src/hooks/useUnits.ts:46-66 | the result is always a real day within the date range; any result other than the epoch comes from non-empty text of exactly three `/` parts that `parseInt` reads as its year, month and day, and never has a year from 0 to 99 |
| Units.ParseDateParts | src/hooks/useUnits.ts:48-62 | any text of three parts read as `y`, `m`, `d` gives that day exactly when it is a real day in range outside the years 0 to 99, and the epoch otherwise |
| Units.DateTextParts | src/hooks/useUnits.ts:48-52 | the text `y/m/d` splits into three parts that read back as `y`, `m` and `d` |
| Units.ParseDateRoundTrip | src/hooks/useUnits.ts:46-66 | every valid day in range outside the years 0 to 99 reads back from its text |
| Units.TwoDigitYearIsEpoch | src/hooks/useUnits.ts:55-65 | a year from 0 to 99 never survives the read-back check and falls back to the epoch |
| Units.UnitName | src/hooks/useUnits.ts:307 | the unit name starts with the character name and equals it when there is no version |
| Units.ActualNameStripsVersion | src/hooks/useUnits.ts:309-315 | for a character name without a full-width parenthesis, the actual name is the trimmed character name when there is a version, and the character name itself otherwise |
| Units.Comment | src/hooks/useUnits.ts:330 | the comment is the first non-empty description, or the fixed notice when all three are empty |
| Units.Derive | src/hooks/useUnits.ts:299-372 | an entry yields a unit exactly when it is an object |
| Units.DerivedFlags | src/hooks/useUnits.ts:317-325 | a unit's slot is flagged under a category exactly when a rule of that category fires on that slot's own description |
| Units.DefaultIdsDistinct | src/hooks/useUnits.ts:328 | units without an id are numbered 100001 plus their index, so two of them never share an id |
| Units.FilterMapMember | src/hooks/useUnits.ts:298-373 | `map(...).filter(Boolean)` keeps exactly the values some entry maps to at its own index |
| Units.FilterMapCount | src/hooks/useUnits.ts:298-373 | the list has one element per entry that yields a value |
| Units.TransformMember | src/hooks/useUnits.ts:298-373 | a unit is listed exactly when some object entry derives it at its own index, and the list is as long as the number of object entries |
| Units.FindEntry | src/hooks/useUnits.ts:397-400 | `find`: the first entry with that name, and none exactly when no entry has it |
| Units.IconId | src/hooks/useUnits.ts:404 | the three-star id is preferred, and the id is zero exactly when all three ids are |
| Units.UnitIcon | src/hooks/useUnits.ts:386-389 | a missing or empty name has no icon |
| Units.UnitIconExact | src/hooks/useUnits.ts:397-408 | an entry for the exact name wins, and the path names its preferred id |
| Units.BaseNameOfVersioned | src/hooks/useUnits.ts:391-396 | the base name of a versioned unit name is the trimmed character name |
| Units.UnitIconVersioned | src/hooks/useUnits.ts:397-408 | a versioned name without its own entry uses the entry of the bare character name |
| Units.UnitIconMissing | src/hooks/useUnits.ts:401-403 | without an entry under either name there is no icon |
| Lists.FilterMember | src/App.tsx:37 | `filter` keeps exactly the elements that pass the test |
| Lists.FilterInOrder | src/App.tsx:37 | `filter` keeps the input order |
| Lists.FilterKeepsAll | src/App.tsx:37 | a test everything passes keeps the list unchanged |
| App.Lookup | src/App.tsx:31 | `selection[key]` is defined exactly when the key was ever set, and it is the value stored under it |
| App.SetFilter | src/App.tsx:18-23 | the spread adds one entry for a new category and none for a known one |
| App.SetFilterShape | src/App.tsx:18-23 | a new category is appended at the end, and a known one is updated in place |
| App.SetFilterLookup | src/App.tsx:18-23 | afterwards the category reads as `checked`, and every other key reads as before |
| App.SetFilterDistinct | src/App.tsx:18-23 | setting a filter never creates a second entry for a key |
| App.ActiveKeys | src/App.tsx:29-33 | a key is listed only if it has a ticked entry, every ticked entry's key is listed, and there are no more keys than entries |
| App.ActiveMember | src/App.tsx:29-33 | a category is active exactly when its box is ticked |
| App.Toggle | src/App.tsx:18-33 | ticking or unticking one box changes the active categories in that category only |
| App.FilteredUnitsMember | src/App.tsx:35-58 | a unit is listed exactly when it passes the name, element, attack-type, limited and skill-category tests, and the list keeps the unit order |
| App.NoCriteria | src/App.tsx:35-58 | with an empty page state every unit is listed |
| App.MoreCategoriesFewerUnits | src/App.tsx:50-56 | ticking more categories never lists more units |
| App.ListedForAReason | src/App.tsx:50-56 | for a listed unit whose flags come from its descriptions, every ticked category has a rule of that category firing on one of those descriptions |
| UnitCard.ElementIconPath | src/components/UnitCard.tsx:41-50 | there is an icon for each of the five elements, and none for the unknown element |
| UnitCard.ElementIconsDistinct | src/components/UnitCard.tsx:41-50 | different elements never share an icon |
| UnitCard.ShortPositionName | src/components/UnitCard.tsx:52-59 | the label is the first character of the position name, and empty for an unknown position |
| UnitCard.SkillName | src/components/UnitCard.tsx:72-78 | a matched skill's label is never empty |
| UnitCard.MatchedSkills | src/components/UnitCard.tsx:70-79 | lists exactly the flagged slots, with their labels, and is empty exactly when no slot is flagged |
| UnitCard.MatchedDetails | src/components/UnitCard.tsx:61-87 | every listed category is a key of the unit's flags and lists at least one skill |
| UnitCard.MatchedDetailsAreFlagged | src/components/UnitCard.tsx:61-87 | the listed categories are the ticked categories under which the unit has a flagged slot, in tick order, and each lists exactly its flagged slots |
| UnitCard.MatchedDetailsMember | src/components/UnitCard.tsx:61-87 | a ticked category is on the card exactly when the unit has a slot flagged under it, and the card keeps the tick order |
| UnitCard.FlaggedCategoriesShown | src/components/UnitCard.tsx:67-83 | for a unit built from its descriptions, every ticked category that is a key of its flags appears on its card |
| FilterPanel.Scan | src/components/FilterPanel.tsx:41-46 | one pass takes every item that meets its test and is not yet claimed, each once, and claims them |
| FilterPanel.RunTakes | src/components/FilterPanel.tsx:41-91 | a pass takes only unclaimed items that meet its test |
| FilterPanel.RunDisjoint | src/components/FilterPanel.tsx:41-91 | a pass never takes an item that an earlier pass took |
| FilterPanel.RunLeavesNothing | src/components/FilterPanel.tsx:41-91 | an unclaimed item that meets a pass's test is taken by that pass or an earlier one |
| FilterPanel.PassesFacts | src/components/FilterPanel.tsx:34-91 | the HP/TP pass takes exactly the HP, TP and drain categories; later passes take nothing an earlier pass took; and every HP/TP, ally or enemy category lands in some pass |
| FilterPanel.TakesListed | src/components/FilterPanel.tsx:61 | the keyword passes take only categories of the list |
| FilterPanel.GroupsDisjoint | src/components/FilterPanel.tsx:22-93 | no category is offered in two groups |
| FilterPanel.GroupsListed | src/components/FilterPanel.tsx:22-93 | every offered category is one of the list |
| FilterPanel.GroupsCover | src/components/FilterPanel.tsx:22-93 | every HP/TP, ally or enemy category of the list is offered in some group |
| FilterPanel.ShownGroups | src/components/FilterPanel.tsx:218-219 | the panel renders exactly the non-empty groups, in their order |
| Text.SplitJoin | src/hooks/useUnits.ts:48 | `split` undoes `join` for parts that do not contain the separator |
| Text.BeforeSeparator | src/hooks/useUnits.ts:311-313 | `split('（')[0]` of `a + '（' + b` is `a` when `a` has no `（` |
| Text.CountRepeat | src/hooks/useUnits.ts:12 | the `★` count of a row of `n` stars is `n` |

## Left out

- I/O and framework code: data loading, React state and rendering, `console` output, and the loading and error flags of `useUnits`. The data files are parameters.
- Formula.CalculateValue: division or remainder by zero has no value here, whereas JavaScript yields `Infinity` or `NaN`, and `Math.floor` passes them through.
- Formula.CalculateValue: the arithmetic is read over exact rationals, not IEEE doubles, so rounding before `Math.floor` is lost. `スキルLv*1.15` at level 100 is 114.99999999999999 in JavaScript, which floors to 114; the model gives 115.
- Formula.CalculateValue: a leading zero is decimal here. Sloppy-mode JavaScript reads `010` as the legacy octal 8, so `010*2` is 16; the model gives 20.
- Formula.CalculateValue: a line terminator before the expression is white space here. In `"\n5*2"`, JavaScript's automatic semicolon insertion ends the `return` statement, which returns `undefined`, so the result is `NaN`; the model gives 10.
- Formula.EffectValue: it uses the same exact reading of the arithmetic, so rounding, legacy octal and a leading line terminator differ from JavaScript as described for `Formula.CalculateValue`.
- Formula.EffectValue: it checks no characters before evaluating, so JavaScript evaluates text the model gives no value for. That covers exponentiation (`スキルLv**2` is 10000 at level 100), exponent literals (`スキルLv*1e2` is 10000), comments (`スキルLv*2 // 注` is 200), the comma operator (the last operand's value), comparisons and logical operators (`true` or `false`, floored to 1 or 0), and any other expression syntax beyond `+ - * / %`, parentheses and decimal literals.
- Formula.CalculateValue: exponentiation `**`, comments, exponent notation and the increment and decrement tokens are unevaluable here. The source would evaluate some of them or throw a syntax error.
- Numbers.JsNumber: only the decimal literals `Number` accepts are modelled. Hexadecimal, binary, octal, `Infinity` and exponent forms are not, and the number is exact, with no rounding to floating point.
- Numbers.ParseIntPrefix: integers are unbounded, so precision above 2^53 is not lost.
- Text.Lower: `toLowerCase` is modelled on ASCII letters only. The unit descriptions and keywords are Japanese, and the keywords use lower-case ASCII.
- Japanese collation (`localeCompare(…, 'ja')`) is a parameter, a key function over full names.
- Characters.FormationOrder: the source comparator returns 1 whenever the first character is unlisted, even when both are. That comparator is inconsistent, and the engine's order for two unlisted characters is unspecified. The model keeps unlisted characters in input order, after the listed ones.
- Characters.SimpleDescriptions: the order of `Object.values(character.skills)` is taken to be the slot order of the record.
- `characterUtils.getElementIconPath` and `getPositionIconPath` are not part of this model. The unit card's own `getElementIconPath` is.
- Ranking.RankVersion: an effect whose formula divides by zero adds nothing to the total here. In JavaScript its value is `NaN` or an infinity, and `value !== null` lets it into `totalValue`. A `NaN` total fails `totalValue > 0` and drops the item, `Infinity` gives an item worth `Infinity`, and `-Infinity` drops it. The model can therefore keep an item the source drops, or give a finite value where the source gives `Infinity`.
- Ranking.RankVersion: the `details` text is a list of annotations (duration, permanent, condition) rather than the joined and trimmed string.
- Units.ParseDate: the result is the calendar day rather than its ISO-8601 text.
- Units.Derive: the pass-through fields copied from the raw entry with constant defaults are not modelled. These are `only_disp_owned`, `end_time`, `motion_type` through `original_unit_id`, `kana`, `comment_2` and `start_time_2`. The modelled fields are the id, names, comment, flags, parsed attributes, descriptions, skill names and start time.
- Units.Comment: it states that the comment is the notice when all descriptions are empty, but not the converse. A description could itself equal the notice text.
- Classifier.ParseSkillFlagsShape: it states that every key is some rule's category. That rule 0 is the only self-heal rule is not proved. The rule table is a large literal that the solver cannot index deeply.
- Classifier.AnyContext: the context regular expression's case-insensitive flag is not modelled. The descriptions are lower-cased before matching, and the exact-match context keywords contain no letters.
- FilterPanel: the category list (`SkillCategoriesList`) is a parameter, and the groups are a function of it.
- The ranking page's other operations, the skill-detail rendering and the modal components are not part of this model. Of the skill detail view, only `calculateEffectValue` is modelled.

=== FILE: app.dfy ===
/** The unit list page: the skill-category check boxes, the categories
    currently ticked, and the list of units the page shows. */
module App {
  import opened Wrappers
  import opened Text
  import opened Model
  import opened SkillRules
  import opened Classifier
  import opened Lists

  /** The ticked state of each category that was ever clicked, in the order
      the categories were first clicked (the key order of a JavaScript
      object with string keys). */
  type Selection = seq<(string, bool)>

  predicate DistinctKeys(sel: Selection) {
    forall i, j :: 0 <= i < j < |sel| ==> sel[i].0 != sel[j].0
  }

  /** `selection[key]`. */
  function Lookup(sel: Selection, key: string): (r: Option<bool>)
    ensures r.Some? <==> exists i :: 0 <= i < |sel| && sel[i].0 == key
    ensures r.Some? ==> exists i :: 0 <= i < |sel| && sel[i] == (key, r.value)
    decreases |sel|
  {
    if |sel| == 0 then None
    else if sel[0].0 == key then Some(sel[0].1)
    else
      assert forall i :: 1 <= i < |sel| ==> sel[i] == sel[1..][i - 1];
      Lookup(sel[1..], key)
  }

  /** `handleSkillFilterChange(category, checked)`: `{...prev, [category]:
      checked}`. A category already present keeps its place. */
  function SetFilter(sel: Selection, category: string, checked: bool): (r: Selection)
    ensures |r| == |sel| + (if Lookup(sel, category).Some? then 0 else 1)
    decreases |sel|
  {
    if |sel| == 0 then [(category, checked)]
    else if sel[0].0 == category then [(category, checked)] + sel[1..]
    else [sel[0]] + SetFilter(sel[1..], category, checked)
  }

  /** A new category is appended; a known one is updated in place. */
  lemma {:induction false} SetFilterShape(sel: Selection, category: string, checked: bool)
    ensures Lookup(sel, category).None? ==> SetFilter(sel, category, checked) == sel + [(category, checked)]
    ensures Lookup(sel, category).Some? ==>
      exists i :: 0 <= i < |sel| && sel[i].0 == category && SetFilter(sel, category, checked) == sel[i := (category, checked)]
    decreases |sel|
  {
    var r := SetFilter(sel, category, checked);
    if |sel| > 0 {
      if sel[0].0 == category {
        assert r == sel[0 := (category, checked)];
      } else {
        var t := SetFilter(sel[1..], category, checked);
        SetFilterShape(sel[1..], category, checked);
        if Lookup(sel, category).None? {
          assert r == [sel[0]] + (sel[1..] + [(category, checked)]);
          assert r == sel + [(category, checked)];
        } else {
          var i :| 0 <= i < |sel[1..]| && sel[1..][i].0 == category && t == sel[1..][i := (category, checked)];
          assert r == sel[i + 1 := (category, checked)];
        }
      }
    }
  }

  /** After the change the category reads as `checked` and every other
      category reads as before. */
  lemma {:induction false} SetFilterLookup(sel: Selection, category: string, checked: bool, key: string)
    ensures Lookup(SetFilter(sel, category, checked), key) ==
      (if key == category then Some(checked) else Lookup(sel, key))
    decreases |sel|
  {
    var r := SetFilter(sel, category, checked);
    if |sel| > 0 {
      if sel[0].0 == category {
        assert r[1..] == sel[1..];
      } else {
        SetFilterLookup(sel[1..], category, checked, key);
        assert r[1..] == SetFilter(sel[1..], category, checked);
      }
    }
  }

  /** Setting a filter never creates a second entry for a key. */
  lemma SetFilterDistinct(sel: Selection, category: string, checked: bool)
    requires DistinctKeys(sel)
    ensures DistinctKeys(SetFilter(sel, category, checked))
  {
    SetFilterShape(sel, category, checked);
  }

  /** `activeSkillFilterKeys`: the ticked categories, in key order. Every
      key it lists has a ticked entry, and every ticked entry is listed. */
  function ActiveKeys(sel: Selection): (r: seq<string>)
    ensures |r| <= |sel|
    ensures forall k :: k in r ==> exists i :: 0 <= i < |sel| && sel[i] == (k, true)
    ensures forall i :: 0 <= i < |sel| && sel[i].1 ==> sel[i].0 in r
    decreases |sel|
  {
    if |sel| == 0 then []
    else (if sel[0].1 then [sel[0].0] else []) + ActiveKeys(sel[1..])
  }

  /** A category is active exactly when its check box is ticked. */
  lemma {:induction false} ActiveMember(sel: Selection, key: string)
    requires DistinctKeys(sel)
    ensures key in ActiveKeys(sel) <==> Lookup(sel, key) == Some(true)
    decreases |sel|
  {
    if |sel| > 0 {
      ActiveMember(sel[1..], key);
      if sel[0].0 == key {
        assert key !in ActiveKeys(sel[1..]) by {
          ActiveMember(sel[1..], key);
          assert Lookup(sel[1..], key).None?;
        }
      }
    }
  }

  /** Ticking or unticking one box changes the active set in that category
      only. */
  lemma Toggle(sel: Selection, category: string, checked: bool, key: string)
    requires DistinctKeys(sel)
    ensures key in ActiveKeys(SetFilter(sel, category, checked)) <==>
      (if key == category then checked else key in ActiveKeys(sel))
  {
    SetFilterDistinct(sel, category, checked);
    ActiveMember(SetFilter(sel, category, checked), key);
    ActiveMember(sel, key);
  }

  // ---------------------------------------------------------------------
  // The listed units.
  // ---------------------------------------------------------------------

  /** The page state the list depends on. */
  datatype Criteria = Criteria(
    term: string,
    element: Option<Element>,
    atkType: Option<int>,
    limitedOnly: bool,
    active: seq<string>)

  /** The filter callback of `filteredUnits`. */
  predicate Shows(u: Unit, c: Criteria) {
    (|c.term| == 0 || Contains(Lower(u.unitName), Lower(c.term)))
    && (c.element.None? || u.element == c.element.value)
    && (c.atkType.None? || u.atkType == c.atkType.value)
    && (!c.limitedOnly || u.isLimited == 1)
    && forall key :: key in c.active ==> key in u.skillFlags
  }

  function ShownBy(c: Criteria): Unit -> bool {
    (u: Unit) => Shows(u, c)
  }

  /** `filteredUnits`. */
  function FilteredUnits(units: seq<Unit>, c: Criteria): seq<Unit> {
    Filter(units, ShownBy(c))
  }

  /** A unit is listed exactly when it passes every test, and the list
      keeps the order of the units. */
  lemma FilteredUnitsMember(units: seq<Unit>, c: Criteria, u: Unit)
    ensures u in FilteredUnits(units, c) <==> u in units && Shows(u, c)
    ensures Subsequence(FilteredUnits(units, c), units)
  {
    FilterMember(units, ShownBy(c), u);
    FilterInOrder(units, ShownBy(c));
  }

  /** With an empty page state every unit is listed. */
  lemma NoCriteria(units: seq<Unit>)
    ensures FilteredUnits(units, Criteria("", None, None, false, [])) == units
  {
    FilterKeepsAll(units, ShownBy(Criteria("", None, None, false, [])));
  }

  /** Ticking more categories never lists more units. */
  lemma MoreCategoriesFewerUnits(units: seq<Unit>, c: Criteria, more: seq<string>, u: Unit)
    requires forall key :: key in c.active ==> key in more
    requires u in FilteredUnits(units, c.(active := more))
    ensures u in FilteredUnits(units, c)
  {
    FilteredUnitsMember(units, c.(active := more), u);
    FilteredUnitsMember(units, c, u);
  }

  /** A listed unit whose flags come from its descriptions has, for every
      ticked category, a rule of that category firing on one of them. */
  lemma ListedForAReason(units: seq<Unit>, c: Criteria, u: Unit, k: nat)
    requires u in FilteredUnits(units, c) && k < |c.active|
    requires u.skillFlags == ParseSkillFlags(u.ubDescription, u.skill1Description, u.skill2Description)
    ensures exists i :: (0 <= i < |Rules| && Rules[i].category == c.active[k]
      && (Fires(Rules[i], Lower(u.ubDescription)) || Fires(Rules[i], Lower(u.skill1Description))
          || Fires(Rules[i], Lower(u.skill2Description))))
  {
    FilteredUnitsMember(units, c, u);
    var category := c.active[k];
    ParseSkillFlagsShape(u.ubDescription, u.skill1Description, u.skill2Description, category);
    ParseSkillFlagsSlots(u.ubDescription, u.skill1Description, u.skill2Description, category);
    var info := u.skillFlags[category];
    if info.ub {
      assert Has(u.skillFlags, category, UB);
    } else if info.s1 {
      assert Has(u.skillFlags, category, S1);
    } else {
      assert Has(u.skillFlags, category, S2);
    }
  }
}

=== FILE: arith.dfy ===
/** An exact rational reading of the arithmetic that `calculateValue` hands to
    JavaScript's `new Function('return ' + e)`: a recursive-descent evaluator
    over `real`, where JavaScript computes in double precision.

    Grammar (JavaScript precedence, left associative):
      expr   ::= term (('+' | '-') term)*
      term   ::= factor (('*' | '/' | '%') factor)*
      factor ::= ('+' | '-') factor | '(' expr ')' | number
      number ::= digits ['.' digits?] | '.' digits
    with JavaScript white space allowed between tokens. Character pairs that
    JavaScript reads as a different token (`++`, `--`, `**`, and a slash
    followed by a slash or a star, which opens a comment) make the text
    unevaluable, as does division or remainder by zero. */
module Arith {
  import opened Wrappers
  import opened Text
  import opened Numbers

  /** A value read from the text and the index just past it. */
  datatype Parsed = Parsed(value: real, next: nat)

  /** Rounding toward zero. */
  function Trunc(x: real): int {
    if x >= 0.0 then x.Floor else -((-x).Floor)
  }

  /** JavaScript's `%` on numbers: the sign follows the dividend. */
  function Remainder(a: real, b: real): real
    requires b != 0.0
  {
    a - b * (Trunc(a / b) as real)
  }

  /** The binary operators. */
  datatype Op = Add | Sub | Mul | Div | Rem

  function OpChar(op: Op): char {
    match op
    case Add => '+'
    case Sub => '-'
    case Mul => '*'
    case Div => '/'
    case Rem => '%'
  }

  function Apply(op: Op, a: real, b: real): Option<real> {
    match op
    case Add => Some(a + b)
    case Sub => Some(a - b)
    case Mul => Some(a * b)
    case Div => if b == 0.0 then None else Some(a / b)
    case Rem => if b == 0.0 then None else Some(Remainder(a, b))
  }

  /** The operator an operator character denotes. */
  function OpOf(c: char): Op {
    if c == '+' then Add else if c == '-' then Sub
    else if c == '*' then Mul else if c == '/' then Div else Rem
  }

  /** The operator at `j` is the first half of a two-character token. */
  predicate Doubled(s: string, j: nat)
    requires j < |s|
  {
    j + 1 < |s| &&
    ((s[j] == '+' && s[j + 1] == '+') || (s[j] == '-' && s[j + 1] == '-')
     || (s[j] == '*' && s[j + 1] == '*')
     || (s[j] == '/' && (s[j + 1] == '/' || s[j + 1] == '*')))
  }

  /** A numeric literal starting exactly at `i`. */
  function ParseNumber(s: string, i: nat): (r: Option<Parsed>)
    requires i < |s|
    ensures r.Some? ==> i < r.value.next <= |s|
    ensures r.Some? ==> r.value.value >= 0.0
  {
    var e := DigitRunEnd(s, i);
    assert AllDigits(s[i..e]) by {
      DigitRun(s, i);
    }
    if e < |s| && s[e] == '.' then
      var f := DigitRunEnd(s, e + 1);
      assert AllDigits(s[e + 1..f]) by {
        DigitRun(s, e + 1);
      }
      if e == i && f == e + 1 then None
      else Some(Parsed(DigitsValue(s[i..e]) as real + Fraction(s[e + 1..f]), f))
    else if e == i then None
    else Some(Parsed(DigitsValue(s[i..e]) as real, e))
  }

  function ParseFactor(s: string, i: nat): (r: Option<Parsed>)
    requires i <= |s|
    ensures r.Some? ==> i < r.value.next <= |s|
    decreases |s| - i, 0
  {
    var j := SpaceEnd(s, i);
    if j == |s| then None
    else if s[j] == '(' then
      match ParseExpr(s, j + 1)
      case None => None
      case Some(p) =>
        var k := SpaceEnd(s, p.next);
        if k < |s| && s[k] == ')' then Some(Parsed(p.value, k + 1)) else None
    else if s[j] == '-' || s[j] == '+' then
      if Doubled(s, j) then None
      else
        match ParseFactor(s, j + 1)
        case None => None
        case Some(p) => Some(Parsed(if s[j] == '-' then -p.value else p.value, p.next))
    else ParseNumber(s, j)
  }

  /** The `(('*' | '/' | '%') factor)*` tail of a term whose value so far is `acc`. */
  function TermRest(s: string, acc: real, i: nat): (r: Option<Parsed>)
    requires i <= |s|
    ensures r.Some? ==> i <= r.value.next <= |s|
    decreases |s| - i, 1
  {
    var j := SpaceEnd(s, i);
    if j < |s| && (s[j] == '*' || s[j] == '/' || s[j] == '%') then
      if Doubled(s, j) then None
      else
        match ParseFactor(s, j + 1)
        case None => None
        case Some(p) =>
          match Apply(OpOf(s[j]), acc, p.value)
          case None => None
          case Some(v) => TermRest(s, v, p.next)
    else Some(Parsed(acc, i))
  }

  function ParseTerm(s: string, i: nat): (r: Option<Parsed>)
    requires i <= |s|
    ensures r.Some? ==> i < r.value.next <= |s|
    decreases |s| - i, 2
  {
    match ParseFactor(s, i)
    case None => None
    case Some(p) => TermRest(s, p.value, p.next)
  }

  /** The `(('+' | '-') term)*` tail of an expression whose value so far is `acc`. */
  function ExprRest(s: string, acc: real, i: nat): (r: Option<Parsed>)
    requires i <= |s|
    ensures r.Some? ==> i <= r.value.next <= |s|
    decreases |s| - i, 3
  {
    var j := SpaceEnd(s, i);
    if j < |s| && (s[j] == '+' || s[j] == '-') then
      if Doubled(s, j) then None
      else
        match ParseTerm(s, j + 1)
        case None => None
        case Some(p) =>
          match Apply(OpOf(s[j]), acc, p.value)
          case None => None
          case Some(v) => ExprRest(s, v, p.next)
    else Some(Parsed(acc, i))
  }

  function ParseExpr(s: string, i: nat): (r: Option<Parsed>)
    requires i <= |s|
    ensures r.Some? ==> i < r.value.next <= |s|
    decreases |s| - i, 4
  {
    match ParseTerm(s, i)
    case None => None
    case Some(p) => ExprRest(s, p.value, p.next)
  }

  /** The exact value of the whole text read as one expression; `None` where
      JavaScript would throw, where the text is not arithmetic, and where it
      divides by zero. */
  function Evaluate(s: string): (r: Option<real>)
    ensures r.Some? ==> exists k :: 0 <= k < |s| && !IsJsSpace(s[k])
  {
    match ParseExpr(s, 0)
    case None => None
    case Some(p) =>
      if SpaceEnd(s, p.next) == |s| then
        assert !IsJsSpace(s[SpaceEnd(s, 0)]) by {
          assert ParseTerm(s, 0).Some?;
          assert ParseFactor(s, 0).Some?;
        }
        Some(p.value)
      else None
  }

  // ---------------------------------------------------------------------
  // Reference semantics: arithmetic trees, their meaning and their text.
  // ---------------------------------------------------------------------

  /** Decimal digits, as written after a decimal point. */
  type Digits = s: string | AllDigits(s) witness ""

  /** An arithmetic tree: a literal `whole.frac` (written without a point when
      `frac` is empty), a negation, or a binary operation. */
  datatype Ast = Num(whole: nat, frac: Digits) | Neg(operand: Ast) | Bin(op: Op, left: Ast, right: Ast)

  /** Negation of a value that may be missing. */
  function Negate(r: Option<real>): Option<real> {
    match r
    case None => None
    case Some(v) => Some(-v)
  }

  /** A binary operation on values that may be missing. */
  function Combine(op: Op, rl: Option<real>, rr: Option<real>): Option<real> {
    match rl
    case None => None
    case Some(x) =>
      match rr
      case None => None
      case Some(y) => Apply(op, x, y)
  }

  /** The meaning of a tree; `None` when it divides by zero. */
  function Eval(a: Ast): Option<real> {
    match a
    case Num(w, f) => Some(w as real + Fraction(f))
    case Neg(e) => Negate(Eval(e))
    case Bin(op, l, r) => Combine(op, Eval(l), Eval(r))
  }

  /** The text of a literal: the whole part, then a point and the fraction
      digits when there are any. */
  function Literal(w: nat, f: Digits): (t: string)
    ensures |t| > 0 && IsDigit(t[0]) && IsDigit(t[|t| - 1])
  {
    if |f| == 0 then NatToString(w) else NatToString(w) + "." + f
  }

  /** How tightly an operator binds: 1 for `*`, `/` and `%`, 0 for `+` and `-`. */
  function OpRank(op: Op): nat {
    if op == Add || op == Sub then 0 else 1
  }

  /** How tightly a tree's top binds: literals and negations are factors (2),
      above terms (1) and sums (0). */
  function Rank(a: Ast): nat {
    match a
    case Bin(op, _, _) => OpRank(op)
    case _ => 2
  }

  /** A left operand needs no parentheses unless it binds more loosely than
      its operator. */
  predicate LeftBare(op: Op, l: Ast) {
    Rank(l) >= OpRank(op)
  }

  /** A right operand needs none only when it binds strictly more tightly
      (the operators are left associative) and does not put a second `-`
      straight after a `-`, which would read as the decrement token. */
  predicate RightBare(op: Op, r: Ast) {
    Rank(r) > OpRank(op) && !(op == Sub && Signed(r))
  }

  /** The tree's text starts with a minus sign. */
  predicate Signed(a: Ast) {
    match a
    case Num(_, _) => false
    case Neg(_) => true
    case Bin(op, l, _) => LeftBare(op, l) && Signed(l)
  }

  function Wrap(t: string, bare: bool): string {
    if bare then t else "(" + t + ")"
  }

  /** The text a person would write for a tree: parentheses only where
      precedence or left associativity demand them, a negated compound in
      parentheses, and `gap` on both sides of every binary operator. */
  function Render(a: Ast, gap: string): string {
    match a
    case Num(w, f) => Literal(w, f)
    case Neg(e) => "-" + Wrap(Render(e, gap), e.Num?)
    case Bin(op, l, r) =>
      Wrap(Render(l, gap), LeftBare(op, l)) + gap + [OpChar(op)] + gap
      + Wrap(Render(r, gap), RightBare(op, r))
  }

  /** A rendered tree starts with a minus sign exactly when it is signed. */
  lemma {:induction false} RenderSign(a: Ast, gap: string)
    ensures var t := Render(a, gap); |t| > 0 && (t[0] == '-' <==> Signed(a))
  {
    match a
    case Num(_, _) =>
    case Neg(e) =>
      RenderSign(e, gap);
      WrapEnds(Render(e, gap), e.Num?);
      HeadOf("-", Wrap(Render(e, gap), e.Num?));
    case Bin(op, l, r) =>
      RenderSign(l, gap);
      RenderSign(r, gap);
      WrapEnds(Render(l, gap), LeftBare(op, l));
      WrapEnds(Render(r, gap), RightBare(op, r));
      BinEnds(Wrap(Render(l, gap), LeftBare(op, l)), gap, OpChar(op), Wrap(Render(r, gap), RightBare(op, r)));
  }

  /** A character a rendered tree may start with. */
  predicate Opening(c: char) {
    c == '-' || c == '(' || IsDigit(c)
  }

  /** A character a rendered tree may end with. */
  predicate Closing(c: char) {
    c == ')' || IsDigit(c)
  }

  /** Non-empty text that starts and ends as a rendered tree does. */
  predicate Delimited(t: string) {
    |t| > 0 && Opening(t[0]) && Closing(t[|t| - 1])
  }

  /** A rendered tree starts with `-`, `(` or a digit and ends with `)` or a
      digit. */
  lemma {:induction false} RenderEnds(a: Ast, gap: string)
    ensures Delimited(Render(a, gap))
  {
    match a
    case Num(_, _) =>
    case Neg(e) =>
      RenderEnds(e, gap);
      WrapDelimited(Render(e, gap), e.Num?);
      NegDelimited(Wrap(Render(e, gap), e.Num?));
    case Bin(op, l, r) =>
      RenderEnds(l, gap);
      RenderEnds(r, gap);
      WrapDelimited(Render(l, gap), LeftBare(op, l));
      WrapDelimited(Render(r, gap), RightBare(op, r));
      BinDelimited(Wrap(Render(l, gap), LeftBare(op, l)), gap, OpChar(op), Wrap(Render(r, gap), RightBare(op, r)));
  }

  lemma WrapDelimited(t: string, bare: bool)
    requires Delimited(t)
    ensures Delimited(Wrap(t, bare))
  {
  }

  lemma NegDelimited(w: string)
    requires Delimited(w)
    ensures Delimited("-" + w)
  {
    LastOf("-", w);
  }

  lemma BinDelimited(wl: string, gap: string, c: char, wr: string)
    requires Delimited(wl) && Delimited(wr)
    ensures Delimited(wl + gap + [c] + gap + wr)
  {
    BinEnds(wl, gap, c, wr);
  }

  /** The first character of two texts joined. */
  lemma HeadOf(x: string, y: string)
    requires |x| > 0
    ensures |x + y| > 0 && (x + y)[0] == x[0]
  {
  }

  /** The last character of two texts joined. */
  lemma LastOf(x: string, y: string)
    requires |y| > 0
    ensures |x + y| > 0 && (x + y)[|x + y| - 1] == y[|y| - 1]
  {
  }

  lemma WrapEnds(t: string, bare: bool)
    requires |t| > 0
    ensures var w := Wrap(t, bare);
      |w| > 0 && w[0] == (if bare then t[0] else '(')
      && w[|w| - 1] == (if bare then t[|t| - 1] else ')')
  {
  }

  /** `wl op wr`, with `gap` around the operator, starts where `wl` does and
      ends where `wr` does. */
  lemma BinEnds(wl: string, gap: string, c: char, wr: string)
    requires |wl| > 0 && |wr| > 0
    ensures var t := wl + gap + [c] + gap + wr;
      |t| > 0 && t[0] == wl[0] && t[|t| - 1] == wr[|wr| - 1]
  {
    HeadOf(wl, gap);
    HeadOf(wl + gap, [c]);
    HeadOf(wl + gap + [c], gap);
    HeadOf(wl + gap + [c] + gap, wr);
    LastOf(wl + gap + [c] + gap, wr);
  }

  /** A position where a numeric literal cannot continue. */
  predicate Boundary(s: string, k: nat) {
    k == |s| || (k < |s| && !IsDigit(s[k]) && s[k] != '.' && !IsJsSpace(s[k]))
  }

  /** `p` occurs in `s` at index `i`, one character at a time. */
  predicate At(s: string, i: nat, p: string)
    decreases |p|
  {
    if |p| == 0 then i <= |s| else i < |s| && s[i] == p[0] && At(s, i + 1, p[1..])
  }

  lemma {:induction false} AtIndex(s: string, i: nat, p: string, k: nat)
    requires At(s, i, p) && k < |p|
    ensures i + |p| <= |s| && s[i + k] == p[k]
    decreases k
  {
    if k > 0 {
      AtIndex(s, i + 1, p[1..], k - 1);
    } else {
      AtBound(s, i, p);
    }
  }

  lemma {:induction false} AtBound(s: string, i: nat, p: string)
    requires At(s, i, p)
    ensures i + |p| <= |s|
    decreases |p|
  {
    if |p| > 0 {
      AtBound(s, i + 1, p[1..]);
    }
  }

  /** Every suffix of a text occurs where it starts. */
  lemma {:induction false} AtSuffix(s: string, i: nat)
    requires i <= |s|
    ensures At(s, i, s[i..])
    decreases |s| - i
  {
    if i < |s| {
      assert s[i..][1..] == s[i + 1..];
      AtSuffix(s, i + 1);
    }
  }

  lemma {:induction false} AtSplit(s: string, i: nat, a: string, b: string)
    requires At(s, i, a + b)
    ensures At(s, i, a) && At(s, i + |a|, b)
    decreases |a|
  {
    if |a| == 0 {
      assert a + b == b;
      AtBound(s, i, b);
    } else {
      assert (a + b)[1..] == a[1..] + b;
      AtSplit(s, i + 1, a[1..], b);
    }
  }

  function Shift(r: Option<real>, k: nat): Option<Parsed> {
    match r
    case None => None
    case Some(v) => Some(Parsed(v, k))
  }

  // Single parsing steps, each stated for any text.
  /** `( expr )` read at `i`. */
  lemma ParenStep(s: string, i: nat, r: Option<real>, k: nat)
    requires i < |s| && s[i] == '(' && k < |s| && s[k] == ')'
    requires ParseExpr(s, i + 1) == Shift(r, k)
    ensures ParseFactor(s, i) == Shift(r, k + 1)
  {
    assert SpaceEnd(s, i) == i;
    match r
    case None =>
    case Some(v) =>
      assert SpaceEnd(s, k) == k;
  }

  /** Unary minus read at `i`. */
  lemma NegStep(s: string, i: nat, r: Option<real>, k: nat)
    requires i + 1 < |s| && s[i] == '-' && s[i + 1] != '-'
    requires ParseFactor(s, i + 1) == Shift(r, k)
    ensures ParseFactor(s, i) == Shift(Negate(r), k)
  {
    assert SpaceEnd(s, i) == i;
    assert !Doubled(s, i);
  }

  /** One multiplicative step of a term's tail. */
  lemma TermRestStep(s: string, acc: real, ka: nat, op: Op, y: real, kb: nat)
    requires op == Mul || op == Div || op == Rem
    requires ka < |s| && s[ka] == OpChar(op) && !Doubled(s, ka)
    requires ParseFactor(s, ka + 1) == Some(Parsed(y, kb))
    ensures TermRest(s, acc, ka) ==
      match Apply(op, acc, y) case None => None case Some(v) => TermRest(s, v, kb)
  {
    assert SpaceEnd(s, ka) == ka;
    assert !Doubled(s, ka);
    assert OpOf(s[ka]) == op;
  }

  lemma NumberPrint(n: nat, s: string, i: nat)
    requires At(s, i, NatToString(n)) && Boundary(s, i + |NatToString(n)|)
    ensures ParseFactor(s, i) == Some(Parsed(n as real, i + |NatToString(n)|))
  {
    var p := NatToString(n);
    var e := i + |p|;
    forall k | i <= k < e
      ensures IsDigit(s[k])
    {
      AtIndex(s, i, p, k - i);
    }
    DigitRunAcross(s, i, e);
    NatToStringRoundTrip(n);
    AtBound(s, i, p);
    assert s[i..e] == p by {
      forall k | 0 <= k < |p|
        ensures s[i..e][k] == p[k]
      {
        AtIndex(s, i, p, k);
      }
    }
    assert SpaceEnd(s, i) == i;
  }

  /** Three consecutive pieces of a text, located in `s`. */
  lemma Pieces(s: string, i: nat, a: string, b: string, c: string)
    requires At(s, i, a + b + c)
    ensures At(s, i, a) && At(s, i + |a|, b) && At(s, i + |a| + |b|, c)
  {
    AtSplit(s, i, a + b, c);
    AtSplit(s, i, a, b);
  }

  // ---------------------------------------------------------------------
  // Reading rendered text back.
  // ---------------------------------------------------------------------

  /** White space only. */
  predicate Blank(g: string) {
    forall k :: 0 <= k < |g| ==> IsJsSpace(g[k])
  }

  /** A literal cannot continue at `j`. */
  predicate LiteralEnd(s: string, j: nat) {
    j == |s| || (j < |s| && !IsDigit(s[j]) && s[j] != '.')
  }

  /** Past white space at `j` comes no `*`, `/` or `%`: a term ends there. */
  predicate TermEnd(s: string, j: nat)
    requires j <= |s|
  {
    var q := SpaceEnd(s, j);
    q == |s| || (s[q] != '*' && s[q] != '/' && s[q] != '%')
  }

  /** Past white space at `j` comes the end, `)`, `+` or `-`: an operand of a
      sum, or a whole expression, ends there. */
  predicate ExprEnd(s: string, j: nat)
    requires j <= |s|
  {
    var q := SpaceEnd(s, j);
    q == |s| || s[q] == ')' || s[q] == '+' || s[q] == '-'
  }

  /** Past white space at `j` comes the end or `)`. */
  predicate Closed(s: string, j: nat)
    requires j <= |s|
  {
    var q := SpaceEnd(s, j);
    q == |s| || s[q] == ')'
  }

  /** The tail of a term whose value so far is `r`, read from `j`. */
  function TermFrom(s: string, r: Option<real>, j: nat): Option<Parsed>
    requires j <= |s|
  {
    match r
    case None => None
    case Some(v) => TermRest(s, v, j)
  }

  /** The tail of an expression whose value so far is `r`, read from `j`. */
  function ExprFrom(s: string, r: Option<real>, j: nat): Option<Parsed>
    requires j <= |s|
  {
    match r
    case None => None
    case Some(v) => ExprRest(s, v, j)
  }

  lemma TermStops(s: string, r: Option<real>, j: nat)
    requires j <= |s| && TermEnd(s, j)
    ensures TermFrom(s, r, j) == Shift(r, j)
  {
  }

  lemma ExprStops(s: string, r: Option<real>, j: nat)
    requires j <= |s| && Closed(s, j)
    ensures ExprFrom(s, r, j) == Shift(r, j)
  {
  }

  /** White space `g` at `k`, followed by the end or by something else. */
  lemma {:induction false} SkipGap(s: string, k: nat, g: string)
    requires At(s, k, g) && Blank(g)
    requires k + |g| == |s| || (k + |g| < |s| && !IsJsSpace(s[k + |g|]))
    ensures SpaceEnd(s, k) == k + |g|
    decreases |g|
  {
    AtBound(s, k, g);
    if |g| > 0 {
      AtIndex(s, k, g, 0);
      assert Blank(g[1..]) by {
        forall m | 0 <= m < |g[1..]|
          ensures IsJsSpace(g[1..][m])
        {
          assert g[1..][m] == g[m + 1];
        }
      }
      SkipGap(s, k + 1, g[1..]);
    }
  }

  /** Leading white space changes nothing a factor or a term reads. */
  lemma FactorSkips(s: string, i: nat)
    requires i <= |s|
    ensures ParseFactor(s, i) == ParseFactor(s, SpaceEnd(s, i))
  {
    var j := SpaceEnd(s, i);
    assert SpaceEnd(s, j) == j;
  }

  lemma TermSkips(s: string, i: nat)
    requires i <= |s|
    ensures ParseTerm(s, i) == ParseTerm(s, SpaceEnd(s, i))
  {
    FactorSkips(s, i);
  }

  /** White space before an operator changes nothing a term's tail reads. */
  lemma TermRestSkips(s: string, acc: real, i: nat, ka: nat)
    requires i <= ka < |s| && SpaceEnd(s, i) == ka && (s[ka] == '*' || s[ka] == '/' || s[ka] == '%')
    ensures TermRest(s, acc, i) == TermRest(s, acc, ka)
  {
    assert SpaceEnd(s, ka) == ka;
  }

  /** A term's tail at an operator whose right operand fails. */
  lemma TermRestFails(s: string, acc: real, ka: nat)
    requires ka < |s| && (s[ka] == '*' || s[ka] == '/' || s[ka] == '%')
    requires ParseFactor(s, ka + 1) == None
    ensures TermRest(s, acc, ka) == None
  {
    assert SpaceEnd(s, ka) == ka;
  }

  /** One `*`, `/` or `%` step of a term's tail: white space from `i` to the
      operator at `ka`, then a factor read from `ka + 1` to `j`. */
  lemma TermStep(s: string, acc: real, i: nat, op: Op, ka: nat, r: Option<real>, j: nat)
    requires op == Mul || op == Div || op == Rem
    requires i <= ka < |s| && SpaceEnd(s, i) == ka && s[ka] == OpChar(op) && !Doubled(s, ka)
    requires j <= |s| && ParseFactor(s, ka + 1) == Shift(r, j)
    ensures TermRest(s, acc, i) == TermFrom(s, Combine(op, Some(acc), r), j)
  {
    TermRestSkips(s, acc, i, ka);
    match r
    case None =>
      TermRestFails(s, acc, ka);
    case Some(y) =>
      TermRestStep(s, acc, ka, op, y, j);
  }

  /** One `+` or `-` step of an expression's tail. */
  lemma ExprStep(s: string, acc: real, i: nat, op: Op, ka: nat, r: Option<real>, j: nat)
    requires op == Add || op == Sub
    requires i <= ka < |s| && SpaceEnd(s, i) == ka && s[ka] == OpChar(op) && !Doubled(s, ka)
    requires j <= |s| && ParseTerm(s, ka + 1) == Shift(r, j)
    ensures ExprRest(s, acc, i) == ExprFrom(s, Combine(op, Some(acc), r), j)
  {
    ExprRestSkips(s, acc, i, ka);
    match r
    case None =>
      ExprRestFails(s, acc, ka);
    case Some(y) =>
      ExprRestStep(s, acc, ka, op, y, j);
  }

  /** White space before an operator changes nothing an expression's tail
      reads. */
  lemma ExprRestSkips(s: string, acc: real, i: nat, ka: nat)
    requires i <= ka < |s| && SpaceEnd(s, i) == ka && (s[ka] == '+' || s[ka] == '-')
    ensures ExprRest(s, acc, i) == ExprRest(s, acc, ka)
  {
    assert SpaceEnd(s, ka) == ka;
  }

  /** An expression's tail at an operator whose right operand fails. */
  lemma ExprRestFails(s: string, acc: real, ka: nat)
    requires ka < |s| && (s[ka] == '+' || s[ka] == '-')
    requires ParseTerm(s, ka + 1) == None
    ensures ExprRest(s, acc, ka) == None
  {
    assert SpaceEnd(s, ka) == ka;
  }

  /** One additive step of an expression's tail. */
  lemma ExprRestStep(s: string, acc: real, ka: nat, op: Op, y: real, kb: nat)
    requires op == Add || op == Sub
    requires ka < |s| && s[ka] == OpChar(op) && !Doubled(s, ka)
    requires ParseTerm(s, ka + 1) == Some(Parsed(y, kb))
    ensures ExprRest(s, acc, ka) == ExprFrom(s, Apply(op, acc, y), kb)
  {
    assert SpaceEnd(s, ka) == ka;
    assert OpOf(s[ka]) == op;
  }

  /** A term read to `jl`, then `op` at `ka` and a factor read to `j`: the
      term continues at `j` with the combined value. */
  lemma TermJoin(s: string, op: Op, rl: Option<real>, rr: Option<real>, i: nat, jl: nat, ka: nat, j: nat)
    requires op == Mul || op == Div || op == Rem
    requires i <= |s| && jl <= ka < |s| && SpaceEnd(s, jl) == ka && s[ka] == OpChar(op) && !Doubled(s, ka)
    requires ParseTerm(s, i) == TermFrom(s, rl, jl)
    requires j <= |s| && ParseFactor(s, ka + 1) == Shift(rr, j)
    ensures ParseTerm(s, i) == TermFrom(s, Combine(op, rl, rr), j)
  {
    match rl
    case None =>
    case Some(x) =>
      TermStep(s, x, jl, op, ka, rr, j);
  }

  /** An expression read to `jl`, then `op` at `ka` and a term read to `j`:
      the expression continues at `j` with the combined value. */
  lemma ExprJoin(s: string, op: Op, rl: Option<real>, rr: Option<real>, i: nat, jl: nat, ka: nat, j: nat)
    requires op == Add || op == Sub
    requires i <= |s| && jl <= ka < |s| && SpaceEnd(s, jl) == ka && s[ka] == OpChar(op) && !Doubled(s, ka)
    requires ParseExpr(s, i) == ExprFrom(s, rl, jl)
    requires j <= |s| && ParseTerm(s, ka + 1) == Shift(rr, j)
    ensures ParseExpr(s, i) == ExprFrom(s, Combine(op, rl, rr), j)
  {
    match rl
    case None =>
    case Some(x) =>
      ExprStep(s, x, jl, op, ka, rr, j);
  }

  /** A run of digits where it occurs, up to a non-digit. */
  lemma DigitsAt(s: string, i: nat, d: string)
    requires At(s, i, d) && AllDigits(d)
    requires i + |d| == |s| || (i + |d| < |s| && !IsDigit(s[i + |d|]))
    ensures i + |d| <= |s| && DigitRunEnd(s, i) == i + |d| && s[i..i + |d|] == d
  {
    AtBound(s, i, d);
    forall k | i <= k < i + |d|
      ensures s[k] == d[k - i] && IsDigit(s[k])
    {
      AtIndex(s, i, d, k - i);
    }
    DigitRunAcross(s, i, i + |d|);
  }

  /** Text starting with a digit is read as a number. */
  lemma DigitFactor(s: string, i: nat)
    requires i < |s| && IsDigit(s[i])
    ensures ParseFactor(s, i) == ParseNumber(s, i)
  {
    assert SpaceEnd(s, i) == i;
  }

  /** A whole number read where its digits occur. */
  lemma WholeRead(d: string, s: string, i: nat, j: nat)
    requires |d| > 0 && AllDigits(d) && At(s, i, d) && j == i + |d| && LiteralEnd(s, j)
    ensures ParseNumber(s, i) == Some(Parsed(DigitsValue(d) as real, j))
  {
    DigitsAt(s, i, d);
  }

  /** A number with a fraction read where its digits `d`, the point and the
      fraction digits `f` occur. */
  lemma DecimalRead(d: string, f: string, s: string, i: nat, j: nat)
    requires |d| > 0 && AllDigits(d) && |f| > 0 && AllDigits(f)
    requires At(s, i, d) && At(s, i + |d|, ".") && At(s, i + |d| + 1, f)
    requires j == i + |d| + 1 + |f| && LiteralEnd(s, j)
    ensures ParseNumber(s, i) == Some(Parsed(DigitsValue(d) as real + Fraction(f), j))
  {
    var e := i + |d|;
    AtIndex(s, e, ".", 0);
    DigitsAt(s, i, d);
    DigitsAt(s, e + 1, f);
  }

  /** A literal read where its text occurs, up to a place where no digit or
      point follows. */
  lemma LiteralRead(w: nat, f: Digits, s: string, i: nat, j: nat)
    requires At(s, i, Literal(w, f)) && j == i + |Literal(w, f)| && LiteralEnd(s, j)
    ensures ParseFactor(s, i) == Some(Parsed(w as real + Fraction(f), j))
  {
    var d := NatToString(w);
    NatToStringRoundTrip(w);
    AtIndex(s, i, Literal(w, f), 0);
    DigitFactor(s, i);
    if |f| == 0 {
      WholeRead(d, s, i, j);
    } else {
      Pieces(s, i, d, ".", f);
      DecimalRead(d, f, s, i, j);
    }
  }

  /** Five consecutive pieces of a text, located in `s`. */
  lemma Five(s: string, i: nat, p1: string, p2: string, p3: string, p4: string, p5: string)
    requires At(s, i, p1 + p2 + p3 + p4 + p5)
    ensures At(s, i, p1) && At(s, i + |p1|, p2) && At(s, i + |p1| + |p2|, p3)
    ensures At(s, i + |p1| + |p2| + |p3|, p4) && At(s, i + |p1| + |p2| + |p3| + |p4|, p5)
  {
    AtSplit(s, i, p1 + p2 + p3 + p4, p5);
    AtSplit(s, i, p1 + p2 + p3, p4);
    Pieces(s, i, p1, p2, p3);
  }

  /** The pieces of `(t)` where it occurs. */
  lemma ParenAt(s: string, i: nat, t: string)
    requires At(s, i, "(" + t + ")")
    ensures i + 1 + |t| < |s| && s[i] == '(' && s[i + 1 + |t|] == ')' && At(s, i + 1, t)
  {
    Pieces(s, i, "(", t, ")");
    AtIndex(s, i, "(", 0);
    AtIndex(s, i + 1 + |t|, ")", 0);
  }

  /** The pieces of a negation where its text occurs. */
  lemma NegAt(a: Ast, gap: string, s: string, i: nat)
    requires a.Neg? && At(s, i, Render(a, gap))
    ensures i < |s| && s[i] == '-' && At(s, i + 1, Wrap(Render(a.operand, gap), a.operand.Num?))
  {
    AtSplit(s, i, "-", Wrap(Render(a.operand, gap), a.operand.Num?));
    AtIndex(s, i, "-", 0);
  }

  /** How a right operand's text starts: never with a second `-` after a
      `-`. */
  lemma RightStart(op: Op, r: Ast, gap: string)
    ensures var w := Wrap(Render(r, gap), RightBare(op, r));
      |w| > 0 && (w[0] == '(' || IsDigit(w[0]) || (w[0] == '-' && op != Sub))
  {
    RenderEnds(r, gap);
    RenderSign(r, gap);
  }

  /** An operator followed by white space, `(`, a digit, or a `-` that does
      not repeat it, is a token of its own. */
  lemma SingleToken(s: string, ka: nat, op: Op)
    requires ka + 1 < |s| && s[ka] == OpChar(op)
    requires IsJsSpace(s[ka + 1]) || s[ka + 1] == '(' || IsDigit(s[ka + 1])
      || (s[ka + 1] == '-' && op != Sub)
    ensures !Doubled(s, ka)
  {
  }

  /** The text `wl gap op gap wr` at `i`: the left piece runs to `jl`, only
      white space leads to the operator at `ka` and on to the right piece at
      `kr`, and the operator is a token of its own. */
  lemma OperatorLayout(s: string, i: nat, wl: string, gap: string, op: Op, wr: string, jl: nat, ka: nat, kr: nat)
    requires At(s, i, wl + gap + [OpChar(op)] + gap + wr) && Blank(gap)
    requires jl == i + |wl| && ka == jl + |gap| && kr == ka + 1 + |gap|
    requires |wr| > 0 && (wr[0] == '(' || IsDigit(wr[0]) || (wr[0] == '-' && op != Sub))
    ensures At(s, i, wl) && At(s, kr, wr) && kr + |wr| == i + |wl + gap + [OpChar(op)] + gap + wr|
    ensures ka < |s| && s[ka] == OpChar(op) && !Doubled(s, ka)
    ensures LiteralEnd(s, jl) && SpaceEnd(s, jl) == ka && SpaceEnd(s, ka + 1) == kr
  {
    Five(s, i, wl, gap, [OpChar(op)], gap, wr);
    AtIndex(s, ka, [OpChar(op)], 0);
    AtIndex(s, kr, wr, 0);
    SkipGap(s, jl, gap);
    SkipGap(s, ka + 1, gap);
    if |gap| > 0 {
      AtIndex(s, jl, gap, 0);
      AtIndex(s, ka + 1, gap, 0);
    }
    SingleToken(s, ka, op);
  }

  /** `t` occurs in `s` from `i` up to `j`. */
  predicate Placed(s: string, i: nat, t: string, j: nat) {
    At(s, i, t) && j == i + |t|
  }

  /** A term may end at `j`: no digit, point, `*`, `/` or `%` continues it. */
  predicate TermStop(s: string, j: nat) {
    j <= |s| && LiteralEnd(s, j) && TermEnd(s, j)
  }

  /** An operand of a sum, or a whole expression, may end at `j`. */
  predicate ExprStop(s: string, j: nat) {
    j <= |s| && LiteralEnd(s, j) && ExprEnd(s, j)
  }

  /** Where a sum may end, so may its last term. */
  lemma SumEnd(s: string, j: nat)
    requires ExprStop(s, j)
    ensures TermStop(s, j)
  {
  }

  /** `l op r` laid out at `i` up to `j`: its left operand runs to `jl`, white
      space leads to the operator at `ka` and on to the right operand at `kr`,
      which runs to `j`. */
  lemma BinLayout(a: Ast, gap: string, s: string, i: nat, j: nat, jl: nat, ka: nat, kr: nat)
    requires a.Bin? && Blank(gap) && Placed(s, i, Render(a, gap), j)
    requires jl == i + |Wrap(Render(a.left, gap), LeftBare(a.op, a.left))|
    requires ka == jl + |gap| && kr == ka + 1 + |gap|
    ensures Placed(s, i, Wrap(Render(a.left, gap), LeftBare(a.op, a.left)), jl)
    ensures Placed(s, kr, Wrap(Render(a.right, gap), RightBare(a.op, a.right)), j)
    ensures ka < kr <= |s| && s[ka] == OpChar(a.op) && !Doubled(s, ka)
    ensures LiteralEnd(s, jl) && SpaceEnd(s, jl) == ka && SpaceEnd(s, ka + 1) == kr
  {
    var wl := Wrap(Render(a.left, gap), LeftBare(a.op, a.left));
    var wr := Wrap(Render(a.right, gap), RightBare(a.op, a.right));
    assert Render(a, gap) == wl + gap + [OpChar(a.op)] + gap + wr;
    RightStart(a.op, a.right, gap);
    OperatorLayout(s, i, wl, gap, a.op, wr, jl, ka, kr);
    AtBound(s, kr, wr);
  }

  /** A rendered tree read as a factor, bare or in parentheses, from `i` to
      `j`. */
  lemma {:induction false} FactorRead(a: Ast, gap: string, bare: bool, s: string, i: nat, j: nat)
    requires Blank(gap) && (bare ==> Rank(a) == 2)
    requires Placed(s, i, Wrap(Render(a, gap), bare), j) && LiteralEnd(s, j)
    ensures ParseFactor(s, i) == Shift(Eval(a), j)
    decreases a, if bare then 1 else 6
  {
    if !bare {
      ParenRead(a, gap, s, i, j);
    } else if a.Num? {
      LiteralRead(a.whole, a.frac, s, i, j);
    } else {
      NegRead(a, gap, s, i, j);
    }
  }

  /** A rendered tree in parentheses read as a factor. */
  lemma {:induction false} ParenRead(a: Ast, gap: string, s: string, i: nat, j: nat)
    requires Blank(gap) && Placed(s, i, "(" + Render(a, gap) + ")", j)
    ensures ParseFactor(s, i) == Shift(Eval(a), j)
    decreases a, 5
  {
    ParenAt(s, i, Render(a, gap));
    assert SpaceEnd(s, j - 1) == j - 1;
    ExprRead(a, gap, s, i + 1, j - 1);
    ExprStops(s, Eval(a), j - 1);
    ParenStep(s, i, Eval(a), j - 1);
  }

  /** A rendered negation read as a factor. */
  lemma {:induction false} NegRead(a: Ast, gap: string, s: string, i: nat, j: nat)
    requires a.Neg? && Blank(gap) && Placed(s, i, Render(a, gap), j) && LiteralEnd(s, j)
    ensures ParseFactor(s, i) == Shift(Eval(a), j)
    decreases a, 0
  {
    var e := a.operand;
    NegAt(a, gap, s, i);
    AtIndex(s, i + 1, Wrap(Render(e, gap), e.Num?), 0);
    FactorRead(e, gap, e.Num?, s, i + 1, j);
    NegStep(s, i, Eval(e), j);
  }

  /** A rendered tree read as a term from `i`: the term's tail continues at
      `j` with the tree's value. */
  lemma {:induction false} TermRead(a: Ast, gap: string, bare: bool, s: string, i: nat, j: nat)
    requires Blank(gap) && (bare ==> Rank(a) >= 1)
    requires Placed(s, i, Wrap(Render(a, gap), bare), j) && LiteralEnd(s, j)
    ensures ParseTerm(s, i) == TermFrom(s, Eval(a), j)
    decreases a, if bare then 2 else 7
  {
    if !bare || Rank(a) == 2 {
      FactorRead(a, gap, bare, s, i, j);
    } else {
      ProductRead(a, gap, s, i, j);
    }
  }

  /** A rendered `l * r`, `l / r` or `l % r` read as a term. */
  lemma {:induction false} ProductRead(a: Ast, gap: string, s: string, i: nat, j: nat)
    requires a.Bin? && OpRank(a.op) == 1 && Blank(gap)
    requires Placed(s, i, Render(a, gap), j) && LiteralEnd(s, j)
    ensures ParseTerm(s, i) == TermFrom(s, Eval(a), j)
    decreases a, 0
  {
    var jl := i + |Wrap(Render(a.left, gap), LeftBare(a.op, a.left))|;
    var ka := jl + |gap|;
    var kr := ka + 1 + |gap|;
    BinLayout(a, gap, s, i, j, jl, ka, kr);
    TermRead(a.left, gap, LeftBare(a.op, a.left), s, i, jl);
    RightFactor(a.op, a.right, gap, s, ka, kr, j);
    TermJoin(s, a.op, Eval(a.left), Eval(a.right), i, jl, ka, j);
  }

  /** The right operand of a product, read as a factor after the white
      space that follows the operator at `ka`. */
  lemma {:induction false} RightFactor(op: Op, r: Ast, gap: string, s: string, ka: nat, kr: nat, j: nat)
    requires OpRank(op) == 1 && Blank(gap) && ka < kr
    requires Placed(s, kr, Wrap(Render(r, gap), RightBare(op, r)), j) && LiteralEnd(s, j) && j <= |s|
    requires SpaceEnd(s, ka + 1) == kr
    ensures ParseFactor(s, ka + 1) == Shift(Eval(r), j)
    decreases r, 8
  {
    SkippedFactor(r, gap, RightBare(op, r), s, ka + 1, kr, j);
  }

  /** A rendered factor that follows white space from `i0` is read from
      `i0`. */
  lemma {:induction false} SkippedFactor(a: Ast, gap: string, bare: bool, s: string, i0: nat, i: nat, j: nat)
    requires Blank(gap) && (bare ==> Rank(a) == 2) && i0 <= i
    requires Placed(s, i, Wrap(Render(a, gap), bare), j) && LiteralEnd(s, j) && j <= |s| && SpaceEnd(s, i0) == i
    ensures ParseFactor(s, i0) == Shift(Eval(a), j)
    decreases a, 7
  {
    FactorSkips(s, i0);
    FactorRead(a, gap, bare, s, i, j);
  }

  /** The right operand of a sum, read as a whole term after the white space
      that follows the operator at `ka`. */
  lemma {:induction false} RightTerm(op: Op, r: Ast, gap: string, s: string, ka: nat, kr: nat, j: nat)
    requires OpRank(op) == 0 && Blank(gap) && ka < kr
    requires Placed(s, kr, Wrap(Render(r, gap), RightBare(op, r)), j) && TermStop(s, j) && SpaceEnd(s, ka + 1) == kr
    ensures ParseTerm(s, ka + 1) == Shift(Eval(r), j)
    decreases r, 9
  {
    WholeTerm(r, gap, RightBare(op, r), s, ka + 1, kr, j);
  }

  /** A rendered tree that follows white space from `i0` and is followed by
      no `*`, `/` or `%` is read from `i0` as a whole term: the right operand
      of a sum. */
  lemma {:induction false} WholeTerm(a: Ast, gap: string, bare: bool, s: string, i0: nat, i: nat, j: nat)
    requires Blank(gap) && (bare ==> Rank(a) >= 1) && i0 <= i
    requires Placed(s, i, Wrap(Render(a, gap), bare), j) && TermStop(s, j) && SpaceEnd(s, i0) == i
    ensures ParseTerm(s, i0) == Shift(Eval(a), j)
    decreases a, 8
  {
    TermSkips(s, i0);
    TermRead(a, gap, bare, s, i, j);
    TermStops(s, Eval(a), j);
  }

  /** A rendered tree read as an expression from `i`: the expression's tail
      continues at `j` with the tree's value. */
  lemma {:induction false} ExprRead(a: Ast, gap: string, s: string, i: nat, j: nat)
    requires Blank(gap) && Placed(s, i, Render(a, gap), j) && ExprStop(s, j)
    ensures ParseExpr(s, i) == ExprFrom(s, Eval(a), j)
    decreases a, 4
  {
    if Rank(a) >= 1 {
      TermRead(a, gap, true, s, i, j);
      TermStops(s, Eval(a), j);
    } else {
      SumRead(a, gap, s, i, j);
    }
  }

  /** A rendered `l + r` or `l - r` read as an expression. */
  lemma {:induction false} SumRead(a: Ast, gap: string, s: string, i: nat, j: nat)
    requires a.Bin? && OpRank(a.op) == 0 && Blank(gap)
    requires Placed(s, i, Render(a, gap), j) && ExprStop(s, j)
    ensures ParseExpr(s, i) == ExprFrom(s, Eval(a), j)
    decreases a, 0
  {
    var jl := i + |Render(a.left, gap)|;
    var ka := jl + |gap|;
    var kr := ka + 1 + |gap|;
    assert LeftBare(a.op, a.left);
    BinLayout(a, gap, s, i, j, jl, ka, kr);
    ExprRead(a.left, gap, s, i, jl);
    SumEnd(s, j);
    RightTerm(a.op, a.right, gap, s, ka, kr, j);
    ExprJoin(s, a.op, Eval(a.left), Eval(a.right), i, jl, ka, j);
  }

  /** The evaluator reads the rendered text of every tree back to the tree's
      value, and fails exactly where the tree divides by zero: precedence,
      left associativity, unary minus, decimal literals and white space
      between the tokens are read as JavaScript reads them. */
  lemma EvaluateRender(a: Ast, gap: string)
    requires Blank(gap)
    ensures Evaluate(Render(a, gap)) == Eval(a)
  {
    var s := Render(a, gap);
    AtSuffix(s, 0);
    assert s[0..] == s;
    ExprRead(a, gap, s, 0, |s|);
    ExprStops(s, Eval(a), |s|);
  }

  /** A term running to the end of the text is the whole expression. */
  lemma TermToEnd(s: string, v: real)
    requires ParseTerm(s, 0) == Some(Parsed(v, |s|))
    ensures Evaluate(s) == Some(v)
  {
    assert ExprRest(s, v, |s|) == Some(Parsed(v, |s|));
  }

  /** `n` copies of `x` added up: the product `x * n`, written so that the
      proofs about reading a product text never meet a non-linear term. */
  function Multiple(x: real, n: nat): real {
    if n == 0 then 0.0 else Multiple(x, n - 1) + x
  }

  lemma {:induction false} MultipleIsProduct(x: real, n: nat)
    ensures Multiple(x, n) == x * (n as real)
  {
    if n > 0 {
      MultipleIsProduct(x, n - 1);
    }
  }

  /** `n` copies of the integer `a` added up. */
  function WholeMultiple(a: int, n: nat): int {
    if n == 0 then 0 else WholeMultiple(a, n - 1) + a
  }

  /** A multiple of a whole number is whole. */
  lemma {:induction false} MultipleWhole(a: int, n: nat)
    ensures Multiple(a as real, n) == WholeMultiple(a, n) as real
  {
    if n > 0 {
      MultipleWhole(a, n - 1);
    }
  }

  /** A factor worth `x` ending at `*`, followed by a factor worth `y` that
      runs to the end, is a term worth `x * y`. */
  lemma ProductTerm(s: string, x: real, ka: nat, y: real)
    requires ka + 1 < |s| && s[ka] == '*' && IsDigit(s[ka + 1])
    requires ParseFactor(s, 0) == Some(Parsed(x, ka))
    requires ParseFactor(s, ka + 1) == Some(Parsed(y, |s|))
    ensures ParseTerm(s, 0) == Some(Parsed(x * y, |s|))
  {
    TermRestStep(s, x, ka, Mul, y, |s|);
    assert TermRest(s, x * y, |s|) == Some(Parsed(x * y, |s|));
  }

  /** ... and so the whole expression, worth `n` copies of `x`. */
  lemma ProductWhole(s: string, x: real, ka: nat, n: nat)
    requires ka + 1 < |s| && s[ka] == '*' && IsDigit(s[ka + 1])
    requires ParseFactor(s, 0) == Some(Parsed(x, ka))
    requires ParseFactor(s, ka + 1) == Some(Parsed(n as real, |s|))
    ensures Evaluate(s) == Some(Multiple(x, n))
  {
    ProductTerm(s, x, ka, n as real);
    TermToEnd(s, x * (n as real));
    MultipleIsProduct(x, n);
  }

  /** The literal that starts the text, ending at `*`. */
  lemma FirstLiteral(s: string, a: nat, ka: nat)
    requires ka == |NatToString(a)| && ka < |s| && s[..ka] == NatToString(a) && s[ka] == '*'
    ensures ParseFactor(s, 0) == Some(Parsed(a as real, ka))
  {
    AtSuffix(s, 0);
    assert s[0..] == s[..ka] + s[ka..];
    AtSplit(s, 0, s[..ka], s[ka..]);
    NumberPrint(a, s, 0);
  }

  /** The literal that ends the text. */
  lemma LastLiteral(s: string, b: nat, i: nat)
    requires i <= |s| && s[i..] == NatToString(b)
    ensures ParseFactor(s, i) == Some(Parsed(b as real, |s|))
  {
    AtSuffix(s, i);
    NumberPrint(b, s, i);
  }

  /** A literal starts with a digit. */
  lemma LeadingDigit(s: string, b: nat, i: nat)
    requires i <= |s| && s[i..] == NatToString(b)
    ensures i < |s| && IsDigit(s[i])
  {
    assert s[i] == s[i..][0];
  }

  /** Both literals of `a*b`, read where they stand. */
  lemma ProductFactors(s: string, a: nat, b: nat, ka: nat)
    requires ka == |NatToString(a)| && ka < |s| && s[..ka] == NatToString(a) && s[ka] == '*'
    requires s[ka + 1..] == NatToString(b)
    ensures ParseFactor(s, 0) == Some(Parsed(a as real, ka))
    ensures ParseFactor(s, ka + 1) == Some(Parsed(b as real, |s|))
    ensures ka + 1 < |s| && IsDigit(s[ka + 1])
  {
    FirstLiteral(s, a, ka);
    LastLiteral(s, b, ka + 1);
    LeadingDigit(s, b, ka + 1);
  }

  /** The product of two literals, `a*b`, evaluates to the product. */
  lemma ProductOfLiterals(a: nat, b: nat)
    ensures Evaluate(NatToString(a) + ("*" + NatToString(b))) == Some(Multiple(a as real, b))
  {
    var da, db := NatToString(a), NatToString(b);
    var s := da + ("*" + db);
    assert s[..|da|] == da && s[|da| + 1..] == db;
    ProductFactors(s, a, b, |da|);
    ProductWhole(s, a as real, |da|, b);
  }
}

=== FILE: characters.dfy ===
/** The character browser: the skill-filter predicate on effects, the kana
    folding used by the name search, the filter pipeline with its three
    orders, and the icon lookup. */
module Characters {
  import opened Wrappers
  import opened Text
  import opened Numbers
  import opened Model
  import opened Sorting
  import opened Lists

  // ---------------------------------------------------------------------
  // checkEffect
  // ---------------------------------------------------------------------

  /** What reading a property of an effect gives in JavaScript. */
  datatype PropValue = Absent | NullProp | TextProp(text: string) | NumberProp(number: real) | ObjectProp

  function FromText(f: Field<string>): PropValue {
    match f
    case Undefined => Absent
    case Null => NullProp
    case Present(s) => TextProp(s)
  }

  /** `effect[property]`; effects have no `description`. */
  function PropertyOf(e: Effect, p: Property): PropValue {
    match p
    case TargetKey => TextProp(e.target)
    case TypeKey => TextProp(e.kind)
    case FormulaKey => FromText(e.formula)
    case DurationKey =>
      (match e.duration
       case Undefined => Absent
       case Null => NullProp
       case Present(d) => NumberProp(d))
    case ConditionKey => FromText(e.condition)
    case NoteKey => FromText(e.note)
    case DurationFormulaKey => FromText(e.durationFormula)
    case FieldEffectsKey =>
      (match e.fieldEffects
       case Undefined => Absent
       case Null => NullProp
       case Present(_) => ObjectProp)
    case DescriptionKey => Absent
  }

  /** `checkEffect(effect, filter)`. The absent case tests the property
      against `null`, which an absent property never is. */
  predicate CheckEffect(e: Effect, f: SkillFilter) {
    var v := PropertyOf(e, f.property);
    match v
    case Absent => if f.property == DurationKey && f.value == NullValue then v.NullProp? else false
    case NullProp => f.value == NullValue
    case TextProp(s) =>
      if f.value.TextValue? then
        if f.matchType.GetOr(ContainsText) == Exact then s == f.value.text else Contains(s, f.value.text)
      else false
    case NumberProp(n) => f.value.NumberValue? && n == f.value.number
    case ObjectProp => false
  }

  /** An absent property never matches, not even a duration filter that
      expects `null`. */
  lemma AbsentNeverMatches(e: Effect, f: SkillFilter)
    requires PropertyOf(e, f.property) == Absent
    ensures !CheckEffect(e, f)
  {
  }

  /** A `description` filter never matches a structured effect. */
  lemma DescriptionNeverMatches(e: Effect, f: SkillFilter)
    requires f.property == DescriptionKey
    ensures !CheckEffect(e, f)
  {
    AbsentNeverMatches(e, f);
  }

  /** A `null` property matches exactly the `null` filter value. */
  lemma NullMatchesNull(e: Effect, f: SkillFilter)
    requires PropertyOf(e, f.property) == NullProp
    ensures CheckEffect(e, f) <==> f.value == NullValue
  {
  }

  /** A number matches exactly the equal number. */
  lemma NumberMatchesEqual(e: Effect, f: SkillFilter, n: real)
    requires PropertyOf(e, f.property) == NumberProp(n)
    ensures CheckEffect(e, f) <==> f.value == NumberValue(n)
  {
  }

  /** Text matches only text: the whole text in `exact` mode, a substring
      otherwise. */
  lemma TextMatches(e: Effect, f: SkillFilter, s: string)
    requires PropertyOf(e, f.property) == TextProp(s)
    ensures f.value.TextValue? && f.matchType == Some(Exact) ==> (CheckEffect(e, f) <==> s == f.value.text)
    ensures f.value.TextValue? && f.matchType != Some(Exact) ==> (CheckEffect(e, f) <==> Contains(s, f.value.text))
    ensures !f.value.TextValue? ==> !CheckEffect(e, f)
  {
  }

  /** In the default `contains` mode the empty filter text matches every
      text property. */
  lemma EmptyTextMatches(e: Effect, f: SkillFilter, s: string)
    requires PropertyOf(e, f.property) == TextProp(s)
    requires f.value == TextValue("") && f.matchType != Some(Exact)
    ensures CheckEffect(e, f)
  {
    ContainsEmpty(s);
  }

  // ---------------------------------------------------------------------
  // katakanaToHiragana
  // ---------------------------------------------------------------------

  predicate Katakana(c: char) {
    0x30A1 <= c as int <= 0x30F6
  }

  /** Katakana move down by 0x60 to the matching hiragana. */
  function ToHiragana(c: char): (d: char)
    ensures Katakana(c) ==> d as int == c as int - 0x60
    ensures !Katakana(c) ==> d == c
    ensures !Katakana(d)
  {
    if Katakana(c) then (c as int - 0x60) as char else c
  }

  function KatakanaToHiragana(s: string): (r: string)
    ensures |r| == |s|
    ensures forall k :: 0 <= k < |s| ==> r[k] == ToHiragana(s[k])
  {
    seq(|s|, k requires 0 <= k < |s| => ToHiragana(s[k]))
  }

  /** Folding leaves no katakana behind, so folding twice is folding once. */
  lemma FoldIdempotent(s: string)
    ensures KatakanaToHiragana(KatakanaToHiragana(s)) == KatakanaToHiragana(s)
  {
  }

  /** Folding keeps containment: text containing `p` folds to text containing
      the folded `p`. */
  lemma FoldKeepsContains(s: string, p: string)
    requires Contains(s, p)
    ensures Contains(KatakanaToHiragana(s), KatakanaToHiragana(p))
  {
    var i := ContainsWitness(s, p);
    var fs := KatakanaToHiragana(s);
    var fp := KatakanaToHiragana(p);
    assert fs[i..][..|fp|] == fp by {
      forall k | 0 <= k < |fp|
        ensures fs[i..][..|fp|][k] == fp[k]
      {
        assert s[i..][k] == p[k];
      }
    }
    ContainsAt(fs, fp, i);
  }

  // ---------------------------------------------------------------------
  // filterAndSortCharacters
  // ---------------------------------------------------------------------

  /** The name search: case-folded containment, or containment after kana
      folding as well. An empty term accepts every name. */
  predicate SearchMatches(term: string, name: string) {
    |term| == 0
    || Contains(Lower(name), Lower(term))
    || Contains(KatakanaToHiragana(Lower(name)), KatakanaToHiragana(Lower(term)))
  }

  /** Since folding keeps containment, a non-empty term matches exactly when
      the folded name contains the folded term. */
  lemma SearchIsFolded(term: string, name: string)
    requires |term| > 0
    ensures SearchMatches(term, name) <==>
      Contains(KatakanaToHiragana(Lower(name)), KatakanaToHiragana(Lower(term)))
  {
    if Contains(Lower(name), Lower(term)) {
      FoldKeepsContains(Lower(name), Lower(term));
    }
  }

  /** An empty inclusion list admits everything. */
  predicate Included(list: seq<string>, x: string) {
    |list| == 0 || x in list
  }

  /** Some listed role is one of the character's roles. */
  function SomeRole(list: seq<string>, roles: seq<string>): (r: bool)
    ensures r <==> exists k :: 0 <= k < |list| && list[k] in roles
    decreases |list|
  {
    if |list| == 0 then false
    else
      assert forall k :: 1 <= k < |list| ==> list[k] == list[1..][k - 1];
      list[0] in roles || SomeRole(list[1..], roles)
  }

  predicate RolesIncluded(list: seq<string>, roles: seq<string>) {
    |list| == 0 || SomeRole(list, roles)
  }

  /** The simple skill descriptions joined by spaces. */
  function SimpleDescriptions(c: Character): string {
    c.skills.unionBurst.description + " " + c.skills.skill1.description + " " + c.skills.skill2.description
  }

  /** The fallback for characters without structured skill data. */
  predicate SimpleMatch(c: Character, f: SkillFilter) {
    f.property == DescriptionKey && f.value.TextValue? && Contains(SimpleDescriptions(c), f.value.text)
  }

  function SomeEffect(es: seq<Effect>, f: SkillFilter): bool
    decreases |es|
  {
    |es| > 0 && (CheckEffect(es[0], f) || SomeEffect(es[1..], f))
  }

  function SomeVersion(vs: seq<SkillVersion>, f: SkillFilter): bool
    decreases |vs|
  {
    |vs| > 0 && (SomeEffect(vs[0].effects, f) || SomeVersion(vs[1..], f))
  }

  /** `Object.values(charSkills).some(d => d?.versions.some(…))`. */
  function SomeSlot(slots: seq<Slot>, f: SkillFilter): bool
    decreases |slots|
  {
    |slots| > 0
    && ((slots[0].detail.Some? && SomeVersion(slots[0].detail.value.versions, f)) || SomeSlot(slots[1..], f))
  }

  function FilterHolds(c: Character, skills: UnitSkills, f: SkillFilter): bool {
    if c.fullName in skills then SomeSlot(skills[c.fullName], f) else SimpleMatch(c, f)
  }

  function EveryFilter(c: Character, skills: UnitSkills, fs: seq<SkillFilter>): bool
    decreases |fs|
  {
    |fs| == 0 || (FilterHolds(c, skills, fs[0]) && EveryFilter(c, skills, fs[1..]))
  }

  /** Some effect of the list satisfies the filter. */
  lemma {:induction false} SomeEffectExists(es: seq<Effect>, f: SkillFilter)
    ensures SomeEffect(es, f) <==> exists k :: 0 <= k < |es| && CheckEffect(es[k], f)
    decreases |es|
  {
    if |es| > 0 {
      SomeEffectExists(es[1..], f);
      assert forall k :: 1 <= k < |es| ==> es[k] == es[1..][k - 1];
    }
  }

  lemma {:induction false} SomeVersionExists(vs: seq<SkillVersion>, f: SkillFilter)
    ensures SomeVersion(vs, f) <==> exists k :: 0 <= k < |vs| && SomeEffect(vs[k].effects, f)
    decreases |vs|
  {
    if |vs| > 0 {
      SomeVersionExists(vs[1..], f);
      assert forall k :: 1 <= k < |vs| ==> vs[k] == vs[1..][k - 1];
    }
  }

  lemma {:induction false} SomeSlotExists(slots: seq<Slot>, f: SkillFilter)
    ensures SomeSlot(slots, f) <==> exists k :: (0 <= k < |slots|
      && slots[k].detail.Some? && SomeVersion(slots[k].detail.value.versions, f))
    decreases |slots|
  {
    if |slots| > 0 {
      SomeSlotExists(slots[1..], f);
      assert forall k :: 1 <= k < |slots| ==> slots[k] == slots[1..][k - 1];
    }
  }

  /** A character with structured data satisfies a filter exactly when some
      effect of some version of some entry does. */
  lemma FilterHoldsWitness(slots: seq<Slot>, f: SkillFilter)
    ensures SomeSlot(slots, f) <==> exists k, i, j :: (0 <= k < |slots| && slots[k].detail.Some?
      && 0 <= i < |slots[k].detail.value.versions|
      && 0 <= j < |slots[k].detail.value.versions[i].effects|
      && CheckEffect(slots[k].detail.value.versions[i].effects[j], f))
  {
    SomeSlotExists(slots, f);
    forall k | 0 <= k < |slots| && slots[k].detail.Some?
      ensures SomeVersion(slots[k].detail.value.versions, f) <==> exists i, j ::
        0 <= i < |slots[k].detail.value.versions|
        && 0 <= j < |slots[k].detail.value.versions[i].effects|
        && CheckEffect(slots[k].detail.value.versions[i].effects[j], f)
    {
      var vs := slots[k].detail.value.versions;
      SomeVersionExists(vs, f);
      forall i | 0 <= i < |vs|
        ensures SomeEffect(vs[i].effects, f) <==> exists j :: 0 <= j < |vs[i].effects| && CheckEffect(vs[i].effects[j], f)
      {
        SomeEffectExists(vs[i].effects, f);
      }
    }
  }

  /** The skill filters are a conjunction: every filter must hold. */
  lemma {:induction false} EveryFilterAll(c: Character, skills: UnitSkills, fs: seq<SkillFilter>)
    ensures EveryFilter(c, skills, fs) <==> forall k :: 0 <= k < |fs| ==> FilterHolds(c, skills, fs[k])
    decreases |fs|
  {
    if |fs| > 0 {
      EveryFilterAll(c, skills, fs[1..]);
      assert forall k :: 1 <= k < |fs| ==> fs[k] == fs[1..][k - 1];
    }
  }

  /** Without structured data, only a text `description` filter can hold,
      and it holds when the joined simple descriptions contain it. */
  lemma FallbackOnlyDescription(c: Character, skills: UnitSkills, f: SkillFilter)
    requires c.fullName !in skills
    ensures FilterHolds(c, skills, f) <==>
      f.property == DescriptionKey && f.value.TextValue? && Contains(SimpleDescriptions(c), f.value.text)
  {
  }

  /** Every test a character must pass to be listed. */
  predicate Passes(c: Character, skills: UnitSkills, filters: FilterOptions, term: string) {
    SearchMatches(term, c.fullName)
    && Included(filters.element, c.attribute)
    && Included(filters.position, c.position)
    && Included(filters.atkType, c.kind)
    && RolesIncluded(filters.roles, c.roles)
    && EveryFilter(c, skills, filters.skillFilters)
  }

  function PassesAll(skills: UnitSkills, filters: FilterOptions, term: string): Character -> bool {
    (c: Character) => Passes(c, skills, filters, term)
  }

  function Filtered(cs: seq<Character>, skills: UnitSkills, filters: FilterOptions, term: string): seq<Character> {
    Filter(cs, PassesAll(skills, filters, term))
  }

  /** A character is listed exactly when it is given and passes every test,
      and the listed characters keep their input order. */
  lemma FilteredMember(cs: seq<Character>, skills: UnitSkills, filters: FilterOptions, term: string, c: Character)
    ensures c in Filtered(cs, skills, filters, term) <==> c in cs && Passes(c, skills, filters, term)
    ensures Subsequence(Filtered(cs, skills, filters, term), cs)
  {
    FilterMember(cs, PassesAll(skills, filters, term), c);
    FilterInOrder(cs, PassesAll(skills, filters, term));
  }

  /** With no search term and no filters every character is listed, in
      order. */
  lemma FilteredNothing(cs: seq<Character>, skills: UnitSkills)
    ensures Filtered(cs, skills, FilterOptions([], [], [], [], []), "") == cs
  {
    FilterKeepsAll(cs, PassesAll(skills, FilterOptions([], [], [], [], []), ""));
  }

  /** `positionOrder.indexOf(name)`, with unlisted names after every listed
      one. */
  function PositionIndex(order: seq<string>, name: string): (r: nat)
    ensures r <= |order|
    ensures r < |order| <==> name in order
    ensures r < |order| ==> order[r] == name && name !in order[..r]
    decreases |order|
  {
    if |order| == 0 then 0
    else if order[0] == name then 0
    else
      var r := PositionIndex(order[1..], name);
      assert order[1..][..r] == order[1..r + 1];
      assert order[..r + 1] == [order[0]] + order[1..r + 1];
      r + 1
  }

  function NameKey(collate: string -> real): Character -> real {
    (c: Character) => collate(c.fullName)
  }

  function FormationKey(order: seq<string>): Character -> real {
    (c: Character) => PositionIndex(order, c.fullName) as real
  }

  /** `filterAndSortCharacters`: `collate` stands for the Japanese collation
      of full names and `order` for the formation order list. */
  function FilterAndSort(cs: seq<Character>, skills: UnitSkills, filters: FilterOptions, term: string,
                         sort: SortType, collate: string -> real, order: seq<string>): seq<Character>
  {
    var r := Filtered(cs, skills, filters, term);
    match sort
    case DefaultOrder => r
    case NameAscending => SortBy(r, NameKey(collate))
    case PositionOrder => SortBy(r, FormationKey(order))
  }

  /** Every order lists exactly the characters that pass, once each. */
  lemma SortKeepsCharacters(cs: seq<Character>, skills: UnitSkills, filters: FilterOptions, term: string,
                            sort: SortType, collate: string -> real, order: seq<string>)
    ensures multiset(FilterAndSort(cs, skills, filters, term, sort, collate, order))
      == multiset(Filtered(cs, skills, filters, term))
  {
  }

  /** The name order follows the collation. */
  lemma NameOrder(cs: seq<Character>, skills: UnitSkills, filters: FilterOptions, term: string,
                  collate: string -> real, order: seq<string>)
    ensures forall i, j :: 0 <= i < j < |FilterAndSort(cs, skills, filters, term, NameAscending, collate, order)| ==>
      collate(FilterAndSort(cs, skills, filters, term, NameAscending, collate, order)[i].fullName)
      <= collate(FilterAndSort(cs, skills, filters, term, NameAscending, collate, order)[j].fullName)
  {
    var r := FilterAndSort(cs, skills, filters, term, NameAscending, collate, order);
    var key := NameKey(collate);
    assert SortedBy(r, key);
    forall i, j | 0 <= i < j < |r|
      ensures collate(r[i].fullName) <= collate(r[j].fullName)
    {
      assert key(r[i]) <= key(r[j]);
    }
  }

  /** The formation order puts listed characters first, in list order. */
  lemma FormationOrder(cs: seq<Character>, skills: UnitSkills, filters: FilterOptions, term: string,
                       collate: string -> real, order: seq<string>, i: nat, j: nat)
    requires i < j < |FilterAndSort(cs, skills, filters, term, PositionOrder, collate, order)|
    ensures var r := FilterAndSort(cs, skills, filters, term, PositionOrder, collate, order);
      (r[j].fullName in order ==>
         (r[i].fullName in order && PositionIndex(order, r[i].fullName) <= PositionIndex(order, r[j].fullName)))
  {
    var r := FilterAndSort(cs, skills, filters, term, PositionOrder, collate, order);
    var key := FormationKey(order);
    assert SortedBy(r, key);
    assert key(r[i]) <= key(r[j]);
  }

  // ---------------------------------------------------------------------
  // getIconPath
  // ---------------------------------------------------------------------

  const DefaultIcon: string := "/icon/000001.webp"

  function IconFile(id: nat): string {
    "/icon/" + NatToString(id) + ".webp"
  }

  /** `getIconPath(character)` with the icon table as a map from names. */
  function IconPath(c: Character, table: map<string, IconEntry>): string {
    var entry := if c.fullName in table then Some(table[c.fullName])
                 else if c.name in table then Some(table[c.name]) else None;
    match entry
    case None => DefaultIcon
    case Some(en) =>
      if en.idStar3 != 0 then IconFile(en.idStar3)
      else if en.idStar1 != 0 then IconFile(en.idStar1)
      else DefaultIcon
  }

  /** The file name of an icon path reads back as its id. */
  lemma IconFileId(id: nat)
    ensures ParseIntPrefix(IconFile(id)[6..]) == Some(id)
  {
    assert IconFile(id)[6..] == IntToString(id) + ".webp";
    ParseIntRoundTrip(id, ".webp");
  }

  /** The full name is looked up first, and the three-star id is preferred. */
  lemma IconPrefersFullName(c: Character, table: map<string, IconEntry>)
    requires c.fullName in table && table[c.fullName].idStar3 != 0
    ensures IconPath(c, table) == IconFile(table[c.fullName].idStar3)
    ensures ParseIntPrefix(IconPath(c, table)[6..]) == Some(table[c.fullName].idStar3)
  {
    IconFileId(table[c.fullName].idStar3);
  }

  /** Without an entry under either name the default icon is used. */
  lemma IconDefault(c: Character, table: map<string, IconEntry>)
    requires c.fullName !in table && c.name !in table
    ensures IconPath(c, table) == DefaultIcon
  {
  }
}

=== FILE: classifier.dfy ===
/** `parseSkillFlags`: every rule is tried on the lower-cased union burst,
    skill 1 and skill 2 descriptions, and each rule that fires on a
    description records that description's slot under the rule's category. */
module Classifier {
  import opened Text
  import opened Model
  import opened SkillRules

  datatype Source = UB | S1 | S2

  function Mark(info: SourceInfo, source: Source): (r: SourceInfo)
    ensures r.ub == (info.ub || source == UB)
    ensures r.s1 == (info.s1 || source == S1)
    ensures r.s2 == (info.s2 || source == S2)
  {
    match source
    case UB => info.(ub := true)
    case S1 => info.(s1 := true)
    case S2 => info.(s2 := true)
  }

  function Flag(info: SourceInfo, source: Source): bool {
    match source
    case UB => info.ub
    case S1 => info.s1
    case S2 => info.s2
  }

  /** The slot `source` is recorded under `category`. */
  predicate Has(flags: map<string, SourceInfo>, category: string, source: Source) {
    category in flags && Flag(flags[category], source)
  }

  // ---------------------------------------------------------------------
  // Matching one rule against one description.
  // ---------------------------------------------------------------------

  /** Some keyword of the list occurs in the text. */
  function AnyContained(keywords: seq<string>, d: string): (r: bool)
    ensures r <==> exists k :: 0 <= k < |keywords| && Contains(d, keywords[k])
    decreases |keywords|
  {
    if |keywords| == 0 then false
    else
      assert forall k :: 1 <= k < |keywords| ==> keywords[k] == keywords[1..][k - 1];
      Contains(d, keywords[0]) || AnyContained(keywords[1..], d)
  }

  /** Characters `\w` matches in a case-insensitive Unicode expression: ASCII
      letters, digits and `_`, and the two characters that fold onto ASCII
      letters, `ſ` and the Kelvin sign. */
  predicate WordChar(c: char) {
    ('a' <= c <= 'z') || ('A' <= c <= 'Z') || ('0' <= c <= '9') || c == '_'
    || c as int == 0x017F || c as int == 0x212A
  }

  /** `kw` occurs at `i` with a non-word character or an end on each side. */
  predicate DelimitedAt(d: string, kw: string, i: nat)
    requires i <= |d|
  {
    StartsWith(d[i..], kw)
    && (i == 0 || !WordChar(d[i - 1]))
    && (i + |kw| == |d| || !WordChar(d[i + |kw|]))
  }

  /** `new RegExp('(^|\\W)' + kw + '(\\W|$)', 'iu').test(d)`, for keywords
      without letters. */
  predicate Delimited(d: string, kw: string) {
    exists i: nat :: i <= |d| && DelimitedAt(d, kw, i)
  }

  predicate ContextHit(r: Rule, kw: string, d: string) {
    if r.exactContext then Delimited(d, kw) else Contains(d, kw)
  }

  function AnyContext(r: Rule, keywords: seq<string>, d: string): (b: bool)
    ensures b <==> exists k :: 0 <= k < |keywords| && ContextHit(r, keywords[k], d)
    decreases |keywords|
  {
    if |keywords| == 0 then false
    else
      assert forall k :: 1 <= k < |keywords| ==> keywords[k] == keywords[1..][k - 1];
      ContextHit(r, keywords[0], d) || AnyContext(r, keywords[1..], d)
  }

  /** The text speaks of the unit's own HP. */
  predicate SelfMention(d: string) {
    Contains(d, "自分のhpを") || Contains(d, "自身のhpを")
  }

  /** Whether a negative keyword blocks the rule: for `SelfHeal` only the
      three special negatives count, and only without a self mention; for
      every other rule any occurrence blocks. */
  predicate NegativeHit(r: Rule, kw: string, d: string) {
    if r.category == SelfHeal && kw in SelfHealSpecial then Contains(d, kw) && !SelfMention(d)
    else r.category != SelfHeal && Contains(d, kw)
  }

  function AnyNegative(r: Rule, keywords: seq<string>, d: string): (b: bool)
    ensures b <==> exists k :: 0 <= k < |keywords| && NegativeHit(r, keywords[k], d)
    decreases |keywords|
  {
    if |keywords| == 0 then false
    else
      assert forall k :: 1 <= k < |keywords| ==> keywords[k] == keywords[1..][k - 1];
      NegativeHit(r, keywords[0], d) || AnyNegative(r, keywords[1..], d)
  }

  /** Whether the rule fires on the lower-cased description `d`, following
      the order of the checks: empty text, primary, secondary, context (with
      the self-heal fallback to a self mention), negatives. */
  predicate Fires(r: Rule, d: string) {
    if |d| == 0 then false
    else if !AnyContained(r.primary, d) then false
    else if |r.secondary| > 0 && !AnyContained(r.secondary, d) then false
    else
      var context := |r.context| == 0 || AnyContext(r, r.context, d);
      var proceed := if !context && r.category == SelfHeal then SelfMention(d) else context;
      proceed && !AnyNegative(r, r.negative, d)
  }

  /** A rule without context keywords never reaches the self-heal fallback:
      it fires exactly when the text is non-empty, a primary (and, if any, a
      secondary) keyword occurs and no negative blocks it. */
  lemma NoContextFires(r: Rule, d: string)
    requires |r.context| == 0
    ensures Fires(r, d) <==>
      (|d| > 0 && AnyContained(r.primary, d)
       && (|r.secondary| == 0 || AnyContained(r.secondary, d)) && !AnyNegative(r, r.negative, d))
  {
  }

  /** The self-heal rule is the first rule and has no context keywords, so
      its fallback to a self mention is never taken. */
  lemma SelfHealFallbackDead()
    ensures Rules[0] == SelfHealRule
    ensures SelfHealRule.category == SelfHeal && |SelfHealRule.context| == 0
  {
  }

  /** For the self-heal rule, only the three special negatives can block,
      and only when the text does not speak of the unit's own HP. */
  lemma SelfHealBlocked(d: string)
    ensures AnyNegative(SelfHealRule, SelfHealRule.negative, d) <==>
      (!SelfMention(d) && exists k :: 0 <= k < |SelfHealSpecial| && Contains(d, SelfHealSpecial[k]))
  {
    var r := SelfHealRule;
    assert r.negative[..3] == SelfHealSpecial;
    assert !NegativeHit(r, r.negative[3], d) by {
      assert r.negative[3] != SelfHealSpecial[0] && r.negative[3] != SelfHealSpecial[1]
        && r.negative[3] != SelfHealSpecial[2];
    }
    assert !NegativeHit(r, r.negative[4], d) by {
      assert r.negative[4] != SelfHealSpecial[0] && r.negative[4] != SelfHealSpecial[1]
        && r.negative[4] != SelfHealSpecial[2];
    }
    assert forall k :: 0 <= k < 3 ==> (NegativeHit(r, r.negative[k], d) <==> Contains(d, SelfHealSpecial[k]) && !SelfMention(d));
  }

  // ---------------------------------------------------------------------
  // Accumulating the flags.
  // ---------------------------------------------------------------------

  /** Every stored record has at least one slot set. */
  predicate WellFormed(flags: map<string, SourceInfo>) {
    forall c :: c in flags ==> flags[c].ub || flags[c].s1 || flags[c].s2
  }

  /** Records the slot `source` under `category`: the category's earlier
      slots stay set, and every other category keeps its record. */
  function Record(flags: map<string, SourceInfo>, category: string, source: Source): (r: map<string, SourceInfo>)
    ensures r.Keys == flags.Keys + {category}
    ensures forall c :: c in flags && c != category ==> r[c] == flags[c]
    ensures forall s: Source :: Flag(r[category], s) <==>
      s == source || (category in flags && Flag(flags[category], s))
  {
    var info := if category in flags then flags[category] else SourceInfo(false, false, false);
    flags[category := Mark(info, source)]
  }

  /** One rule tried on each slot in turn. */
  function ApplyRule(flags: map<string, SourceInfo>, r: Rule, slots: seq<(Source, string)>): map<string, SourceInfo>
    decreases |slots|
  {
    if |slots| == 0 then flags
    else
      var next := if Fires(r, slots[0].1) then Record(flags, r.category, slots[0].0) else flags;
      ApplyRule(next, r, slots[1..])
  }

  /** Every rule in turn. */
  function ApplyRules(flags: map<string, SourceInfo>, rules: seq<Rule>, slots: seq<(Source, string)>): map<string, SourceInfo>
    decreases |rules|
  {
    if |rules| == 0 then flags else ApplyRules(ApplyRule(flags, rules[0], slots), rules[1..], slots)
  }

  /** `parseSkillFlags(ubDesc, s1Desc, s2Desc)`. */
  function ParseSkillFlags(ub: string, s1: string, s2: string): map<string, SourceInfo> {
    ApplyRules(map[], Rules, [(UB, Lower(ub)), (S1, Lower(s1)), (S2, Lower(s2))])
  }

  /** A rule records a slot exactly when it fires on that slot's text, and
      keeps everything recorded before. */
  lemma {:induction false} ApplyRuleHas(flags: map<string, SourceInfo>, r: Rule, slots: seq<(Source, string)>,
                                        category: string, source: Source)
    ensures Has(ApplyRule(flags, r, slots), category, source) <==>
      Has(flags, category, source)
      || (r.category == category && exists j :: 0 <= j < |slots| && slots[j].0 == source && Fires(r, slots[j].1))
    decreases |slots|
  {
    if |slots| > 0 {
      var next := if Fires(r, slots[0].1) then Record(flags, r.category, slots[0].0) else flags;
      ApplyRuleHas(next, r, slots[1..], category, source);
      assert forall j :: 1 <= j < |slots| ==> slots[j] == slots[1..][j - 1];
    }
  }

  /** The rules record a slot exactly when one of them with that category
      fires on it; nothing recorded is ever cleared. */
  lemma {:induction false} ApplyRulesHas(flags: map<string, SourceInfo>, rules: seq<Rule>, slots: seq<(Source, string)>,
                                         category: string, source: Source)
    ensures Has(ApplyRules(flags, rules, slots), category, source) <==>
      Has(flags, category, source)
      || exists i, j :: 0 <= i < |rules| && 0 <= j < |slots| && rules[i].category == category
           && slots[j].0 == source && Fires(rules[i], slots[j].1)
    decreases |rules|
  {
    if |rules| > 0 {
      ApplyRuleHas(flags, rules[0], slots, category, source);
      ApplyRulesHas(ApplyRule(flags, rules[0], slots), rules[1..], slots, category, source);
      assert forall i :: 1 <= i < |rules| ==> rules[i] == rules[1..][i - 1];
    }
  }

  /** Recording keeps every stored record non-empty. */
  lemma {:induction false} ApplyRuleWellFormed(flags: map<string, SourceInfo>, r: Rule, slots: seq<(Source, string)>)
    requires WellFormed(flags)
    ensures WellFormed(ApplyRule(flags, r, slots))
    decreases |slots|
  {
    if |slots| > 0 {
      var next := if Fires(r, slots[0].1) then Record(flags, r.category, slots[0].0) else flags;
      ApplyRuleWellFormed(next, r, slots[1..]);
    }
  }

  /** Only categories of fired rules become keys. */
  lemma {:induction false} ApplyRuleKeys(flags: map<string, SourceInfo>, r: Rule, slots: seq<(Source, string)>, c: string)
    requires c in ApplyRule(flags, r, slots)
    ensures c in flags || c == r.category
    decreases |slots|
  {
    if |slots| > 0 {
      var next := if Fires(r, slots[0].1) then Record(flags, r.category, slots[0].0) else flags;
      ApplyRuleKeys(next, r, slots[1..], c);
    }
  }

  lemma {:induction false} ApplyRulesShape(flags: map<string, SourceInfo>, rules: seq<Rule>, slots: seq<(Source, string)>, c: string)
    requires WellFormed(flags)
    ensures WellFormed(ApplyRules(flags, rules, slots))
    ensures c in ApplyRules(flags, rules, slots) ==> c in flags || exists i :: 0 <= i < |rules| && rules[i].category == c
    decreases |rules|
  {
    if |rules| > 0 {
      ApplyRuleWellFormed(flags, rules[0], slots);
      if c in ApplyRules(flags, rules, slots) {
        ApplyRulesShape(ApplyRule(flags, rules[0], slots), rules[1..], slots, c);
        if c in ApplyRule(flags, rules[0], slots) {
          ApplyRuleKeys(flags, rules[0], slots, c);
        } else {
          var i :| 0 <= i < |rules[1..]| && rules[1..][i].category == c;
          assert rules[i + 1].category == c;
        }
      } else {
        ApplyRulesShape(ApplyRule(flags, rules[0], slots), rules[1..], slots, c);
      }
    }
  }

  /** Every key is the category of a rule, and every record has a slot set. */
  lemma ParseSkillFlagsShape(ub: string, s1: string, s2: string, c: string)
    ensures WellFormed(ParseSkillFlags(ub, s1, s2))
    ensures c in ParseSkillFlags(ub, s1, s2) ==> exists i :: 0 <= i < |Rules| && Rules[i].category == c
  {
    ApplyRulesShape(map[], Rules, [(UB, Lower(ub)), (S1, Lower(s1)), (S2, Lower(s2))], c);
  }

  /** With three distinctly sourced slots, a slot is recorded under a
      category exactly when a rule of that category fires on its text. */
  lemma {:induction false} SlotsFromRules(rules: seq<Rule>, a: string, b: string, c: string, category: string)
    ensures Has(ApplyRules(map[], rules, [(UB, a), (S1, b), (S2, c)]), category, UB) <==>
      exists i :: 0 <= i < |rules| && rules[i].category == category && Fires(rules[i], a)
    ensures Has(ApplyRules(map[], rules, [(UB, a), (S1, b), (S2, c)]), category, S1) <==>
      exists i :: 0 <= i < |rules| && rules[i].category == category && Fires(rules[i], b)
    ensures Has(ApplyRules(map[], rules, [(UB, a), (S1, b), (S2, c)]), category, S2) <==>
      exists i :: 0 <= i < |rules| && rules[i].category == category && Fires(rules[i], c)
  {
    var slots := [(UB, a), (S1, b), (S2, c)];
    ApplyRulesHas(map[], rules, slots, category, UB);
    ApplyRulesHas(map[], rules, slots, category, S1);
    ApplyRulesHas(map[], rules, slots, category, S2);
    assert forall j :: 0 <= j < |slots| && slots[j].0 == S1 ==> j == 1;
    assert forall j :: 0 <= j < |slots| && slots[j].0 == S2 ==> j == 2;
    if exists i :: 0 <= i < |rules| && rules[i].category == category && Fires(rules[i], b) {
      var i :| 0 <= i < |rules| && rules[i].category == category && Fires(rules[i], b);
      assert slots[1].0 == S1 && slots[1].1 == b;
    }
    if exists i :: 0 <= i < |rules| && rules[i].category == category && Fires(rules[i], c) {
      var i :| 0 <= i < |rules| && rules[i].category == category && Fires(rules[i], c);
      assert slots[2].0 == S2 && slots[2].1 == c;
    }
  }

  /** Each description is recorded under a category exactly when a rule of
      that category fires on its lower-cased text; the three descriptions do
      not influence one another. */
  lemma ParseSkillFlagsSlots(ub: string, s1: string, s2: string, category: string)
    ensures Has(ParseSkillFlags(ub, s1, s2), category, UB) <==>
      exists i :: 0 <= i < |Rules| && Rules[i].category == category && Fires(Rules[i], Lower(ub))
    ensures Has(ParseSkillFlags(ub, s1, s2), category, S1) <==>
      exists i :: 0 <= i < |Rules| && Rules[i].category == category && Fires(Rules[i], Lower(s1))
    ensures Has(ParseSkillFlags(ub, s1, s2), category, S2) <==>
      exists i :: 0 <= i < |Rules| && Rules[i].category == category && Fires(Rules[i], Lower(s2))
  {
    SlotsFromRules(Rules, Lower(ub), Lower(s1), Lower(s2), category);
  }

  /** An empty description records nothing. */
  lemma EmptyDescriptionSilent(s1: string, s2: string, category: string)
    ensures !Has(ParseSkillFlags("", s1, s2), category, UB)
  {
    ParseSkillFlagsSlots("", s1, s2, category);
  }
}

=== FILE: filterpanel.dfy ===
/** The skill-category groups of the filter panel: nine passes over the
    category list, each claiming the categories no earlier pass claimed,
    and only the non-empty groups shown. */
module FilterPanel {
  import opened Text
  import opened Lists

  datatype Group = Group(name: string, categories: seq<string>)

  predicate NoDuplicates(s: seq<string>) {
    forall i, j :: 0 <= i < j < |s| ==> s[i] != s[j]
  }

  /** One `forEach` pass: every item that passes `test` and is not claimed
      yet is pushed to the group and claimed; `claimed` is the set after the
      pass. */
  function Scan(items: seq<string>, test: string -> bool, claimed: set<string>): (r: (seq<string>, set<string>))
    ensures r.1 == claimed + (set x | x in r.0)
    ensures forall x :: x in r.0 ==> x in items && test(x) && x !in claimed
    ensures forall x :: x in items && test(x) && x !in claimed ==> x in r.0
    ensures NoDuplicates(r.0)
    decreases |items|
  {
    if |items| == 0 then ([], claimed)
    else
      var x := items[0];
      assert forall y :: y in items[1..] ==> y in items;
      if test(x) && x !in claimed then
        var rest := Scan(items[1..], test, claimed + {x});
        ([x] + rest.0, rest.1)
      else Scan(items[1..], test, claimed)
  }

  predicate HpTp(c: string) {
    Contains(c, "HP") || Contains(c, "TP") || Contains(c, "吸収")
  }

  predicate Ally(c: string) {
    StartsWith(c, "味方")
  }

  predicate AllyAttack(c: string) {
    Ally(c) && (Contains(c, "攻撃力") || Contains(c, "クリティカル"))
  }

  predicate AllyDefence(c: string) {
    Ally(c) && (Contains(c, "防御力") || Contains(c, "バリア") || Contains(c, "ダメージカット"))
  }

  predicate Enemy(c: string) {
    StartsWith(c, "敵")
  }

  predicate DamageTrait(c: string) {
    Contains(c, "ダメージ特性") || Contains(c, "クリティカル確定") || Contains(c, "必中")
    || Contains(c, "追加ダメージ") || Contains(c, "割合ダメージ(スキル直撃)") || Contains(c, "防御参照型")
    || Contains(c, "防御力一定値無視")
  }

  /** `categoryList.includes(keyword)`. */
  function Listed(categories: seq<string>): string -> bool {
    (s: string) => s in categories
  }

  const Ailments: seq<string> := ["スタン", "麻痺", "束縛", "凍結", "石化", "睡眠", "混乱", "誘惑", "恐慌", "暗闇",
                                  "毒/猛毒", "火傷", "呪い/呪詛", "割合ダメージ状態(敵)"]

  const Controls: seq<string> := ["吹き飛ばし/ノックバック", "引き寄せ", "挑発", "行動時間停止", "執着"]

  const Specials: seq<string> := ["召喚", "フィールド展開", "行動パターン変化", "スキル効果量変化(条件付き)", "複数回ヒット攻撃",
                                  "特定属性味方への追加効果", "特定タイプ敵への追加効果", "ダメージでTP回復しない効果"]

  /** A pass either walks the category list with a test, or walks a fixed
      keyword list taking the keywords the category list includes. */
  datatype Pass = Matching(test: string -> bool) | Keywords(words: seq<string>)

  function Items(p: Pass, categories: seq<string>): seq<string> {
    match p
    case Matching(_) => categories
    case Keywords(words) => words
  }

  function Test(p: Pass, categories: seq<string>): string -> bool {
    match p
    case Matching(test) => test
    case Keywords(_) => Listed(categories)
  }

  /** The passes run one after another, each seeing what the earlier ones
      claimed. */
  function Run(categories: seq<string>, passes: seq<Pass>, claimed: set<string>): (r: seq<seq<string>>)
    ensures |r| == |passes|
    decreases |passes|
  {
    if |passes| == 0 then []
    else
      var s := Scan(Items(passes[0], categories), Test(passes[0], categories), claimed);
      [s.0] + Run(categories, passes[1..], s.1)
  }

  /** A pass takes only unclaimed items that meet its test. */
  lemma {:induction false} RunTakes(categories: seq<string>, passes: seq<Pass>, claimed: set<string>, k: nat, x: string)
    requires k < |passes| && x in Run(categories, passes, claimed)[k]
    ensures x !in claimed && x in Items(passes[k], categories) && Test(passes[k], categories)(x)
    decreases |passes|
  {
    var s := Scan(Items(passes[0], categories), Test(passes[0], categories), claimed);
    if k > 0 {
      RunTakes(categories, passes[1..], s.1, k - 1, x);
    }
  }

  /** A pass never takes an item an earlier pass took. */
  lemma {:induction false} RunDisjoint(categories: seq<string>, passes: seq<Pass>, claimed: set<string>,
                                       k: nat, l: nat, x: string)
    requires k < l < |passes| && x in Run(categories, passes, claimed)[k]
    ensures x !in Run(categories, passes, claimed)[l]
    decreases |passes|
  {
    var s := Scan(Items(passes[0], categories), Test(passes[0], categories), claimed);
    if k > 0 {
      RunDisjoint(categories, passes[1..], s.1, k - 1, l - 1, x);
    } else if x in Run(categories, passes, claimed)[l] {
      RunTakes(categories, passes[1..], s.1, l - 1, x);
    }
  }

  /** An unclaimed item that meets the test of a pass is taken by that pass
      or an earlier one. */
  lemma {:induction false} RunLeavesNothing(categories: seq<string>, passes: seq<Pass>, claimed: set<string>,
                                            k: nat, x: string)
    requires k < |passes| && x !in claimed
    requires x in Items(passes[k], categories) && Test(passes[k], categories)(x)
    ensures exists l :: 0 <= l <= k && x in Run(categories, passes, claimed)[l]
    decreases |passes|
  {
    var r := Run(categories, passes, claimed);
    var s := Scan(Items(passes[0], categories), Test(passes[0], categories), claimed);
    assert r[0] == s.0;
    if k == 0 {
      assert x in s.0;
    } else if x !in r[0] {
      assert passes[k] == passes[1..][k - 1];
      RunLeavesNothing(categories, passes[1..], s.1, k - 1, x);
      var l :| 0 <= l <= k - 1 && x in Run(categories, passes[1..], s.1)[l];
      assert x in r[l + 1];
    }
  }

  /** The passes after the HP/TP one, in the order they run. */
  const LaterPasses: seq<Pass> := [Matching(AllyAttack), Matching(AllyDefence), Matching(Enemy), Keywords(Ailments),
                                   Keywords(Controls), Matching(DamageTrait), Keywords(Specials), Matching(Ally)]

  /** The nine passes in the order they run; the HP/TP pass does not look at
      what is claimed, as it runs first. */
  function Passes(categories: seq<string>): (r: seq<seq<string>>)
    ensures |r| == 9
  {
    var hp := Filter(categories, HpTp);
    [hp] + Run(categories, LaterPasses, set x | x in hp)
  }

  /** The group titles, in the key order of the object literal. */
  const GroupNames: seq<string> := ["HP/TP関連", "味方強化(攻撃)", "味方強化(防御/バリア)", "味方強化(その他)", "敵弱体化",
                                    "状態異常", "コントロール", "ダメージ特性", "その他特殊効果"]

  /** The pass that fills the group at index `i`: the "other ally buffs"
      group is listed fourth but filled last. */
  function PassOf(i: nat): (k: nat)
    requires i < 9
    ensures k < 9
  {
    if i < 3 then i else if i == 3 then 8 else i - 1
  }

  /** `skillFilterGroups`. */
  function Groups(categories: seq<string>): (r: seq<Group>)
    ensures |r| == 9
  {
    var p := Passes(categories);
    seq(9, i requires 0 <= i < 9 => Group(GroupNames[i], p[PassOf(i)]))
  }

  predicate NonEmpty(g: Group) {
    |g.categories| > 0
  }

  /** The groups the panel renders. */
  function Shown(categories: seq<string>): seq<Group> {
    Filter(Groups(categories), NonEmpty)
  }

  /** What the passes claim: later passes never take a category an earlier
      pass took, each pass takes only categories of the list, the HP/TP pass
      takes exactly those with HP, TP or drain in their name, and every
      enemy or ally category ends up in some pass. */
  lemma PassesFacts(categories: seq<string>)
    ensures var p := Passes(categories);
      (forall k, l, x :: 0 <= k < l < 9 && x in p[k] ==> x !in p[l])
      && (forall k, x :: 0 <= k < 9 && x in p[k] ==> x in categories)
      && (forall x :: x in p[0] <==> x in categories && HpTp(x))
      && (forall x :: x in categories && Enemy(x) ==> exists k :: 0 <= k <= 3 && x in p[k])
      && (forall x :: x in categories && Ally(x) ==> exists k :: 0 <= k < 9 && x in p[k])
  {
    var hp := Filter(categories, HpTp);
    var c1 := set x | x in hp;
    forall x
      ensures x in hp <==> x in categories && HpTp(x)
    {
      FilterMember(categories, HpTp, x);
    }
    var p := Passes(categories);
    var rest := Run(categories, LaterPasses, c1);
    assert p[0] == hp;
    assert forall k :: 1 <= k < 9 ==> p[k] == rest[k - 1];
    forall k, l, x | 0 <= k < l < 9 && x in p[k]
      ensures x !in p[l]
    {
      if k == 0 {
        if x in p[l] {
          RunTakes(categories, LaterPasses, c1, l - 1, x);
        }
      } else {
        RunDisjoint(categories, LaterPasses, c1, k - 1, l - 1, x);
      }
    }
    forall k, x | 0 <= k < 9 && x in p[k]
      ensures x in categories
    {
      if k > 0 {
        RunTakes(categories, LaterPasses, c1, k - 1, x);
        TakesListed(LaterPasses[k - 1], categories, x);
      }
    }
    assert LaterPasses[2] == Matching(Enemy) && LaterPasses[7] == Matching(Ally);
    forall x | x in categories && Enemy(x)
      ensures exists k :: 0 <= k <= 3 && x in p[k]
    {
      if x !in c1 {
        RunLeavesNothing(categories, LaterPasses, c1, 2, x);
        var l :| 0 <= l <= 2 && x in rest[l];
        assert x in p[l + 1];
      }
    }
    forall x | x in categories && Ally(x)
      ensures exists k :: 0 <= k < 9 && x in p[k]
    {
      if x !in c1 {
        RunLeavesNothing(categories, LaterPasses, c1, 7, x);
        var l :| 0 <= l <= 7 && x in rest[l];
        assert x in p[l + 1];
      }
    }
  }

  /** Whatever a pass takes is in the category list. */
  lemma TakesListed(q: Pass, categories: seq<string>, x: string)
    requires x in Items(q, categories) && Test(q, categories)(x)
    ensures x in categories
  {
  }

  /** No category is offered in two groups. */
  lemma GroupsDisjoint(categories: seq<string>, i: nat, j: nat, x: string)
    requires i < 9 && j < 9 && i != j && x in Groups(categories)[i].categories
    ensures x !in Groups(categories)[j].categories
  {
    PassesFacts(categories);
    var p := Passes(categories);
    assert Groups(categories)[i].categories == p[PassOf(i)];
    assert Groups(categories)[j].categories == p[PassOf(j)];
  }

  /** Every offered category is one of the list. */
  lemma GroupsListed(categories: seq<string>, i: nat, x: string)
    requires i < 9 && x in Groups(categories)[i].categories
    ensures x in categories
  {
    PassesFacts(categories);
    assert Groups(categories)[i].categories == Passes(categories)[PassOf(i)];
  }

  /** The group that shows what pass `k` took. */
  lemma GroupOfPass(categories: seq<string>, k: nat) returns (i: nat)
    requires k < 9
    ensures i < 9 && Groups(categories)[i].categories == Passes(categories)[k]
  {
    i := if k < 3 then k else if k == 8 then 3 else k + 1;
  }

  /** Every HP/TP, ally or enemy category of the list is offered in some
      group. */
  lemma GroupsCover(categories: seq<string>, x: string)
    requires x in categories && (HpTp(x) || Ally(x) || Enemy(x))
    ensures exists i :: 0 <= i < 9 && x in Groups(categories)[i].categories
  {
    PassesFacts(categories);
    var p := Passes(categories);
    var k: nat;
    if HpTp(x) {
      k := 0;
    } else if Enemy(x) {
      k :| 0 <= k <= 3 && x in p[k];
    } else {
      k :| 0 <= k < 9 && x in p[k];
    }
    var i := GroupOfPass(categories, k);
  }

  /** The panel renders exactly the non-empty groups, in their order. */
  lemma ShownGroups(categories: seq<string>, g: Group)
    ensures g in Shown(categories) <==> g in Groups(categories) && |g.categories| > 0
    ensures Subsequence(Shown(categories), Groups(categories))
  {
    FilterMember(Groups(categories), NonEmpty, g);
    FilterInOrder(Groups(categories), NonEmpty);
  }
}

=== FILE: formula.dfy ===
/** The two formula evaluators: `calculateValue` of the ranking code, which
    substitutes skill level and attack values and gates the arithmetic behind
    a character whitelist, and `calculateEffectValue` of the skill detail view,
    which substitutes the skill level only and has no whitelist. */
module Formula {
  import opened Wrappers
  import opened Text
  import opened Numbers
  import opened Arith

  /** The values substituted into a formula. */
  datatype Bindings = Bindings(level: int, phyAtk: int, magAtk: int)

  const SkillLv: string := "スキルLv"
  const PhyAtk: string := "物理攻撃力"
  const MagAtk: string := "魔法攻撃力"

  /** Formula fragments whose value the data does not determine. */
  const Uncalculable: seq<string> := [
    "HP減少量", "与ダメージ", "残りHP", "消費した【レイスボディ】", "おともだち数",
    "【剣圧】", "【お堪忍袋】", "【ネバネバ】", "【氷竜の印】", "【ちぇる】",
    "【味方と敵の数】", "【範囲内の敵の数】", "【範囲内の味方の人数】"]

  predicate HasMarker(f: string) {
    exists k :: 0 <= k < |Uncalculable| && Contains(f, Uncalculable[k])
  }

  /** The three variables replaced, in this order, by their decimal text. */
  function Substitute(f: string, b: Bindings): string {
    ReplaceAll(ReplaceAll(ReplaceAll(f, SkillLv, IntToString(b.level)),
      PhyAtk, IntToString(b.phyAtk)), MagAtk, IntToString(b.magAtk))
  }

  /** The character class `[0-9+\-*\/().\s%]`. */
  predicate ExprChar(c: char) {
    IsDigit(c) || c == '+' || c == '-' || c == '*' || c == '/' || c == '('
    || c == ')' || c == '.' || c == '%' || IsJsSpace(c)
  }

  /** Every character is in the class. */
  predicate Arithmetic(e: string) {
    forall k :: 0 <= k < |e| ==> ExprChar(e[k])
  }

  /** The whole text matches `^[0-9+\-*\/().\s%]+$`. */
  predicate Whitelisted(e: string) {
    |e| > 0 && Arithmetic(e)
  }

  /** `Math.floor` of an evaluation, failures staying failures. */
  function FloorOf(r: Option<real>): Option<real> {
    match r
    case None => None
    case Some(v) => Some(v.Floor as real)
  }

  /** The prefix before a trailing `%`, when it reads as a number. */
  function PercentPrefix(f: string): Option<real> {
    if EndsWith(f, "%") then JsNumber(f[..|f| - 1]) else None
  }

  /** `calculateValue(formula, level, phyAtk, magAtk)`. */
  function CalculateValue(formula: Option<string>, b: Bindings): (r: Option<real>)
    ensures formula.None? || formula == Some("") ==> r.None?
    ensures r.Some? && PercentPrefix(formula.value).None? && JsNumber(formula.value).None? ==>
      !HasMarker(formula.value) && Whitelisted(Substitute(formula.value, b))
      && r.value == r.value.Floor as real
  {
    match formula
    case None => None
    case Some(f) =>
      if |f| == 0 then None
      else if PercentPrefix(f).Some? then PercentPrefix(f)
      else if JsNumber(f).Some? then JsNumber(f)
      else if HasMarker(f) then None
      else
        var e := Substitute(f, b);
        if Whitelisted(e) then FloorOf(Evaluate(e)) else None
  }

  /** `calculateEffectValue(formula, level)`. */
  function EffectValue(formula: Option<string>, level: int): (r: Option<real>)
    ensures formula.None? || formula == Some("") ==> r.None?
    ensures r.Some? && JsNumber(formula.value).None? ==>
      Contains(formula.value, SkillLv) && r.value == r.value.Floor as real
  {
    match formula
    case None => None
    case Some(f) =>
      if |f| == 0 then None
      else if JsNumber(f).Some? then JsNumber(f)
      else if Contains(f, SkillLv) then FloorOf(Evaluate(ReplaceAll(f, SkillLv, IntToString(level))))
      else None
  }

  // ---------------------------------------------------------------------
  // Facts about the character classes involved.
  // ---------------------------------------------------------------------

  /** Every marker starts with a character that is neither arithmetic, nor
      numeric, nor part of the skill-level variable. */
  lemma MarkerHead(k: nat)
    requires k < |Uncalculable|
    ensures |Uncalculable[k]| > 0
    ensures var c := Uncalculable[k][0]; !ExprChar(c) && !NumberChar(c) && c !in SkillLv
  {
  }

  /** Text made of arithmetic characters and the skill-level variable's
      characters holds no marker. */
  lemma NoMarkerIn(f: string)
    requires forall k :: 0 <= k < |f| ==> ExprChar(f[k]) || f[k] in SkillLv
    ensures !HasMarker(f)
  {
    if HasMarker(f) {
      var k :| 0 <= k < |Uncalculable| && Contains(f, Uncalculable[k]);
      MarkerHead(k);
      ContainsChar(f, Uncalculable[k], 0);
    }
  }

  /** Text with a character `Number` never accepts is not a number. */
  lemma NotNumeric(s: string, k: nat)
    requires k < |s| && !NumberChar(s[k])
    ensures JsNumber(s).None?
  {
    if JsNumber(s).Some? {
      JsNumberChars(s);
    }
  }

  /** Text not ending in `%` takes no percent branch. */
  lemma NotPercent(f: string)
    requires |f| > 0 && f[|f| - 1] != '%'
    ensures PercentPrefix(f).None?
  {
    assert f[|f| - 1..] == [f[|f| - 1]];
  }

  /** Text with a non-numeric character before its last one takes no percent
      branch. */
  lemma PercentNotNumeric(f: string, k: nat)
    requires k + 1 < |f| && !NumberChar(f[k])
    ensures PercentPrefix(f).None?
  {
    var p := f[..|f| - 1];
    assert p[k] == f[k];
    NotNumeric(p, k);
  }

  /** Past the literal and marker checks, the result is the floored value of
      the substituted text, provided the whitelist admits it. */
  lemma ExpressionBranch(f: string, b: Bindings)
    requires |f| > 0 && PercentPrefix(f).None? && JsNumber(f).None? && !HasMarker(f)
    ensures CalculateValue(Some(f), b) ==
      if Whitelisted(Substitute(f, b)) then FloorOf(Evaluate(Substitute(f, b))) else None
  {
  }

  lemma IntToStringChars(n: int, c: char)
    requires !IsDigit(c) && c != '-'
    ensures c !in IntToString(n)
  {
    var d := NatToString(if n < 0 then -n else n);
    assert AllDigits(d);
    if n < 0 {
      assert IntToString(n) == "-" + d;
    }
  }

  /** Text without any variable name is left unchanged by substitution. */
  lemma SubstituteNothing(f: string, b: Bindings)
    requires 'ス' !in f && '物' !in f && '魔' !in f
    ensures Substitute(f, b) == f
  {
    ReplaceAbsent(f, SkillLv, IntToString(b.level));
    ReplaceAbsent(f, PhyAtk, IntToString(b.phyAtk));
    ReplaceAbsent(f, MagAtk, IntToString(b.magAtk));
  }

  // ---------------------------------------------------------------------
  // Literal formulas.
  // ---------------------------------------------------------------------

  /** Numeric text is its own value: the `%` branch cannot claim it, since a
      number never ends in `%`. */
  lemma NumericLiteral(f: string, b: Bindings)
    requires JsNumber(f).Some? && |f| > 0
    ensures CalculateValue(Some(f), b) == JsNumber(f)
  {
    JsNumberChars(f);
    NotPercent(f);
  }

  /** `N%` is worth `N`, not `N / 100`. */
  lemma PercentLiteral(x: string, b: Bindings)
    requires JsNumber(x).Some?
    ensures CalculateValue(Some(x + "%"), b) == JsNumber(x)
  {
    var f := x + "%";
    assert f[|f| - 1..] == "%";
    assert f[..|f| - 1] == x;
  }

  /** A formula naming an uncalculable quantity has no value. */
  lemma MarkerGivesNone(f: string, b: Bindings, k: nat)
    requires k < |Uncalculable| && Contains(f, Uncalculable[k])
    ensures CalculateValue(Some(f), b) == None
  {
    MarkerHead(k);
    var m := Uncalculable[k];
    var i := ContainsWitness(f, m);
    assert f[i] == f[i..][0] == m[0];
    NotNumeric(f, i);
    if i + 1 < |f| {
      PercentNotNumeric(f, i);
    } else {
      NotPercent(f);
    }
    assert HasMarker(f);
  }

  // ---------------------------------------------------------------------
  // Arithmetic formulas.
  // ---------------------------------------------------------------------

  /** Two arithmetic texts joined are arithmetic. */
  lemma ArithmeticJoin(x: string, y: string)
    requires Arithmetic(x) && Arithmetic(y)
    ensures Arithmetic(x + y)
  {
    var e := x + y;
    forall k | 0 <= k < |e|
      ensures ExprChar(e[k])
    {
      if k < |x| {
        assert e[k] == x[k];
      } else {
        assert e[k] == y[k - |x|];
      }
    }
  }

  lemma WrapChars(t: string, bare: bool)
    requires Arithmetic(t)
    ensures Arithmetic(Wrap(t, bare))
  {
    if !bare {
      ArithmeticJoin("(", t);
      ArithmeticJoin("(" + t, ")");
    }
  }

  lemma LiteralChars(w: nat, f: Digits)
    ensures Arithmetic(Literal(w, f))
  {
    var d := NatToString(w);
    assert Arithmetic(d) by {
      forall k | 0 <= k < |d|
        ensures ExprChar(d[k])
      {
        assert IsDigit(d[k]);
      }
    }
    if |f| > 0 {
      assert Arithmetic(f) by {
        forall k | 0 <= k < |f|
          ensures ExprChar(f[k])
        {
          assert IsDigit(f[k]);
        }
      }
      ArithmeticJoin(d, ".");
      ArithmeticJoin(d + ".", f);
    }
  }

  /** The text of an arithmetic tree, with white space around its operators,
      uses arithmetic characters only. */
  lemma {:induction false} RenderChars(a: Ast, gap: string)
    requires Blank(gap)
    ensures Arithmetic(Render(a, gap))
    decreases a
  {
    match a
    case Num(w, f) =>
      LiteralChars(w, f);
    case Neg(e) =>
      RenderChars(e, gap);
      WrapChars(Render(e, gap), e.Num?);
      ArithmeticJoin("-", Wrap(Render(e, gap), e.Num?));
    case Bin(op, l, r) =>
      RenderChars(l, gap);
      RenderChars(r, gap);
      var wl := Wrap(Render(l, gap), LeftBare(op, l));
      var wr := Wrap(Render(r, gap), RightBare(op, r));
      WrapChars(Render(l, gap), LeftBare(op, l));
      WrapChars(Render(r, gap), RightBare(op, r));
      assert Arithmetic(gap) by {
        forall k | 0 <= k < |gap|
          ensures ExprChar(gap[k])
        {
          assert IsJsSpace(gap[k]);
        }
      }
      ArithmeticJoin(wl, gap);
      ArithmeticJoin(wl + gap, [OpChar(op)]);
      ArithmeticJoin(wl + gap + [OpChar(op)], gap);
      ArithmeticJoin(wl + gap + [OpChar(op)] + gap, wr);
  }

  /** A literal is an unsigned decimal worth its own value. */
  lemma LiteralDecimal(w: nat, f: Digits)
    ensures UnsignedDecimal(Literal(w, f)) == Some(w as real + Fraction(f))
  {
    var d := NatToString(w);
    NatToStringRoundTrip(w);
    if |f| == 0 {
      DigitsAreDecimal(d);
    } else {
      var u := d + "." + f;
      assert u[0..|d|] == d;
      DigitsThenStop(u, 0, d);
      assert u[..|d|] == d;
      assert u[|d| + 1..] == f;
    }
  }

  /** `Number` reads a literal, and a negated literal, as its value. */
  lemma LiteralNumber(w: nat, f: Digits)
    ensures JsNumber(Literal(w, f)) == Some(w as real + Fraction(f))
    ensures JsNumber("-" + Literal(w, f)) == Some(-(w as real + Fraction(f)))
  {
    var u := Literal(w, f);
    var s := "-" + u;
    LiteralDecimal(w, f);
    TrimUnchanged(u);
    assert s[|s| - 1] == u[|u| - 1];
    TrimUnchanged(s);
    assert s[1..] == u;
  }

  /** Text without surrounding white space whose `k`th character, past the
      first, is neither a digit nor a point. */
  predicate MarkedAt(s: string, k: nat) {
    0 < k < |s| && !IsJsSpace(s[0]) && !IsJsSpace(s[|s| - 1])
    && !IsDigit(s[k]) && s[k] != '.'
  }

  /** Such text is not a number. */
  lemma NotNumericInside(s: string, k: nat)
    requires MarkedAt(s, k)
    ensures JsNumber(s).None?
  {
    TrimUnchanged(s);
    if s[0] == '-' || s[0] == '+' {
      assert s[1..][k - 1] == s[k];
    }
  }

  /** A literal, or a negated literal, is written as a number. */
  predicate LiteralTree(a: Ast) {
    a.Num? || (a.Neg? && a.operand.Num?)
  }

  /** The text of a literal tree is read by `Number` as the tree's value. */
  lemma RenderedLiteral(a: Ast, gap: string)
    requires LiteralTree(a)
    ensures JsNumber(Render(a, gap)) == Eval(a)
  {
    if a.Num? {
      NumRendered(a.whole, a.frac, gap);
    } else {
      NegRendered(a.operand.whole, a.operand.frac, gap);
    }
  }

  lemma NumRendered(w: nat, f: Digits, gap: string)
    ensures JsNumber(Render(Num(w, f), gap)) == Eval(Num(w, f))
  {
    LiteralShape(w, f, gap);
    LiteralNumber(w, f);
  }

  lemma NegRendered(w: nat, f: Digits, gap: string)
    ensures JsNumber(Render(Neg(Num(w, f)), gap)) == Eval(Neg(Num(w, f)))
  {
    LiteralShape(w, f, gap);
    LiteralNumber(w, f);
  }

  /** The text and value of a literal tree, and of its negation. */
  lemma LiteralShape(w: nat, f: Digits, gap: string)
    ensures Render(Num(w, f), gap) == Literal(w, f)
    ensures Render(Neg(Num(w, f)), gap) == "-" + Literal(w, f)
    ensures Eval(Num(w, f)) == Some(w as real + Fraction(f))
    ensures Eval(Neg(Num(w, f))) == Some(-(w as real + Fraction(f)))
  {
  }

  /** The text of any other tree is not a number: an operator, or the
      parenthesis after a leading minus, sits past its first character. */
  lemma RenderedNotLiteral(a: Ast, gap: string)
    requires Blank(gap) && !LiteralTree(a)
    ensures JsNumber(Render(a, gap)).None?
  {
    var k := InnerMark(a, gap);
    NotNumericInside(Render(a, gap), k);
  }

  /** Where the text of a tree that is not a literal holds a character other
      than a digit or a point. */
  lemma InnerMark(a: Ast, gap: string) returns (k: nat)
    requires !LiteralTree(a)
    ensures MarkedAt(Render(a, gap), k)
  {
    Unpadded(a, gap);
    if a.Neg? {
      k := NegMark(a.operand, gap);
    } else {
      k := BinMark(a.op, a.left, a.right, gap);
    }
  }

  /** The text of a tree neither starts nor ends with white space. */
  lemma Unpadded(a: Ast, gap: string)
    ensures var t := Render(a, gap); |t| > 0 && !IsJsSpace(t[0]) && !IsJsSpace(t[|t| - 1])
  {
    var t := Render(a, gap);
    RenderEnds(a, gap);
    NotSpace(t[0]);
    NotSpace(t[|t| - 1]);
  }

  lemma NotSpace(c: char)
    requires Opening(c) || Closing(c)
    ensures !IsJsSpace(c)
  {
  }

  lemma NegMark(e: Ast, gap: string) returns (k: nat)
    requires !e.Num?
    ensures var t := Render(Neg(e), gap); 0 < k < |t| && t[k] == '('
  {
    assert Render(Neg(e), gap) == "-" + ("(" + Render(e, gap) + ")");
    k := 1;
  }

  lemma BinMark(op: Op, l: Ast, r: Ast, gap: string) returns (k: nat)
    ensures var t := Render(Bin(op, l, r), gap); 0 < k < |t| && t[k] == OpChar(op)
  {
    var wl := Wrap(Render(l, gap), LeftBare(op, l));
    var wr := Wrap(Render(r, gap), RightBare(op, r));
    var t := Render(Bin(op, l, r), gap);
    assert t == wl + gap + [OpChar(op)] + gap + wr;
    RenderEnds(l, gap);
    k := |wl| + |gap|;
    assert t[k] == OpChar(op);
  }

  /** The text of a tree is whitelisted, holds no marker or variable, and
      takes no percent branch. */
  lemma RenderedPlain(a: Ast, gap: string, b: Bindings)
    requires Blank(gap)
    ensures var t := Render(a, gap);
      Whitelisted(t) && !HasMarker(t) && Substitute(t, b) == t && PercentPrefix(t).None?
  {
    var t := Render(a, gap);
    RenderChars(a, gap);
    RenderEnds(a, gap);
    NoKanjiIn(t);
    NoMarkerIn(t);
    SubstituteNothing(t, b);
    NotPercent(t);
  }

  /** On the text of any arithmetic tree, written with the fewest parentheses
      JavaScript needs and any white space around its operators,
      `calculateValue` yields the tree's value, whatever the bindings: as it
      stands when the text is a plain number, floored otherwise, and no value
      exactly where the tree divides by zero. */
  lemma CalculateRendered(a: Ast, gap: string, b: Bindings)
    requires Blank(gap)
    ensures CalculateValue(Some(Render(a, gap)), b) ==
      if LiteralTree(a) then Eval(a) else FloorOf(Eval(a))
  {
    var t := Render(a, gap);
    RenderedPlain(a, gap, b);
    if LiteralTree(a) {
      RenderedLiteral(a, gap);
    } else {
      RenderedNotLiteral(a, gap);
      ExpressionBranch(t, b);
      EvaluateRender(a, gap);
    }
  }

  /** The text `dl*dn` of two digit runs is arithmetic. */
  lemma ProductChars(dl: string, dn: string)
    requires AllDigits(dl) && AllDigits(dn)
    ensures Arithmetic(dl + ("*" + dn))
  {
    var e := dl + ("*" + dn);
    forall k | 0 <= k < |e|
      ensures ExprChar(e[k])
    {
      if k < |dl| {
        assert e[k] == dl[k];
      } else if k > |dl| {
        assert e[k] == dn[k - |dl| - 1];
      }
    }
  }

  /** A pattern at the very start of a text that never mentions its first
      character again is replaced once. */
  lemma ReplaceLeading(pat: string, tail: string, rep: string)
    requires |pat| > 0 && pat[0] !in tail
    ensures ReplaceAll(pat + tail, pat, rep) == rep + tail
  {
    var f := pat + tail;
    assert f[..|pat|] == pat;
    assert f[|pat|..] == tail;
    ReplaceAbsent(tail, pat, rep);
  }

  /** Arithmetic text mentions neither attack value. */
  lemma NoAttackIn(e: string, b: Bindings)
    requires Arithmetic(e)
    ensures ReplaceAll(ReplaceAll(e, PhyAtk, IntToString(b.phyAtk)), MagAtk, IntToString(b.magAtk)) == e
  {
    NoKanjiIn(e);
    ReplaceAbsent(e, PhyAtk, IntToString(b.phyAtk));
    ReplaceAbsent(e, MagAtk, IntToString(b.magAtk));
  }

  lemma NoKanjiIn(e: string)
    requires Arithmetic(e)
    ensures 'ス' !in e && '物' !in e && '魔' !in e
  {
    forall k | 0 <= k < |e|
      ensures e[k] != 'ス' && e[k] != '物' && e[k] != '魔'
    {
      assert ExprChar(e[k]);
    }
  }

  /** `スキルLv*N` becomes `L*N` at a non-negative level `L`. */
  lemma LevelSubstituted(n: nat, b: Bindings)
    requires b.level >= 0
    ensures Substitute(SkillLv + ("*" + NatToString(n)), b) == NatToString(b.level) + ("*" + NatToString(n))
  {
    var dn := NatToString(n);
    var dl := NatToString(b.level);
    var tail := "*" + dn;
    ProductChars("", dn);
    assert "" + tail == tail;
    NoKanjiIn(tail);
    ReplaceLeading(SkillLv, tail, dl);
    ProductChars(dl, dn);
    NoAttackIn(dl + tail, b);
  }

  /** The characters of `スキルLv*N`. */
  lemma LevelFormulaChars(n: nat)
    ensures var f := SkillLv + ("*" + NatToString(n));
      |f| > 0 && f[0] == 'ス' && f[|f| - 1] != '%'
      && forall k :: 0 <= k < |f| ==> ExprChar(f[k]) || f[k] in SkillLv
  {
    var dn := NatToString(n);
    var f := SkillLv + ("*" + dn);
    forall k | 0 <= k < |f|
      ensures ExprChar(f[k]) || f[k] in SkillLv
    {
      if k < |SkillLv| {
        assert f[k] == SkillLv[k];
      } else if k > |SkillLv| {
        assert f[k] == dn[k - |SkillLv| - 1];
      }
    }
    assert f[|f| - 1] == dn[|dn| - 1];
  }

  /** `スキルLv*N` at a non-negative level `L` is worth `L * N`. */
  lemma LevelTimes(n: nat, b: Bindings)
    requires b.level >= 0
    ensures CalculateValue(Some(SkillLv + ("*" + NatToString(n))), b) == Some(Multiple(b.level as real, n))
  {
    var f := SkillLv + ("*" + NatToString(n));
    var e := NatToString(b.level) + ("*" + NatToString(n));
    LevelFormulaChars(n);
    NotNumeric(f, 0);
    NotPercent(f);
    NoMarkerIn(f);
    ExpressionBranch(f, b);
    LevelSubstituted(n, b);
    ProductChars(NatToString(b.level), NatToString(n));
    assert Whitelisted(e);
    ProductOfLiterals(b.level, n);
    MultipleWhole(b.level, n);
  }

  lemma LevelTenText()
    ensures SkillLv + ("*" + NatToString(10)) == "スキルLv*10"
  {
    assert NatToString(10) == "10";
  }

  lemma LevelHundredTimesTen()
    ensures CalculateValue(Some("スキルLv*10"), Bindings(100, 0, 0)) == Some(1000.0)
  {
    LevelTenText();
    LevelTimes(10, Bindings(100, 0, 0));
    MultipleIsProduct(100.0, 10);
  }

  // ---------------------------------------------------------------------
  // The skill detail evaluator against the ranking evaluator.
  // ---------------------------------------------------------------------

  /** Numeric text is its own value for the detail view too. */
  lemma EffectNumeric(f: string, level: int)
    requires JsNumber(f).Some? && |f| > 0
    ensures EffectValue(Some(f), level) == JsNumber(f)
  {
  }

  /** Text without the letter `ス` does not mention the skill level. */
  lemma NoSkillLv(f: string)
    requires 'ス' !in f
    ensures !Contains(f, SkillLv)
  {
    if Contains(f, SkillLv) {
      ContainsChar(f, SkillLv, 0);
    }
  }

  /** `N%` is worth `N` to the ranking evaluator ... */
  lemma PercentCalculated(n: nat, b: Bindings)
    ensures CalculateValue(Some(NatToString(n) + "%"), b) == Some(n as real)
  {
    NaturalIsNumber(n);
    PercentLiteral(NatToString(n), b);
  }

  /** ... but has no value in the skill detail view, which neither reads
      percentages nor evaluates text without the skill level. */
  lemma PercentNotEffect(n: nat, level: int)
    ensures EffectValue(Some(NatToString(n) + "%"), level) == None
  {
    var d := NatToString(n);
    var f := d + "%";
    assert f[|f| - 1] == '%';
    NotNumeric(f, |f| - 1);
    assert 'ス' !in f by {
      forall k | 0 <= k < |f|
        ensures f[k] != 'ス'
      {
        if k < |d| {
          assert f[k] == d[k];
        }
      }
    }
    NoSkillLv(f);
  }

  /** Where the ranking evaluator's whitelist admits the substituted text and
      the formula mentions the skill level but no attack value, the two
      evaluators agree. */
  lemma EvaluatorsAgree(f: string, b: Bindings)
    requires Contains(f, SkillLv) && '物' !in f && '魔' !in f
    requires !HasMarker(f) && PercentPrefix(f).None?
    requires Whitelisted(Substitute(f, b))
    ensures EffectValue(Some(f), b.level) == CalculateValue(Some(f), b)
  {
    ContainsChar(f, SkillLv, 0);
    var k :| 0 <= k < |f| && f[k] == 'ス';
    NotNumeric(f, k);
    var e1 := ReplaceAll(f, SkillLv, IntToString(b.level));
    IntToStringChars(b.level, '物');
    IntToStringChars(b.level, '魔');
    if '物' in e1 {
      ReplaceChars(f, SkillLv, IntToString(b.level), '物');
    }
    if '魔' in e1 {
      ReplaceChars(f, SkillLv, IntToString(b.level), '魔');
    }
    ReplaceAbsent(e1, PhyAtk, IntToString(b.phyAtk));
    ReplaceAbsent(e1, MagAtk, IntToString(b.magAtk));
    ExpressionBranch(f, b);
  }
}

=== FILE: lists.dfy ===
/** Order-preserving selection from a list. */
module Lists {

  /** `a` lists some of the elements of `b`, in the same order. */
  predicate Subsequence<T(==)>(a: seq<T>, b: seq<T>)
    decreases |b|
  {
    |a| == 0 || (|b| > 0 && (if a[0] == b[0] then Subsequence(a[1..], b[1..]) else Subsequence(a, b[1..])))
  }

  /** A subsequence of the tail is a subsequence of the whole. */
  lemma {:induction false} SkipHead<T>(a: seq<T>, b: seq<T>)
    requires |b| > 0 && Subsequence(a, b[1..])
    ensures Subsequence(a, b)
    decreases |b|, 0
  {
    if |a| > 0 && a[0] == b[0] {
      DropFirst(a, b[1..]);
    }
  }

  /** Dropping the first element of a subsequence leaves a subsequence. */
  lemma {:induction false} DropFirst<T>(a: seq<T>, c: seq<T>)
    requires |a| > 0 && Subsequence(a, c)
    ensures Subsequence(a[1..], c)
    decreases |c|, 1
  {
    if a[0] == c[0] {
      SkipHead(a[1..], c);
    } else {
      DropFirst(a, c[1..]);
      SkipHead(a[1..], c);
    }
  }

  /** `s.filter(p)`. */
  function Filter<T>(s: seq<T>, p: T -> bool): (r: seq<T>)
    ensures |r| <= |s|
    decreases |s|
  {
    if |s| == 0 then []
    else (if p(s[0]) then [s[0]] else []) + Filter(s[1..], p)
  }

  /** An element is kept exactly when it is given and satisfies `p`. */
  lemma {:induction false} FilterMember<T>(s: seq<T>, p: T -> bool, x: T)
    ensures x in Filter(s, p) <==> x in s && p(x)
    decreases |s|
  {
    if |s| > 0 {
      FilterMember(s[1..], p, x);
      assert s == [s[0]] + s[1..];
    }
  }

  /** Filtering keeps the input order. */
  lemma {:induction false} FilterInOrder<T>(s: seq<T>, p: T -> bool)
    ensures Subsequence(Filter(s, p), s)
    decreases |s|
  {
    if |s| > 0 {
      var r := Filter(s, p);
      var rest := Filter(s[1..], p);
      FilterInOrder(s[1..], p);
      if p(s[0]) {
        assert r[0] == s[0] && r[1..] == rest;
      } else if |r| > 0 {
        assert r == rest;
        SkipHead(r, s);
      }
    }
  }

  /** When every element satisfies `p`, nothing is dropped. */
  lemma {:induction false} FilterKeepsAll<T>(s: seq<T>, p: T -> bool)
    requires forall k :: 0 <= k < |s| ==> p(s[k])
    ensures Filter(s, p) == s
    decreases |s|
  {
    if |s| > 0 {
      FilterKeepsAll(s[1..], p);
      assert [s[0]] + s[1..] == s;
    }
  }
}

=== FILE: model.dfy ===
/** The records the application works on: the structured skill data of the
    character browser and ranking pages, and the flat unit records of the
    unit list. */
module Model {
  import opened Wrappers

  /** A property read from JSON data: absent (`undefined`), `null`, or a value. */
  datatype Field<T> = Undefined | Null | Present(value: T)

  /** A text property is truthy when it holds a non-empty string. */
  predicate TruthyText(f: Field<string>) {
    f.Present? && |f.value| > 0
  }

  /** `f || ''` for a text property. */
  function TextOr(f: Field<string>): (r: string)
    ensures TruthyText(f) ==> r == f.value
    ensures !TruthyText(f) ==> r == ""
  {
    if f.Present? then f.value else ""
  }

  /** One child effect of a field (`フィールド`) effect. */
  datatype FieldEffect = FieldEffect(kind: string, formula: string)

  /** One effect of a skill version; `kind` is the JSON property `type`. */
  datatype Effect = Effect(
    target: string,
    kind: string,
    formula: Field<string>,
    duration: Field<real>,
    condition: Field<string>,
    note: Field<string>,
    durationFormula: Field<string>,
    fieldEffects: Field<seq<FieldEffect>>)

  datatype SkillVersion = SkillVersion(
    versionId: string,
    name: string,
    description: string,
    effects: seq<Effect>,
    note: Field<string>)

  datatype SkillDetail = SkillDetail(baseName: Option<string>, versions: seq<SkillVersion>)

  /** One entry of a character's skill object, in key order; an entry whose
      value is `undefined` has no detail. */
  datatype Slot = Slot(key: string, detail: Option<SkillDetail>)

  /** The structured skill data: character full name to its skill entries. */
  type UnitSkills = map<string, seq<Slot>>

  datatype SimpleSkill = SimpleSkill(name: string, description: string)

  datatype SimpleSkills = SimpleSkills(unionBurst: SimpleSkill, skill1: SimpleSkill, skill2: SimpleSkill)

  /** A character of the browser page; `kind` is the JSON property `type`. */
  datatype Character = Character(
    id: string,
    name: string,
    version: string,
    fullName: string,
    rarity: int,
    position: string,
    kind: string,
    attribute: string,
    roles: seq<string>,
    releaseDate: string,
    acquisitionMethod: string,
    skills: SimpleSkills)

  /** The effect properties a skill filter may name, plus `description`,
      which no effect has. */
  datatype Property =
    | TargetKey | TypeKey | FormulaKey | DurationKey | ConditionKey | NoteKey
    | DurationFormulaKey | FieldEffectsKey | DescriptionKey

  datatype FilterValue = TextValue(text: string) | NumberValue(number: real) | NullValue

  datatype MatchType = Exact | ContainsText

  datatype SkillFilter = SkillFilter(
    id: string,
    property: Property,
    value: FilterValue,
    matchType: Option<MatchType>)

  datatype FilterOptions = FilterOptions(
    element: seq<string>,
    position: seq<string>,
    atkType: seq<string>,
    roles: seq<string>,
    skillFilters: seq<SkillFilter>)

  datatype SortType = DefaultOrder | NameAscending | PositionOrder

  datatype Element = Fire | Water | Wind | Light | Dark | UnknownElement

  datatype Position = Front | Middle | Back | UnknownPosition

  /** Which skill descriptions raised a category; an absent flag is `false`. */
  datatype SourceInfo = SourceInfo(ub: bool, s1: bool, s2: bool)

  /** A calendar date in the proleptic Gregorian calendar, month 1 to 12. */
  datatype Date = Date(year: int, month: int, day: int)

  /** A unit of the unit list, with the fields derived from the raw record. */
  datatype Unit = Unit(
    unitId: int,
    unitName: string,
    comment: string,
    isLimited: int,
    rarity: nat,
    atkType: int,
    actualName: string,
    element: Element,
    position: Position,
    ubDescription: string,
    skill1Description: string,
    skill2Description: string,
    ubName: string,
    skill1Name: string,
    skill2Name: string,
    skillFlags: map<string, SourceInfo>,
    startTime: Date)

  /** An entry of the unit icon table; an id of 0 means no icon. */
  datatype IconEntry = IconEntry(name: string, idStar1: nat, idStar3: nat, idStar6: nat)
}

=== FILE: numbers.dfy ===
/** Decimal text and numbers: JavaScript's `Number(s)` and `parseInt(s, 10)`
    on the decimal forms the data uses, and `String(n)` for integers. */
module Numbers {
  import opened Wrappers
  import opened Text

  predicate IsDigit(c: char) {
    '0' <= c <= '9'
  }

  predicate AllDigits(s: string) {
    forall k :: 0 <= k < |s| ==> IsDigit(s[k])
  }

  function DigitValue(c: char): nat
    requires IsDigit(c)
  {
    c as int - '0' as int
  }

  function DigitChar(d: nat): (c: char)
    requires d < 10
    ensures IsDigit(c) && DigitValue(c) == d
  {
    ('0' as int + d) as char
  }

  /** The value of a run of decimal digits, most significant first. */
  function DigitsValue(s: string): nat
    requires AllDigits(s)
    decreases |s|
  {
    if |s| == 0 then 0 else DigitsValue(s[..|s| - 1]) * 10 + DigitValue(s[|s| - 1])
  }

  function Pow10(n: nat): (r: nat)
    ensures r >= 1
  {
    if n == 0 then 1 else 10 * Pow10(n - 1)
  }

  /** The value of the digits after a decimal point. */
  function Fraction(s: string): real
    requires AllDigits(s)
  {
    DigitsValue(s) as real / Pow10(|s|) as real
  }

  /** Index just past the run of digits that starts at `i`. */
  function DigitRunEnd(s: string, i: nat): (j: nat)
    requires i <= |s|
    ensures i <= j <= |s|
    ensures j == |s| || !IsDigit(s[j])
    decreases |s| - i
  {
    if i == |s| || !IsDigit(s[i]) then i else DigitRunEnd(s, i + 1)
  }

  /** The run `DigitRunEnd` skips consists of digits. */
  lemma DigitRun(s: string, i: nat)
    requires i <= |s|
    ensures AllDigits(s[i..DigitRunEnd(s, i)])
  {
    var e := DigitRunEnd(s, i);
    forall k | 0 <= k < e - i
      ensures IsDigit(s[i..e][k])
    {
      DigitRunSkipped(s, i, i + k);
    }
  }

  lemma {:induction false} DigitRunSkipped(s: string, i: nat, k: nat)
    requires i <= |s| && i <= k < DigitRunEnd(s, i)
    ensures IsDigit(s[k])
    decreases k - i
  {
    if i < k {
      DigitRunSkipped(s, i + 1, k);
    }
  }

  /** A run of digits from `i` to a non-digit at `e` is what `DigitRunEnd`
      finds. */
  lemma {:induction false} DigitRunAcross(s: string, i: nat, e: nat)
    requires i <= e <= |s|
    requires forall k :: i <= k < e ==> IsDigit(s[k])
    requires e == |s| || !IsDigit(s[e])
    ensures DigitRunEnd(s, i) == e
    decreases e - i
  {
    if i < e {
      DigitRunAcross(s, i + 1, e);
    }
  }

  /** `String(n)` for a non-negative integer: shortest decimal text. */
  function NatToString(n: nat): (r: string)
    ensures |r| > 0 && AllDigits(r)
    ensures |r| > 1 ==> r[0] != '0'
    decreases n
  {
    if n < 10 then [DigitChar(n)] else NatToString(n / 10) + [DigitChar(n % 10)]
  }

  /** `String(n)` for an integer. */
  function IntToString(n: int): (r: string)
    ensures |r| > 0
    ensures n >= 0 ==> r == NatToString(n)
    ensures n < 0 ==> r == "-" + NatToString(-n)
  {
    if n < 0 then "-" + NatToString(-n) else NatToString(n)
  }

  /** Reading back the decimal text of `n` gives `n`. */
  lemma {:induction false} NatToStringRoundTrip(n: nat)
    ensures DigitsValue(NatToString(n)) == n
    decreases n
  {
    var r := NatToString(n);
    if n >= 10 {
      NatToStringRoundTrip(n / 10);
      assert r[..|r| - 1] == NatToString(n / 10);
    }
  }

  /** Characters that may appear in text `Number` accepts. */
  predicate NumberChar(c: char) {
    IsDigit(c) || c == '+' || c == '-' || c == '.' || IsJsSpace(c)
  }

  /** An unsigned decimal literal: `digits`, `digits.`, `digits.digits` or
      `.digits`. */
  function UnsignedDecimal(u: string): (r: Option<real>)
    ensures r.Some? ==> forall k :: 0 <= k < |u| ==> IsDigit(u[k]) || u[k] == '.'
    ensures r.Some? ==> r.value >= 0.0
  {
    var i := DigitRunEnd(u, 0);
    assert AllDigits(u[..i]) by {
      DigitRun(u, 0);
      assert u[0..i] == u[..i];
    }
    if i == |u| then
      if i == 0 then None else Some(DigitsValue(u) as real)
    else if u[i] != '.' then None
    else
      var f := u[i + 1..];
      if !AllDigits(f) || (i == 0 && |f| == 0) then None
      else
        assert forall k :: 0 <= k < |u| ==> IsDigit(u[k]) || u[k] == '.' by {
          forall k | 0 <= k < |u|
            ensures IsDigit(u[k]) || u[k] == '.'
          {
            if k < i {
              assert u[k] == u[..i][k];
            } else if k > i {
              assert u[k] == f[k - i - 1];
            }
          }
        }
        Some(DigitsValue(u[..i]) as real + Fraction(f))
  }

  /** `Number` on text already trimmed: empty text is 0, and a sign may
      precede an unsigned decimal literal. */
  function SignedDecimal(t: string): (r: Option<real>)
    ensures r.Some? ==> forall k :: 0 <= k < |t| ==> NumberChar(t[k])
  {
    if |t| == 0 then Some(0.0)
    else if t[0] == '-' || t[0] == '+' then
      match UnsignedDecimal(t[1..])
      case None => None
      case Some(v) =>
        assert forall k :: 1 <= k < |t| ==> t[k] == t[1..][k - 1];
        Some(if t[0] == '-' then -v else v)
    else UnsignedDecimal(t)
  }

  /** `Number(s)` for decimal text: surrounding white space is ignored, text
      that is empty once trimmed is 0, a sign may precede the literal, and
      anything else is `NaN` (`None`). */
  function JsNumber(s: string): Option<real> {
    SignedDecimal(Trim(s))
  }

  /** Text `Number` accepts consists of digits, signs, points and white space. */
  lemma JsNumberChars(s: string)
    requires JsNumber(s).Some?
    ensures forall k :: 0 <= k < |s| ==> NumberChar(s[k])
  {
    var t := Trim(s);
    var b := SpaceEnd(s, 0);
    forall k | 0 <= k < |s|
      ensures NumberChar(s[k])
    {
      if k < b {
        SpaceSkipped(s, 0, k);
      } else if k < b + |t| {
        assert s[k] == t[k - b];
      }
    }
  }

  /** A non-empty run of digits is an unsigned decimal worth its digits. */
  lemma DigitsAreDecimal(d: string)
    requires |d| > 0 && AllDigits(d)
    ensures UnsignedDecimal(d) == Some(DigitsValue(d) as real)
  {
    assert DigitRunEnd(d, 0) == |d|;
  }

  /** Text with no white space at either end is its own trim. */
  lemma TrimUnchanged(s: string)
    requires |s| > 0 && !IsJsSpace(s[0]) && !IsJsSpace(s[|s| - 1])
    ensures Trim(s) == s
  {
    assert SpaceEnd(s, 0) == 0;
    assert TrimStart(s) == s;
  }

  /** The decimal text of an integer is a number that reads back as itself. */
  lemma IntToStringIsNumber(n: int)
    ensures JsNumber(IntToString(n)) == Some(n as real)
  {
    if n < 0 {
      NegativeIsNumber(n);
    } else {
      NaturalIsNumber(n);
    }
  }

  lemma NaturalIsNumber(n: int)
    requires n >= 0
    ensures JsNumber(IntToString(n)) == Some(n as real)
  {
    var d := NatToString(n);
    NatToStringRoundTrip(n);
    DigitsAreDecimal(d);
    TrimUnchanged(d);
    assert d[0] != '-' && d[0] != '+';
  }

  lemma NegativeIsNumber(n: int)
    requires n < 0
    ensures JsNumber(IntToString(n)) == Some(n as real)
  {
    var d := NatToString(-n);
    var s := "-" + d;
    NatToStringRoundTrip(-n);
    DigitsAreDecimal(d);
    assert s[|s| - 1] == d[|d| - 1];
    TrimUnchanged(s);
    assert s[1..] == d;
  }

  /** `parseInt(s, 10)`: optional leading white space and sign, then the
      longest run of digits; no digits gives `NaN` (`None`). Whatever follows
      the digits is ignored. */
  function ParseIntPrefix(s: string): (r: Option<int>)
    ensures r.Some? ==> exists k :: 0 <= k < |s| && IsDigit(s[k])
  {
    var i := SpaceEnd(s, 0);
    var signed := i < |s| && (s[i] == '-' || s[i] == '+');
    var start := if signed then i + 1 else i;
    var e := DigitRunEnd(s, start);
    if e == start then None
    else
      assert AllDigits(s[start..e]) by {
        DigitRun(s, start);
      }
      var v: int := DigitsValue(s[start..e]);
      assert IsDigit(s[start]) by {
        assert s[start] == s[start..e][0];
      }
      Some(if signed && s[i] == '-' then -v else v)
  }

  /** A run of digits `d` at `start`, followed by a non-digit or the end, is
      the run `DigitRunEnd` finds. */
  lemma DigitsThenStop(s: string, start: nat, d: string)
    requires start + |d| <= |s| && s[start..start + |d|] == d && AllDigits(d)
    requires start + |d| == |s| || !IsDigit(s[start + |d|])
    ensures DigitRunEnd(s, start) == start + |d|
  {
    forall k | start <= k < start + |d|
      ensures IsDigit(s[k])
    {
      assert s[k] == d[k - start];
    }
    DigitRunAcross(s, start, start + |d|);
  }

  /** `parseInt` reads back the decimal text of an integer, whatever non-digit
      text follows it. */
  lemma ParseIntRoundTrip(n: int, rest: string)
    requires |rest| == 0 || !IsDigit(rest[0])
    ensures ParseIntPrefix(IntToString(n) + rest) == Some(n)
  {
    if n < 0 {
      NegativeParseInt(n, rest);
    } else {
      NaturalParseInt(n, rest);
    }
  }

  lemma NaturalParseInt(n: int, rest: string)
    requires n >= 0 && (|rest| == 0 || !IsDigit(rest[0]))
    ensures ParseIntPrefix(IntToString(n) + rest) == Some(n)
  {
    var d := NatToString(n);
    NatToStringRoundTrip(n);
    var s := d + rest;
    assert SpaceEnd(s, 0) == 0;
    assert s[0..|d|] == d;
    DigitsThenStop(s, 0, d);
  }

  lemma NegativeParseInt(n: int, rest: string)
    requires n < 0 && (|rest| == 0 || !IsDigit(rest[0]))
    ensures ParseIntPrefix(IntToString(n) + rest) == Some(n)
  {
    var d := NatToString(-n);
    NatToStringRoundTrip(-n);
    var s := "-" + d + rest;
    assert SpaceEnd(s, 0) == 0;
    assert s[1..1 + |d|] == d;
    DigitsThenStop(s, 1, d);
  }
}

=== FILE: ranking.dfy ===
/** The calculators of the ranking page. A calculator walks every character,
    every skill entry of that character and every version of the entry; a
    version is valued by totalling the effects of one kind, and every
    version with a positive total becomes a rank item. The speed calculator
    instead turns each action-speed effect into an item of its own. Items are
    returned sorted by value, largest first. */
module Ranking {
  import opened Wrappers
  import opened Text
  import opened Numbers
  import opened Formula
  import opened Model
  import opened Sorting

  /** Which targets an effect must name to count. */
  datatype Scope = Single | Area | AnyTarget

  /** The parameters of `createRankingCalculator`. */
  datatype Metric = Metric(effectType: string, scope: Scope, isDebuff: bool, debuffType: Option<string>)

  datatype Calculator = Ranked(metric: Metric) | SpeedRanking

  /** The parts of an item's `details` text: `持続:…秒`, `持続:永続秒` and
      `条件:…`. */
  datatype Annotation = Lasting(seconds: real) | Permanent | Conditioned(condition: string)

  datatype RankItem = RankItem(
    characterId: string,
    characterName: string,
    characterFullName: string,
    skillName: string,
    skillIcon: string,
    value: real,
    details: seq<Annotation>,
    skillType: Option<string>)

  /** Skill versions whose required level is above this are never ranked. */
  const MaxLevel: nat := 260

  // ---------------------------------------------------------------------
  // The two patterns: `【?スキルLv(\d+)以上】?` and `(\d+)回`.
  // ---------------------------------------------------------------------

  /** The match of `pre(\d+)post` starting at `i`, as the value of the digits.
      Since `\d+` is greedy and `post` does not start with a digit, a match at
      `i` must take the whole run of digits. */
  function RunAt(s: string, i: nat, pre: string, post: string): Option<nat>
    requires i <= |s|
  {
    if !StartsWith(s[i..], pre) then None
    else
      var j := i + |pre|;
      var e := DigitRunEnd(s, j);
      if e == j || !StartsWith(s[e..], post) then None
      else
        assert AllDigits(s[j..e]) by {
          DigitRun(s, j);
        }
        Some(DigitsValue(s[j..e]))
  }

  /** The leftmost match of `pre(\d+)post` at or after `i`, as a regular
      expression search finds it. */
  function FirstRun(s: string, i: nat, pre: string, post: string): Option<nat>
    requires i <= |s|
    decreases |s| - i
  {
    if RunAt(s, i, pre, post).Some? then RunAt(s, i, pre, post)
    else if i == |s| then None
    else FirstRun(s, i + 1, pre, post)
  }

  /** A search result is the match at some position with no match before it. */
  lemma {:induction false} FirstRunWitness(s: string, i: nat, pre: string, post: string) returns (k: nat)
    requires i <= |s| && FirstRun(s, i, pre, post).Some?
    ensures i <= k <= |s| && RunAt(s, k, pre, post) == FirstRun(s, i, pre, post)
    ensures forall j :: i <= j < k ==> RunAt(s, j, pre, post).None?
    decreases |s| - i
  {
    if RunAt(s, i, pre, post).Some? {
      k := i;
    } else {
      k := FirstRunWitness(s, i + 1, pre, post);
    }
  }

  /** A match with nothing before it is what the search finds. */
  lemma {:induction false} FirstRunAt(s: string, i: nat, k: nat, pre: string, post: string)
    requires i <= k <= |s| && RunAt(s, k, pre, post).Some?
    requires forall j :: i <= j < k ==> RunAt(s, j, pre, post).None?
    ensures FirstRun(s, i, pre, post) == RunAt(s, k, pre, post)
    decreases k - i
  {
    if i < k {
      FirstRunAt(s, i + 1, k, pre, post);
    }
  }

  /** An unsuccessful search means no position matches. */
  lemma {:induction false} FirstRunNone(s: string, i: nat, k: nat, pre: string, post: string)
    requires i <= k <= |s| && FirstRun(s, i, pre, post).None?
    ensures RunAt(s, k, pre, post).None?
    decreases k - i
  {
    if i < k {
      FirstRunNone(s, i + 1, k, pre, post);
    }
  }

  /** The decimal text of `n` between `pre` and `post` at `i` is a match
      worth `n`. */
  lemma RunAtLiteral(s: string, i: nat, pre: string, n: nat, post: string)
    requires i + |pre| + |NatToString(n)| <= |s|
    requires s[i..i + |pre|] == pre
    requires s[i + |pre|..i + |pre| + |NatToString(n)|] == NatToString(n)
    requires StartsWith(s[i + |pre| + |NatToString(n)|..], post)
    requires |post| > 0 && !IsDigit(post[0])
    ensures RunAt(s, i, pre, post) == Some(n)
  {
    var d := NatToString(n);
    var j := i + |pre|;
    var e := j + |d|;
    assert s[i..][..|pre|] == s[i..i + |pre|];
    assert s[e] == post[0] by {
      assert s[e..][0] == post[0];
    }
    DigitsThenStop(s, j, d);
    NatToStringRoundTrip(n);
  }

  /** The text a version's level requirement is read from. */
  function VersionText(v: SkillVersion): string {
    v.description + TextOr(v.note)
  }

  /** The level in the first `スキルLvN以上` of the text, if any; the optional
      brackets around it do not change which digits are read. */
  function LevelRequirement(text: string): Option<nat> {
    FirstRun(text, 0, SkillLv, "以上")
  }

  /** A version is skipped when it requires a level above `MaxLevel`. */
  predicate Gated(v: SkillVersion) {
    var r := LevelRequirement(VersionText(v));
    r.Some? && r.value > MaxLevel
  }

  /** No match of `pre(\d+)post` starts inside a prefix `p` that does not
      hold the first character of `pre`. */
  lemma NoRunIn(s: string, p: string, pre: string, post: string)
    requires |p| <= |s| && s[..|p|] == p && |pre| > 0 && pre[0] !in p
    ensures forall j :: 0 <= j < |p| ==> RunAt(s, j, pre, post).None?
  {
    forall j | 0 <= j < |p|
      ensures RunAt(s, j, pre, post).None?
    {
      assert s[j] == p[j];
    }
  }

  /** No match of `(\d+)post` starts inside a prefix `p` without digits. */
  lemma NoDigitRunIn(s: string, p: string, post: string)
    requires |p| <= |s| && s[..|p|] == p
    requires forall c :: c in p ==> !IsDigit(c)
    ensures forall j :: 0 <= j < |p| ==> RunAt(s, j, "", post).None?
  {
    forall j | 0 <= j < |p|
      ensures RunAt(s, j, "", post).None?
    {
      assert s[j] == p[j];
      assert !IsDigit(s[j]);
      assert DigitRunEnd(s, j) == j;
    }
  }

  /** Text whose first `スキルLvN以上` follows a prefix without `ス` requires
      level `N`; the prefix may be other text, or the opening bracket `【`. */
  lemma LevelRequirementOf(p: string, n: nat, rest: string)
    requires 'ス' !in p
    ensures LevelRequirement(p + SkillLv + NatToString(n) + "以上" + rest) == Some(n)
  {
    var d := NatToString(n);
    var s := p + SkillLv + d + "以上" + rest;
    var i := |p|;
    assert s[..i] == p;
    assert s[i..i + |SkillLv|] == SkillLv;
    assert s[i + |SkillLv|..i + |SkillLv| + |d|] == d;
    assert s[i + |SkillLv| + |d|..][..|"以上"|] == "以上";
    RunAtLiteral(s, i, SkillLv, n, "以上");
    NoRunIn(s, p, SkillLv, "以上");
    FirstRunAt(s, 0, i, SkillLv, "以上");
  }

  /** The gate depends on the stated level only: a version whose description
      and note, read together, state `スキルLvN以上` after text without `ス`
      is skipped exactly when `N` is above `MaxLevel`. The marker may be
      bracketed, follow other text, or sit in the note alone. */
  lemma GateThreshold(v: SkillVersion, p: string, n: nat, rest: string)
    requires 'ス' !in p
    requires v.description + TextOr(v.note) == p + SkillLv + NatToString(n) + "以上" + rest
    ensures Gated(v) <==> n > MaxLevel
  {
    LevelRequirementOf(p, n, rest);
  }

  /** The number of hits an effect's note states (`N回`), 1 if none. */
  function HitCount(note: Field<string>): nat {
    if note.Present? then
      match FirstRun(note.value, 0, "", "回")
      case Some(n) => n
      case None => 1
    else 1
  }

  /** A note whose first digits are `N回` states `N` hits, whatever text
      without digits comes before it (`最大3回` states 3). */
  lemma HitCountOf(p: string, n: nat, rest: string)
    requires forall c :: c in p ==> !IsDigit(c)
    ensures HitCount(Present(p + NatToString(n) + "回" + rest)) == n
  {
    var d := NatToString(n);
    var s := p + d + "回" + rest;
    var i := |p|;
    assert s[..i] == p;
    assert s[i..i + 0] == "";
    assert s[i..i + |d|] == d;
    assert s[i + |d|..][..1] == "回";
    RunAtLiteral(s, i, "", n, "回");
    NoDigitRunIn(s, p, "回");
    FirstRunAt(s, 0, i, "", "回");
  }

  // ---------------------------------------------------------------------
  // Field expansion and the companion exclusion.
  // ---------------------------------------------------------------------

  /** A field effect with a child list (even an empty one) is expanded. */
  predicate FieldParent(e: Effect) {
    e.kind == "フィールド" && e.fieldEffects.Present?
  }

  /** A field child takes its type and formula from the child entry, and the
      target and condition of its parent; it has no other property. */
  function Child(parent: Effect, fe: FieldEffect): (c: Effect)
    ensures !FieldParent(c)
  {
    Effect(parent.target, fe.kind, Present(fe.formula), Undefined, parent.condition,
           Undefined, Undefined, Undefined)
  }

  function Children(parent: Effect, fes: seq<FieldEffect>): (r: seq<Effect>)
    ensures |r| == |fes|
    ensures forall k :: 0 <= k < |fes| ==> r[k] == Child(parent, fes[k])
  {
    seq(|fes|, k requires 0 <= k < |fes| => Child(parent, fes[k]))
  }

  function ExpandOne(e: Effect): seq<Effect> {
    if FieldParent(e) then Children(e, e.fieldEffects.value) else [e]
  }

  /** The `flatMap` that replaces each field effect by its children. */
  function Expand(es: seq<Effect>): seq<Effect>
    decreases |es|
  {
    if |es| == 0 then [] else ExpandOne(es[0]) + Expand(es[1..])
  }

  /** Every expanded effect is an effect of the version that is not a field
      parent, or a child of a field parent of the version. */
  lemma {:induction false} ExpandOrigin(es: seq<Effect>, x: Effect)
    requires x in Expand(es)
    ensures (x in es && !FieldParent(x))
      || exists p, fe :: p in es && FieldParent(p) && fe in p.fieldEffects.value && x == Child(p, fe)
    decreases |es|
  {
    if x in ExpandOne(es[0]) {
      if FieldParent(es[0]) {
        var k :| 0 <= k < |es[0].fieldEffects.value| && Children(es[0], es[0].fieldEffects.value)[k] == x;
        assert es[0].fieldEffects.value[k] in es[0].fieldEffects.value;
      }
    } else {
      ExpandOrigin(es[1..], x);
    }
  }

  /** Effects that are not field parents survive expansion. */
  lemma {:induction false} ExpandKeeps(es: seq<Effect>, x: Effect)
    requires x in es && !FieldParent(x)
    ensures x in Expand(es)
    decreases |es|
  {
    if x != es[0] {
      ExpandKeeps(es[1..], x);
    }
  }

  /** Every child of every field parent appears after expansion. */
  lemma {:induction false} ExpandChildren(es: seq<Effect>, p: Effect, fe: FieldEffect)
    requires p in es && FieldParent(p) && fe in p.fieldEffects.value
    ensures Child(p, fe) in Expand(es)
    decreases |es|
  {
    if p == es[0] {
      var k :| 0 <= k < |p.fieldEffects.value| && p.fieldEffects.value[k] == fe;
      assert Children(p, p.fieldEffects.value)[k] == Child(p, fe);
    } else {
      ExpandChildren(es[1..], p, fe);
    }
  }

  /** No field parent is left after expansion. */
  lemma ExpandFlat(es: seq<Effect>, x: Effect)
    requires x in Expand(es)
    ensures !FieldParent(x)
  {
    ExpandOrigin(es, x);
  }

  predicate HasKind(es: seq<Effect>, kind: string) {
    exists k :: 0 <= k < |es| && es[k].kind == kind
  }

  /** A defence-down ranking skips versions that also lower the attack of
      the same kind. */
  predicate Companion(m: Metric, all: seq<Effect>) {
    (m.debuffType == Some("物理防御力DOWN") && HasKind(all, "物理攻撃力DOWN"))
    || (m.debuffType == Some("魔法防御力DOWN") && HasKind(all, "魔法攻撃力DOWN"))
  }

  // ---------------------------------------------------------------------
  // Matching effects and the conditional collapse.
  // ---------------------------------------------------------------------

  predicate TargetMatch(scope: Scope, target: string) {
    match scope
    case Single => Contains(target, "1キャラ") || Contains(target, "自分")
    case Area => Contains(target, "範囲") || Contains(target, "全体")
    case AnyTarget => true
  }

  /** The type an effect must have: the debuff type for debuff rankings. */
  function TypeToCheck(m: Metric): Option<string> {
    if m.isDebuff then m.debuffType else Some(m.effectType)
  }

  /** The filter on expanded effects. */
  predicate Keeps(m: Metric, e: Effect) {
    (!m.isDebuff || Contains(e.target, "敵"))
    && TypeToCheck(m) == Some(e.kind)
    && TargetMatch(m.scope, e.target)
  }

  function Matching(m: Metric, es: seq<Effect>): (r: seq<Effect>)
    ensures |r| <= |es|
    decreases |es|
  {
    if |es| == 0 then []
    else (if Keeps(m, es[0]) then [es[0]] else []) + Matching(m, es[1..])
  }

  /** An effect is matched exactly when it is one of the effects and passes
      the filter. */
  lemma {:induction false} MatchingMember(m: Metric, es: seq<Effect>, x: Effect)
    ensures x in Matching(m, es) <==> x in es && Keeps(m, x)
    decreases |es|
  {
    if |es| > 0 {
      MatchingMember(m, es[1..], x);
      assert es == [es[0]] + es[1..];
    }
  }

  function FormulaOf(e: Effect): Option<string> {
    if e.formula.Present? then Some(e.formula.value) else None
  }

  /** `calculateValue(e.formula, …) || 0`. */
  function ValueOrZero(e: Effect, b: Bindings): real {
    CalculateValue(FormulaOf(e), b).GetOr(0.0)
  }

  /** The values the `reduce` compares, one per effect. */
  function Values(ms: seq<Effect>, b: Bindings): (vs: seq<real>)
    ensures |vs| == |ms|
    ensures forall k :: 0 <= k < |ms| ==> vs[k] == ValueOrZero(ms[k], b)
  {
    seq(|ms|, k requires 0 <= k < |ms| => ValueOrZero(ms[k], b))
  }

  /** The `reduce` that keeps the running best and replaces it only by a
      strictly larger value: the index of the best value of `vs`, having
      looked at `vs[..i]` with the best so far at `best`. */
  function BestFrom(vs: seq<real>, best: nat, i: nat): (r: nat)
    requires best < i <= |vs|
    ensures r < |vs|
    decreases |vs| - i
  {
    if i == |vs| then best
    else BestFrom(vs, if vs[i] > vs[best] then i else best, i + 1)
  }

  /** The reduction finds the first maximal value. */
  lemma {:induction false} BestIsFirstMaximum(vs: seq<real>, best: nat, i: nat)
    requires best < i <= |vs|
    requires forall k :: 0 <= k < i ==> vs[k] <= vs[best]
    requires forall k :: 0 <= k < best ==> vs[k] < vs[best]
    ensures forall k :: 0 <= k < |vs| ==> vs[k] <= vs[BestFrom(vs, best, i)]
    ensures forall k :: 0 <= k < BestFrom(vs, best, i) ==> vs[k] < vs[BestFrom(vs, best, i)]
    decreases |vs| - i
  {
    if i < |vs| {
      var next := if vs[i] > vs[best] then i else best;
      BestIsFirstMaximum(vs, next, i + 1);
    }
  }

  predicate AllConditional(ms: seq<Effect>) {
    forall k :: 0 <= k < |ms| ==> TruthyText(ms[k].condition)
  }

  /** Several matching effects that all carry a condition are alternatives:
      only the first one of largest value is kept. */
  function Collapse(ms: seq<Effect>, b: Bindings): (r: seq<Effect>)
    ensures !(|ms| > 1 && AllConditional(ms)) ==> r == ms
    ensures |ms| > 1 && AllConditional(ms) ==> |r| == 1 && r[0] in ms
  {
    if |ms| > 1 && AllConditional(ms) then [ms[BestFrom(Values(ms, b), 0, 1)]] else ms
  }

  /** The kept alternative is worth at least every other, and every
      alternative before it is worth strictly less. */
  lemma CollapseKeepsFirstMaximum(ms: seq<Effect>, b: Bindings)
    requires |ms| > 1 && AllConditional(ms)
    ensures exists w :: (0 <= w < |ms| && Collapse(ms, b) == [ms[w]]
      && (forall k :: 0 <= k < |ms| ==> ValueOrZero(ms[k], b) <= ValueOrZero(ms[w], b))
      && (forall k :: 0 <= k < w ==> ValueOrZero(ms[k], b) < ValueOrZero(ms[w], b)))
  {
    var vs := Values(ms, b);
    BestIsFirstMaximum(vs, 0, 1);
    var w := BestFrom(vs, 0, 1);
    assert Collapse(ms, b) == [ms[w]];
    assert forall k :: 0 <= k < |ms| ==> ValueOrZero(ms[k], b) <= ValueOrZero(ms[w], b) by {
      forall k | 0 <= k < |ms| ensures ValueOrZero(ms[k], b) <= ValueOrZero(ms[w], b) {
        assert vs[k] <= vs[w];
      }
    }
    assert forall k :: 0 <= k < w ==> ValueOrZero(ms[k], b) < ValueOrZero(ms[w], b) by {
      forall k | 0 <= k < w ensures ValueOrZero(ms[k], b) < ValueOrZero(ms[w], b) {
        assert vs[k] < vs[w];
      }
    }
  }

  // ---------------------------------------------------------------------
  // Totals and items.
  // ---------------------------------------------------------------------

  /** What one surviving effect adds: its value times its hit count, when it
      has a formula that evaluates. */
  function Contribution(e: Effect, b: Bindings): real {
    if TruthyText(e.formula) then
      match CalculateValue(Some(e.formula.value), b)
      case Some(v) => v * (HitCount(e.note) as real)
      case None => 0.0
    else 0.0
  }

  function Total(es: seq<Effect>, b: Bindings): real
    decreases |es|
  {
    if |es| == 0 then 0.0 else Contribution(es[0], b) + Total(es[1..], b)
  }

  /** Effects without a formula that evaluates add nothing. */
  lemma {:induction false} TotalOfUnvalued(es: seq<Effect>, b: Bindings)
    requires forall k :: 0 <= k < |es| ==> !TruthyText(es[k].formula)
    ensures Total(es, b) == 0.0
    decreases |es|
  {
    if |es| > 0 {
      assert !TruthyText(es[0].formula);
      TotalOfUnvalued(es[1..], b);
    }
  }

  /** Totals add up over concatenation. */
  lemma {:induction false} TotalAppend(xs: seq<Effect>, ys: seq<Effect>, b: Bindings)
    ensures Total(xs + ys, b) == Total(xs, b) + Total(ys, b)
    decreases |xs|
  {
    if |xs| > 0 {
      assert (xs + ys)[0] == xs[0];
      assert (xs + ys)[1..] == xs[1..] + ys;
      TotalAppend(xs[1..], ys, b);
    } else {
      assert xs + ys == ys;
    }
  }

  /** The annotations of one surviving effect: its duration, when non-zero,
      then its condition, when non-empty. */
  function Annotations(e: Effect): seq<Annotation> {
    (if e.duration.Present? && e.duration.value != 0.0 then [Lasting(e.duration.value)] else [])
    + (if TruthyText(e.condition) then [Conditioned(e.condition.value)] else [])
  }

  function AllAnnotations(es: seq<Effect>): seq<Annotation>
    decreases |es|
  {
    if |es| == 0 then [] else Annotations(es[0]) + AllAnnotations(es[1..])
  }

  /** `ub` for union bursts, `special` for special skills, `skill` otherwise. */
  function Icon(key: string): (r: string)
    ensures r == "ub" <==> Contains(key, "union_burst")
    ensures r == "special" <==> !Contains(key, "union_burst") && Contains(key, "special")
  {
    if Contains(key, "union_burst") then "ub"
    else if Contains(key, "special") then "special"
    else "skill"
  }

  /** The effects of a version that are totalled. */
  function Survivors(m: Metric, v: SkillVersion, b: Bindings): seq<Effect> {
    Collapse(Matching(m, Expand(v.effects)), b)
  }

  /** The item one version of one skill entry contributes to a ranking. */
  function RankVersion(m: Metric, c: Character, key: string, v: SkillVersion, b: Bindings): (r: Option<RankItem>)
    ensures r.Some? ==> r.value.value > 0.0 && r.value.skillType == Some(key)
    ensures r.Some? ==> !Gated(v) && !Companion(m, Expand(v.effects))
    ensures r.Some? ==> r.value.value == Total(Survivors(m, v, b), b)
  {
    if Gated(v) then None
    else
      var all := Expand(v.effects);
      if Companion(m, all) then None
      else
        var ms := Collapse(Matching(m, all), b);
        var total := Total(ms, b);
        if |ms| > 0 && total > 0.0 then
          Some(RankItem(c.id, c.name, c.fullName, v.name, Icon(key), total, AllAnnotations(ms), Some(key)))
        else None
  }

  /** A version is ranked exactly when it passes the gate and the companion
      exclusion and its total is positive. */
  lemma RankVersionExactly(m: Metric, c: Character, key: string, v: SkillVersion, b: Bindings)
    ensures RankVersion(m, c, key, v, b).Some? <==>
      !Gated(v) && !Companion(m, Expand(v.effects)) && Total(Survivors(m, v, b), b) > 0.0
  {
  }

  /** A version above the level gate is skipped whatever the bindings. */
  lemma GateSkips(m: Metric, c: Character, key: string, v: SkillVersion, b: Bindings)
    requires Gated(v)
    ensures RankVersion(m, c, key, v, b).None?
  {
  }

  /** The physical-defence ranking never counts a version that also lowers
      physical attack. */
  lemma CompanionSkips(m: Metric, c: Character, key: string, v: SkillVersion, b: Bindings, k: nat)
    requires m.debuffType == Some("物理防御力DOWN")
    requires k < |v.effects| && v.effects[k].kind == "物理攻撃力DOWN" && !FieldParent(v.effects[k])
    ensures RankVersion(m, c, key, v, b).None?
  {
    ExpandKeeps(v.effects, v.effects[k]);
    var all := Expand(v.effects);
    var j :| 0 <= j < |all| && all[j] == v.effects[k];
    assert HasKind(all, "物理攻撃力DOWN");
  }

  // ---------------------------------------------------------------------
  // The speed calculator.
  // ---------------------------------------------------------------------

  /** `parseInt(formula)` for an action-speed effect with a formula. */
  function SpeedValue(e: Effect): Option<int> {
    if e.kind == "行動速度UP" && TruthyText(e.formula) then ParseIntPrefix(e.formula.value) else None
  }

  predicate SpeedEffect(e: Effect) {
    SpeedValue(e).Some? && SpeedValue(e).value > 0
  }

  function SpeedItem(c: Character, key: string, v: SkillVersion, e: Effect): RankItem
    requires SpeedEffect(e)
  {
    var lasting := if e.duration.Present? && e.duration.value != 0.0 then Lasting(e.duration.value) else Permanent;
    RankItem(c.id, c.name, c.fullName, v.name, Icon(key), SpeedValue(e).value as real, [lasting], None)
  }

  /** One item per action-speed effect with a positive value, in order. */
  function SpeedItems(c: Character, key: string, v: SkillVersion, es: seq<Effect>): (r: seq<RankItem>)
    ensures forall k :: 0 <= k < |r| ==> r[k].value > 0.0 && r[k].skillType.None?
    decreases |es|
  {
    if |es| == 0 then []
    else (if SpeedEffect(es[0]) then [SpeedItem(c, key, v, es[0])] else []) + SpeedItems(c, key, v, es[1..])
  }

  /** Every speed item comes from an action-speed effect with positive value. */
  lemma {:induction false} SpeedItemOrigin(c: Character, key: string, v: SkillVersion, es: seq<Effect>, x: RankItem)
    requires x in SpeedItems(c, key, v, es)
    ensures exists e :: e in es && SpeedEffect(e) && x == SpeedItem(c, key, v, e)
    decreases |es|
  {
    if !(SpeedEffect(es[0]) && x == SpeedItem(c, key, v, es[0])) {
      SpeedItemOrigin(c, key, v, es[1..], x);
      var e :| e in es[1..] && SpeedEffect(e) && x == SpeedItem(c, key, v, e);
      assert e in es;
    }
  }

  /** Every action-speed effect with positive value yields an item. */
  lemma {:induction false} SpeedItemFor(c: Character, key: string, v: SkillVersion, es: seq<Effect>, e: Effect)
    requires e in es && SpeedEffect(e)
    ensures SpeedItem(c, key, v, e) in SpeedItems(c, key, v, es)
    decreases |es|
  {
    if e != es[0] {
      SpeedItemFor(c, key, v, es[1..], e);
    }
  }

  // ---------------------------------------------------------------------
  // The walk over characters, entries and versions.
  // ---------------------------------------------------------------------

  function VersionItems(calculator: Calculator, c: Character, key: string, v: SkillVersion, b: Bindings): (r: seq<RankItem>)
    ensures forall k :: 0 <= k < |r| ==> r[k].value > 0.0
  {
    match calculator
    case Ranked(m) =>
      (match RankVersion(m, c, key, v, b)
       case Some(item) => [item]
       case None => [])
    case SpeedRanking => SpeedItems(c, key, v, v.effects)
  }

  function VersionsItems(calculator: Calculator, c: Character, key: string, vs: seq<SkillVersion>, b: Bindings): (r: seq<RankItem>)
    ensures forall k :: 0 <= k < |r| ==> r[k].value > 0.0
    decreases |vs|
  {
    if |vs| == 0 then []
    else VersionItems(calculator, c, key, vs[0], b) + VersionsItems(calculator, c, key, vs[1..], b)
  }

  /** Entries whose value is `undefined` are skipped. */
  function SlotItems(calculator: Calculator, c: Character, slots: seq<Slot>, b: Bindings): (r: seq<RankItem>)
    ensures forall k :: 0 <= k < |r| ==> r[k].value > 0.0
    decreases |slots|
  {
    if |slots| == 0 then []
    else
      (match slots[0].detail
       case None => []
       case Some(d) => VersionsItems(calculator, c, slots[0].key, d.versions, b))
      + SlotItems(calculator, c, slots[1..], b)
  }

  /** Characters without skill data are skipped. */
  function CharacterItems(calculator: Calculator, cs: seq<Character>, skills: UnitSkills, b: Bindings): (r: seq<RankItem>)
    ensures forall k :: 0 <= k < |r| ==> r[k].value > 0.0
    decreases |cs|
  {
    if |cs| == 0 then []
    else
      (if cs[0].fullName in skills then SlotItems(calculator, cs[0], skills[cs[0].fullName], b) else [])
      + CharacterItems(calculator, cs[1..], skills, b)
  }

  function NegatedValue(item: RankItem): real {
    -item.value
  }

  /** A calculator applied to the characters, their skill data and the
      bindings of level and attack. */
  function Rank(calculator: Calculator, cs: seq<Character>, skills: UnitSkills, b: Bindings): seq<RankItem> {
    SortBy(CharacterItems(calculator, cs, skills, b), NegatedValue)
  }

  /** Rankings list positive values, largest first, and hold exactly the
      items the walk produced. */
  lemma RankOrdered(calculator: Calculator, cs: seq<Character>, skills: UnitSkills, b: Bindings)
    ensures forall i, j :: 0 <= i < j < |Rank(calculator, cs, skills, b)| ==>
      Rank(calculator, cs, skills, b)[i].value >= Rank(calculator, cs, skills, b)[j].value
    ensures forall k :: 0 <= k < |Rank(calculator, cs, skills, b)| ==> Rank(calculator, cs, skills, b)[k].value > 0.0
  {
    var items := CharacterItems(calculator, cs, skills, b);
    var r := Rank(calculator, cs, skills, b);
    forall i, j | 0 <= i < j < |r|
      ensures r[i].value >= r[j].value
    {
      assert NegatedValue(r[i]) <= NegatedValue(r[j]);
    }
    forall k | 0 <= k < |r|
      ensures r[k].value > 0.0
    {
      SortedMembers(items, NegatedValue, r[k]);
      var j :| 0 <= j < |items| && items[j] == r[k];
    }
  }

  /** The ranking holds exactly the items of the walk. */
  lemma RankMembers(calculator: Calculator, cs: seq<Character>, skills: UnitSkills, b: Bindings, x: RankItem)
    ensures x in Rank(calculator, cs, skills, b) <==> x in CharacterItems(calculator, cs, skills, b)
  {
    SortedMembers(CharacterItems(calculator, cs, skills, b), NegatedValue, x);
  }

  /** The speed ranking ignores the level gate: a gated version still yields
      an item for each of its action-speed effects. */
  lemma SpeedIgnoresGate(c: Character, key: string, v: SkillVersion, b: Bindings, e: Effect)
    requires Gated(v) && e in v.effects && SpeedEffect(e)
    ensures SpeedItem(c, key, v, e) in VersionItems(SpeedRanking, c, key, v, b)
  {
    SpeedItemFor(c, key, v, v.effects, e);
  }

  /** The speed ranking does not look inside field effects. */
  lemma SpeedIgnoresFields(c: Character, key: string, v: SkillVersion, b: Bindings)
    requires forall k :: 0 <= k < |v.effects| ==> FieldParent(v.effects[k])
    ensures VersionItems(SpeedRanking, c, key, v, b) == []
  {
    var r := VersionItems(SpeedRanking, c, key, v, b);
    if |r| > 0 {
      SpeedItemOrigin(c, key, v, v.effects, r[0]);
    }
  }

  // ---------------------------------------------------------------------
  // The table of calculators.
  // ---------------------------------------------------------------------

  /** `createDebuffCalculator(t)`: enemies only, any scope, type `t`. */
  function DebuffMetric(t: string): (m: Metric)
    ensures TypeToCheck(m) == Some(t)
  {
    Metric(t, AnyTarget, true, Some(t))
  }

  /** A debuff ranking keeps exactly the effects of its type aimed at enemies. */
  lemma DebuffKeeps(t: string, e: Effect)
    ensures Keeps(DebuffMetric(t), e) <==> Contains(e.target, "敵") && e.kind == t
  {
  }

  function Buff(t: string, scope: Scope): Metric {
    Metric(t, scope, false, None)
  }

  /** `rankingCalculators`, in declaration order. */
  const Calculators: seq<(string, Calculator)> := [
    ("single_phys_damage", Ranked(Buff("物理ダメージ", Single))),
    ("single_magic_damage", Ranked(Buff("魔法ダメージ", Single))),
    ("area_phys_damage", Ranked(Buff("物理ダメージ", Area))),
    ("area_magic_damage", Ranked(Buff("魔法ダメージ", Area))),
    ("single_heal", Ranked(Buff("HP回復", Single))),
    ("area_heal", Ranked(Buff("HP回復", Area))),
    ("single_phys_atk_buff", Ranked(Buff("物理攻撃力UP", Single))),
    ("area_phys_atk_buff", Ranked(Buff("物理攻撃力UP", Area))),
    ("single_magic_atk_buff", Ranked(Buff("魔法攻撃力UP", Single))),
    ("area_magic_atk_buff", Ranked(Buff("魔法攻撃力UP", Area))),
    ("phys_atk_debuff", Ranked(DebuffMetric("物理攻撃力DOWN"))),
    ("magic_atk_debuff", Ranked(DebuffMetric("魔法攻撃力DOWN"))),
    ("phys_def_debuff", Ranked(DebuffMetric("物理防御力DOWN"))),
    ("magic_def_debuff", Ranked(DebuffMetric("魔法防御力DOWN"))),
    ("single_tp_charge", Ranked(Buff("TP回復", Single))),
    ("area_tp_charge", Ranked(Buff("TP回復", Area))),
    ("tp_boost", Ranked(Buff("TP上昇UP", Area))),
    ("speed_buff", SpeedRanking)
  ]

  /** The calculator registered under `name`. */
  function CalculatorNamed(name: string): (r: Option<Calculator>)
    ensures r.Some? <==> exists k :: 0 <= k < |Calculators| && Calculators[k].0 == name
  {
    Lookup(Calculators, name)
  }

  function Lookup(table: seq<(string, Calculator)>, name: string): (r: Option<Calculator>)
    ensures r.Some? <==> exists k :: 0 <= k < |table| && table[k].0 == name
    ensures r.Some? ==> exists k :: 0 <= k < |table| && table[k] == (name, r.value)
    decreases |table|
  {
    if |table| == 0 then None
    else if table[0].0 == name then Some(table[0].1)
    else
      var r := Lookup(table[1..], name);
      assert forall k :: 1 <= k < |table| ==> table[k] == table[1..][k - 1];
      r
  }

  /** The table names eighteen calculators, each once, and every ranked
      calculator checks the type it is named after. */
  lemma CalculatorTable()
    ensures |Calculators| == 18
    ensures forall i, j :: 0 <= i < j < |Calculators| ==> Calculators[i].0 != Calculators[j].0
    ensures forall k :: 0 <= k < |Calculators| && Calculators[k].1.Ranked? ==>
      TypeToCheck(Calculators[k].1.metric) == Some(Calculators[k].1.metric.effectType)
  {
  }
}

=== FILE: rules.dfy ===
/** The keyword rules the unit list uses to tag skill descriptions with
    categories, in the order they are tried. Keywords are matched against the
    lower-cased description. */
module SkillRules {

  /** A keyword rule: some primary keyword must occur; some secondary
      keyword too, when there are any; some context keyword, when there are
      any, either as a substring or, with `exactContext`, delimited by
      non-word characters; and no negative keyword may occur. */
  datatype Rule = Rule(
    category: string,
    primary: seq<string>,
    secondary: seq<string>,
    context: seq<string>,
    negative: seq<string>,
    exactContext: bool)

  /** The category with its own context rule and negative-keyword rule. */
  const SelfHeal: string := "HP回復(自分)"

  /** The negatives that block `SelfHeal` only when the text does not
      mention the unit's own HP. */
  const SelfHealSpecial: seq<string> := ["味方全体のhpを回復", "範囲内の味方すべてのhpを回復", "味方1キャラのhpを回復"]

  /** The self-heal rule. */
  const SelfHealRule: Rule :=
    Rule("HP回復(自分)",
         ["自分のhpを回復", "自身のhpを回復", "自分のhpを小回復", "自身のhpを小回復", "自分のhpを中回復", "自身のhpを中回復", "自分のhpを大回復", "自身のhpを大回復", "自分のhpを特大回復", "自身のhpを特大回復", "hpを自分に回復", "hpを自身に回復", "hp回復する"],
         [], [],
         ["味方全体のhpを回復", "範囲内の味方すべてのhpを回復", "味方1キャラのhpを回復", "敵のhpを回復", "継続hp回復"], false)

  /** Rules for HP and TP. */
  const HpTpRules: seq<Rule> := [SelfHealRule] + [
    Rule("HP回復(範囲)",
         ["hpを回復", "hpを小回復", "hpを中回復", "hpを大回復"],
         [], ["自分の周囲の味方すべて", "自分の周りの味方", "範囲内の味方すべて", "自分を中心とした範囲内の味方すべて", "最もhpが低い味方1キャラを中心とした範囲内の味方すべて", "一番前の味方を中心として、範囲内の味方すべて"],
         ["味方全体", "自分自身", "自分のhpを", "継続hp"], false),
    Rule("HP回復(全体)",
         ["hpを回復", "hpを小回復", "hpを中回復", "hpを大回復", "hpを特大回復"],
         [], ["味方全体"],
         ["自分自身", "自分のhpを", "継続hp"], true),
    Rule("HP回復(単体)",
         ["hpを回復", "hpを小回復", "hpを中回復", "hpを大回復"],
         [], ["味方1キャラのhpを", "最もhpが低い味方1キャラのhpを", "そのキャラのhpを", "hpが最も低い味方1人のhpを"],
         ["全体", "範囲", "自分自身", "自分のhpを", "継続hp"], false),
    Rule("HP継続回復",
         ["継続hp回復状態を付与", "継続hp回復"],
         [], [],
         [], false),
    Rule("TP回復(自分)",
         ["自分のtpを回復", "自身のtpを回復", "tpを自身に回復"],
         [], [],
         ["味方", "敵"], false),
    Rule("TP回復(単体)",
         ["tpを回復", "tpを小回復", "tpを中回復", "tpを大回復"],
         [], ["味方1キャラのtpを", "最もtpが低い味方1キャラのtpを", "そのキャラのtpを"],
         ["全体", "範囲", "自分自身", "自分のtpを", "継続tp"], false),
    Rule("TP回復(範囲)",
         ["tpを回復", "tpを小回復", "tpを中回復", "tpを大回復"],
         [], ["自分の周囲の味方すべて", "範囲内の味方すべて", "自分を中心とした範囲内の味方すべて", "最も魔法攻撃力が高い味方1キャラを中心とした範囲内の味方すべて"],
         ["味方全体", "自分自身", "自分のtpを", "継続tp"], false),
    Rule("TP回復(全体)",
         ["tpを回復", "tpを小回復", "tpを中回復", "tpを大回復", "tpを特大回復"],
         [], ["味方全体"],
         ["自分自身", "自分のtpを"], true),
    Rule("TP継続回復",
         ["継続tp回復状態を付与", "継続tp回復"],
         [], [],
         [], false),
    Rule("敵TP減少",
         ["tpをダウン", "tpを減少"],
         [], ["敵全体", "敵すべて", "範囲内の敵", "目の前の敵", "敵1キャラ"],
         ["味方", "自分", "アップ", "上昇", "回復"], false),
    Rule("味方TP上昇アップ",
         ["tp上昇をアップ", "tp上昇を小アップ", "tp上昇を中アップ"],
         [], ["味方全体", "味方すべて", "範囲内の味方", "自分"],
         ["敵", "ダウン"], false),
    Rule("敵TP上昇ダウン",
         ["tp上昇をダウン", "tp上昇を小ダウン"],
         [], ["敵全体", "敵すべて", "範囲内の敵", "目の前の敵", "敵1キャラ"],
         ["味方", "自分", "アップ"], false),
    Rule("HP吸収アップ/効果",
         ["hp吸収をアップ", "hp吸収状態", "物理吸収バリア", "魔法吸収バリア", "物理/魔法吸収バリア"],
         [], [],
         [], false),
    Rule("自己HP消費",
         ["自分のhpを消費", "自身のhpを消費", "残りhpの%を消費"],
         [], [],
         ["味方", "敵"], false),
    Rule("敵HP回復量ダウン",
         ["hp回復量をダウン"],
         [], ["敵全体", "敵すべて", "範囲内の敵", "目の前の敵", "敵1キャラ"],
         ["味方", "自分", "アップ"], false)
  ]

  /** Rules for attack buffs. */
  const AttackBuffRules: seq<Rule> := [
    Rule("味方物理攻撃力アップ",
         ["物理攻撃力をアップ", "物理攻撃力を小アップ", "物理攻撃力を中アップ", "物理攻撃力を大アップ", "物理攻撃力を特大アップ", "物理攻撃力を極大アップ"],
         [], ["味方", "自分"],
         ["敵", "ダウン"], false),
    Rule("味方魔法攻撃力アップ",
         ["魔法攻撃力をアップ", "魔法攻撃力を小アップ", "魔法攻撃力を中アップ", "魔法攻撃力を大アップ", "魔法攻撃力を特大アップ", "魔法攻撃力を極大アップ"],
         [], ["味方", "自分"],
         ["敵", "ダウン"], false),
    Rule("味方物理クリティカル率アップ",
         ["物理クリティカルをアップ", "物理クリティカル率をアップ"],
         [], ["味方", "自分"],
         ["敵", "ダウン", "ダメージ"], false),
    Rule("味方魔法クリティカル率アップ",
         ["魔法クリティカルをアップ", "魔法クリティカル率をアップ"],
         [], ["味方", "自分"],
         ["敵", "ダウン", "ダメージ"], false),
    Rule("味方物理クリティカルダメージアップ",
         ["物理クリティカル時のダメージをアップ", "物理クリダメをアップ"],
         [], ["味方", "自分"],
         ["敵", "ダウン"], false),
    Rule("味方魔法クリティカルダメージアップ",
         ["魔法クリティカル時のダメージをアップ", "魔法クリダメをアップ"],
         [], ["味方", "自分"],
         ["敵", "ダウン"], false)
  ]

  /** Rules for defence buffs. */
  const DefenceBuffRules: seq<Rule> := [
    Rule("味方物理防御力アップ",
         ["物理防御力をアップ", "物理防御力を小アップ", "物理防御力を中アップ", "物理防御力を大アップ", "物理防御力を特大アップ"],
         [], ["味方", "自分"],
         ["敵", "ダウン"], false),
    Rule("味方魔法防御力アップ",
         ["魔法防御力をアップ", "魔法防御力を小アップ", "魔法防御力を中アップ", "魔法防御力を大アップ", "魔法防御力を特大アップ"],
         [], ["味方", "自分"],
         ["敵", "ダウン"], false),
    Rule("味方物理ダメージカット",
         ["物理ダメージカット"],
         [], ["味方", "自分"],
         [], false),
    Rule("味方魔法ダメージカット",
         ["魔法ダメージカット"],
         [], ["味方", "自分"],
         [], false)
  ]

  /** Rules for barriers. */
  const BarrierRules: seq<Rule> := [
    Rule("物理無効バリア",
         ["物理無効バリア"],
         [], [],
         [], false),
    Rule("魔法無効バリア",
         ["魔法無効バリア"],
         [], [],
         [], false),
    Rule("物理魔法無効バリア",
         ["物理/魔法無効バリア", "物理・魔法無効バリア"],
         [], [],
         [], false),
    Rule("物理吸収バリア",
         ["物理吸収バリア"],
         [], [],
         [], false),
    Rule("魔法吸収バリア",
         ["魔法吸収バリア"],
         [], [],
         [], false),
    Rule("物理魔法吸収バリア",
         ["物理/魔法吸収バリア", "物理・魔法吸収バリア"],
         [], [],
         [], false)
  ]

  /** Rules for other buffs. */
  const OtherBuffRules: seq<Rule> := [
    Rule("味方行動速度アップ",
         ["行動速度をアップ", "行動速度を小アップ", "行動速度を中アップ", "行動速度を大アップ", "行動速度を特大アップ"],
         [], ["味方", "自分"],
         ["敵", "ダウン"], false),
    Rule("味方回避アップ",
         ["回避をアップ"],
         [], ["味方", "自分"],
         [], false),
    Rule("味方無敵状態付与",
         ["無敵状態に"],
         [], ["味方", "自分"],
         [], false),
    Rule("味方状態異常無効/解除",
         ["状態異常を無効", "状態異常を解除"],
         [], ["味方", "自分"],
         [], false),
    Rule("攻撃対象にならない状態付与",
         ["攻撃の対象にならない状態"],
         [], ["自分"],
         [], false),
    Rule("復活/致死ダメージ時HP回復",
         ["倒れずにhpを回復", "hpが0になると", "致死ダメージ"],
         [], [],
         [], false),
    Rule("飛行状態付与",
         ["飛行状態に"],
         [], [],
         [], false),
    Rule("隠密状態付与",
         ["隠密状態に"],
         [], [],
         [], false),
    Rule("調和状態付与",
         ["調和状態を付与"],
         [], [],
         [], false)
  ]

  /** Rules for attack debuffs. */
  const AttackDebuffRules: seq<Rule> := [
    Rule("敵物理攻撃力ダウン",
         ["物理攻撃力をダウン", "物理攻撃力を小ダウン", "物理攻撃力を中ダウン", "物理攻撃力を大ダウン", "物理攻撃力を特大ダウン"],
         [], ["敵"],
         ["味方", "自分", "アップ"], false),
    Rule("敵魔法攻撃力ダウン",
         ["魔法攻撃力をダウン", "魔法攻撃力を小ダウン", "魔法攻撃力を中ダウン", "魔法攻撃力を大ダウン", "魔法攻撃力を特大ダウン"],
         [], ["敵"],
         ["味方", "自分", "アップ"], false),
    Rule("敵物理クリティカル率ダウン",
         ["物理クリティカルをダウン"],
         [], ["敵"],
         ["味方", "自分", "ダメージ", "アップ"], false),
    Rule("敵魔法クリティカル率ダウン",
         ["魔法クリティカルをダウン"],
         [], ["敵"],
         ["味方", "自分", "ダメージ", "アップ"], false)
  ]

  /** Rules for defence debuffs. */
  const DefenceDebuffRules: seq<Rule> := [
    Rule("敵物理防御力ダウン",
         ["物理防御力をダウン", "物理防御力を小ダウン", "物理防御力を中ダウン", "物理防御力を大ダウン", "物理防御力を特大ダウン"],
         [], ["敵"],
         ["味方", "自分", "アップ"], false),
    Rule("敵魔法防御力ダウン",
         ["魔法防御力をダウン", "魔法防御力を小ダウン", "魔法防御力を中ダウン", "魔法防御力を大ダウン", "魔法防御力を特大ダウン"],
         [], ["敵"],
         ["味方", "自分", "アップ"], false)
  ]

  /** Rules for other debuffs. */
  const OtherDebuffRules: seq<Rule> := [
    Rule("敵行動速度ダウン",
         ["行動速度をダウン", "行動速度を小ダウン", "行動速度を中ダウン", "行動速度を大ダウン"],
         [], ["敵"],
         ["味方", "自分", "アップ"], false),
    Rule("敵クリティカル時被ダメージアップ",
         ["クリティカルを受けた際のダメージをアップ", "クリティカル被ダメージをアップ"],
         [], ["敵"],
         [], false),
    Rule("敵被ダメージアップ(汎用)",
         ["被ダメージをアップ", "受けるダメージをアップ"],
         [], ["敵"],
         [], false),
    Rule("敵バリア解除",
         ["バリアを解除", "バリアを全て解除"],
         [], ["敵"],
         [], false),
    Rule("敵ステータスアップ効果解除",
         ["ステータスアップ効果を解除"],
         [], ["敵"],
         [], false),
    Rule("敵命中率ダウン",
         ["命中をダウン", "命中率をダウン"],
         [], ["敵"],
         [], false)
  ]

  /** Rules for status ailments. */
  const AilmentRules: seq<Rule> := [
    Rule("スタン",
         ["スタンさせ", "スタン状態にする", "スタンする"],
         [], [],
         [], false),
    Rule("麻痺",
         ["麻痺させ", "麻痺状態にする"],
         [], [],
         [], false),
    Rule("束縛",
         ["束縛し", "束縛状態にする"],
         [], [],
         [], false),
    Rule("凍結",
         ["凍結させ", "凍結状態にする"],
         [], [],
         [], false),
    Rule("石化",
         ["石化させ", "石化状態にする"],
         [], [],
         [], false),
    Rule("睡眠",
         ["睡眠状態にする"],
         [], [],
         [], false),
    Rule("混乱",
         ["混乱状態に", "混乱させる"],
         [], [],
         [], false),
    Rule("誘惑",
         ["誘惑状態に", "誘惑する"],
         [], [],
         [], false),
    Rule("恐慌",
         ["恐慌状態に", "恐慌させる"],
         [], [],
         [], false),
    Rule("暗闇",
         ["暗闇状態に", "暗闇にする"],
         [], [],
         [], false),
    Rule("毒/猛毒",
         ["毒状態に", "猛毒状態に", "毒を付与", "猛毒を付与"],
         [], [],
         [], false),
    Rule("火傷",
         ["火傷状態に", "火傷を付与"],
         [], [],
         [], false),
    Rule("呪い/呪詛",
         ["呪い状態に", "呪詛状態に", "呪いを付与", "呪詛を付与"],
         [], [],
         [], false),
    Rule("割合ダメージ状態(敵)",
         ["割合ダメージを発生", "割合ダメージを与える状態に"],
         [], [],
         [], false)
  ]

  /** Rules for control effects. */
  const ControlRules: seq<Rule> := [
    Rule("吹き飛ばし/ノックバック",
         ["吹き飛ばす", "ノックバック"],
         [], [],
         [], false),
    Rule("引き寄せ",
         ["引き寄せる"],
         [], [],
         [], false),
    Rule("挑発",
         ["挑発する", "挑発し"],
         [], [],
         [], false),
    Rule("行動時間停止",
         ["行動時間を停止"],
         [], [],
         [], false),
    Rule("執着",
         ["執着状態に"],
         [], [],
         [], false)
  ]

  /** Rules for damage traits. */
  const DamageRules: seq<Rule> := [
    Rule("防御参照型ダメージ",
         ["物理防御力が魔法防御力より低い場合、物理ダメージ扱いになる魔法", "物理と魔法攻撃力を合わせた"],
         [], [],
         [], false),
    Rule("防御力一定値無視ダメージ",
         ["物理防御力を一定値無視", "魔法防御力を一定値無視"],
         [], [],
         [], false),
    Rule("クリティカル確定攻撃",
         ["必ずクリティカル", "確定クリティカル"],
         [], [],
         [], false),
    Rule("クリティカル時ダメージ倍率変化",
         ["クリティカルした場合のダメージは、2倍ではなく3倍", "クリティカルした場合のダメージは、2倍ではなく4倍", "クリティカルした場合のダメージは、2倍ではなく5倍"],
         [], [],
         [], false),
    Rule("必中攻撃",
         ["必ず命中"],
         [], [],
         [], false),
    Rule("追加ダメージ",
         ["追加のダメージ", "追加でダメージ"],
         [], [],
         [], false),
    Rule("割合ダメージ(スキル直撃)",
         ["最大hpに応じて割合ダメージ"],
         [], ["継続して発生", "その敵の最大hpに応じて"],
         ["状態にする"], false)
  ]

  /** Rules for special skill effects. */
  const SpecialRules: seq<Rule> := [
    Rule("召喚",
         ["召喚する", "を召喚"],
         [], [],
         [], false),
    Rule("フィールド展開",
         ["フィールドを展開"],
         [], [],
         [], false),
    Rule("行動パターン変化",
         ["行動パターンが変化"],
         [], [],
         [], false),
    Rule("スキル効果量変化(条件付き)",
         ["数に応じて増加", "数に応じて上昇", "多いほどアップ", "低いほどアップ", "hpに応じて最大", "攻撃力に応じて最大", "使用するたび"],
         [], [],
         [], false),
    Rule("複数回ヒット攻撃",
         ["ダメージを2回", "ダメージを3回", "ダメージを計3回", "ダメージを計4回"],
         [], [],
         [], false),
    Rule("特定属性味方への追加効果",
         ["属性の味方すべてに", "属性のキャラに対しては"],
         [], [],
         [], false),
    Rule("特定タイプ敵への追加効果",
         ["物理攻撃をする敵だった場合", "魔法攻撃をする敵だった場合"],
         [], [],
         [], false),
    Rule("敵討伐時追加効果",
         ["敵を倒した場合", "とどめを刺した"],
         [], [],
         [], false),
    Rule("ダメージでTP回復しない効果",
         ["ダメージでは自分のtpは回復しない", "ダメージでは敵のtpは回復しない"],
         [], [],
         [], false)
  ]

  /** The whole table, in order. */
  const Rules: seq<Rule> :=
    HpTpRules + AttackBuffRules + DefenceBuffRules + BarrierRules
    + OtherBuffRules + AttackDebuffRules + DefenceDebuffRules + OtherDebuffRules
    + AilmentRules + ControlRules + DamageRules + SpecialRules
}

=== FILE: sorting.dfy ===
/** The stable sort behind `Array.prototype.sort` with a numeric comparator
    `(a, b) => key(a) - key(b)`: elements are ordered by ascending key, and
    elements with equal keys keep their input order. */
module Sorting {
  import opened Lists

  predicate SortedBy<T>(s: seq<T>, key: T -> real) {
    forall i, j :: 0 <= i < j < |s| ==> key(s[i]) <= key(s[j])
  }

  /** Inserts `x` after every element whose key is not greater than its own. */
  function Insert<T(==)>(x: T, s: seq<T>, key: T -> real): (r: seq<T>)
    requires SortedBy(s, key)
    ensures SortedBy(r, key)
    ensures multiset(r) == multiset(s) + multiset{x}
    ensures |r| == |s| + 1
    ensures r[0] == x || (|s| > 0 && r[0] == s[0])
  {
    if |s| == 0 then [x]
    else if key(x) < key(s[0]) then [x] + s
    else
      var t := Insert(x, s[1..], key);
      assert s == [s[0]] + s[1..];
      [s[0]] + t
  }

  /** Insertion sort by ascending key. */
  function SortBy<T(==)>(s: seq<T>, key: T -> real): (r: seq<T>)
    ensures SortedBy(r, key)
    ensures multiset(r) == multiset(s)
    ensures |r| == |s|
  {
    if |s| == 0 then []
    else
      assert s == s[..|s| - 1] + [s[|s| - 1]];
      Insert(s[|s| - 1], SortBy(s[..|s| - 1], key), key)
  }

  /** Elements whose key is `k`. */
  function KeyIs<T>(key: T -> real, k: real): T -> bool {
    x => key(x) == k
  }

  /** Filtering distributes over concatenation. */
  lemma {:induction false} FilterAppend<T>(a: seq<T>, b: seq<T>, p: T -> bool)
    ensures Filter(a + b, p) == Filter(a, p) + Filter(b, p)
    decreases |a|
  {
    if |a| > 0 {
      assert (a + b)[1..] == a[1..] + b;
      FilterAppend(a[1..], b, p);
    } else {
      assert a + b == b;
    }
  }

  /** A list where no element passes filters to nothing. */
  lemma {:induction false} FilterNone<T>(s: seq<T>, p: T -> bool)
    requires forall i :: 0 <= i < |s| ==> !p(s[i])
    ensures Filter(s, p) == []
    decreases |s|
  {
    if |s| > 0 {
      FilterNone(s[1..], p);
    }
  }

  /** Filtering a list is filtering all but its last element, then the last. */
  lemma FilterLast<T>(s: seq<T>, p: T -> bool)
    requires |s| > 0
    ensures Filter(s, p) == Filter(s[..|s| - 1], p) + (if p(s[|s| - 1]) then [s[|s| - 1]] else [])
  {
    var init, last := s[..|s| - 1], s[|s| - 1];
    assert s == init + [last];
    FilterAppend(init, [last], p);
    assert Filter([last], p) == (if p(last) then [last] else []) + Filter([last][1..], p);
  }

  /** Inserting `x` places it after every element of its own key. */
  lemma {:induction false} InsertFilter<T>(x: T, s: seq<T>, key: T -> real, k: real)
    requires SortedBy(s, key)
    ensures Filter(Insert(x, s, key), KeyIs(key, k)) ==
      Filter(s, KeyIs(key, k)) + (if key(x) == k then [x] else [])
    decreases |s|
  {
    var p := KeyIs(key, k);
    var xs := if key(x) == k then [x] else [];
    assert p(x) == (key(x) == k);
    if |s| == 0 {
      assert Filter([x], p) == xs + Filter([x][1..], p);
    } else if key(x) < key(s[0]) {
      var r := [x] + s;
      assert r[1..] == s;
      assert Filter(r, p) == xs + Filter(s, p);
      if key(x) == k {
        assert forall i :: 0 <= i < |s| ==> key(s[0]) <= key(s[i]);
        FilterNone(s, p);
      }
    } else {
      var t := Insert(x, s[1..], key);
      var h := if p(s[0]) then [s[0]] else [];
      assert ([s[0]] + t)[1..] == t;
      assert Filter([s[0]] + t, p) == h + Filter(t, p);
      assert Filter(s, p) == h + Filter(s[1..], p);
      InsertFilter(x, s[1..], key, k);
    }
  }

  /** The sort is stable: the elements of any one key come out in the order
      they went in. */
  lemma {:induction false} SortStable<T>(s: seq<T>, key: T -> real, k: real)
    ensures Filter(SortBy(s, key), KeyIs(key, k)) == Filter(s, KeyIs(key, k))
    decreases |s|
  {
    if |s| > 0 {
      var p := KeyIs(key, k);
      var init, last := s[..|s| - 1], s[|s| - 1];
      var xs := if key(last) == k then [last] else [];
      SortStable(init, key, k);
      InsertFilter(last, SortBy(init, key), key, k);
      FilterLast(s, p);
      assert Filter(SortBy(s, key), p) == Filter(SortBy(init, key), p) + xs;
    }
  }

  /** Sorting keeps exactly the elements it is given. */
  lemma SortedMembers<T>(s: seq<T>, key: T -> real, x: T)
    ensures x in SortBy(s, key) <==> x in s
  {
    assert x in SortBy(s, key) <==> x in multiset(SortBy(s, key));
  }
}

=== FILE: text.dfy ===
/** String primitives shared by every component: the JavaScript `includes`,
    `startsWith`, `endsWith`, global `replace`, `trim`, `split(sep)[0]` and
    ASCII `toLowerCase`, written once over `seq<char>`. */
module Text {

  /** `s.startsWith(p)`. */
  predicate StartsWith(s: string, p: string) {
    |p| <= |s| && s[..|p|] == p
  }

  /** `s.endsWith(p)`. */
  predicate EndsWith(s: string, p: string) {
    |p| <= |s| && s[|s| - |p|..] == p
  }

  /** `s.includes(p)`: some suffix of `s` starts with `p`. */
  predicate Contains(s: string, p: string)
    decreases |s|
  {
    StartsWith(s, p) || (|s| > 0 && Contains(s[1..], p))
  }

  /** An occurrence of `p` at index `i` gives containment. */
  lemma {:induction false} ContainsAt(s: string, p: string, i: nat)
    requires i <= |s| && StartsWith(s[i..], p)
    ensures Contains(s, p)
    decreases i
  {
    if i > 0 {
      assert s[1..][i - 1..] == s[i..];
      ContainsAt(s[1..], p, i - 1);
    }
  }

  /** Containment always has a witness index. */
  lemma {:induction false} ContainsWitness(s: string, p: string) returns (i: nat)
    requires Contains(s, p)
    ensures i <= |s| && StartsWith(s[i..], p)
    decreases |s|
  {
    if StartsWith(s, p) {
      i := 0;
    } else {
      var k := ContainsWitness(s[1..], p);
      assert s[1..][k..] == s[k + 1..];
      i := k + 1;
    }
  }

  /** The empty string is contained in every string. */
  lemma ContainsEmpty(s: string)
    ensures Contains(s, "")
  {
    assert StartsWith(s, "");
  }

  /** A string containing `p` contains every character of `p`. */
  lemma ContainsChar(s: string, p: string, k: nat)
    requires Contains(s, p) && k < |p|
    ensures p[k] in s
  {
    var i := ContainsWitness(s, p);
    assert s[i..][k] == p[k];
  }

  /** Containment is preserved by extending the text on either side. */
  lemma ContainsInConcat(a: string, s: string, b: string, p: string)
    requires Contains(s, p)
    ensures Contains(a + s + b, p)
  {
    var i := ContainsWitness(s, p);
    assert (a + s + b)[|a| + i..][..|p|] == s[i..][..|p|];
    ContainsAt(a + s + b, p, |a| + i);
  }

  /** `s.replace(/pat/g, rep)`: every non-overlapping occurrence of `pat`,
      scanning left to right, is replaced by `rep`. */
  function ReplaceAll(s: string, pat: string, rep: string): string
    requires |pat| > 0
    decreases |s|
  {
    if |s| == 0 then []
    else if StartsWith(s, pat) then rep + ReplaceAll(s[|pat|..], pat, rep)
    else [s[0]] + ReplaceAll(s[1..], pat, rep)
  }

  /** A text that never mentions the pattern's first character is left as it
      is by a replacement. */
  lemma {:induction false} ReplaceAbsent(s: string, pat: string, rep: string)
    requires |pat| > 0 && pat[0] !in s
    ensures ReplaceAll(s, pat, rep) == s
    decreases |s|
  {
    if |s| > 0 {
      assert s[0] != pat[0];
      assert !StartsWith(s, pat);
      ReplaceAbsent(s[1..], pat, rep);
    }
  }

  /** Every character of a replacement result comes from the text or from the
      replacement. */
  lemma {:induction false} ReplaceChars(s: string, pat: string, rep: string, c: char)
    requires |pat| > 0 && c in ReplaceAll(s, pat, rep)
    ensures c in s || c in rep
    decreases |s|
  {
    if |s| > 0 {
      if StartsWith(s, pat) {
        if c !in rep {
          ReplaceChars(s[|pat|..], pat, rep, c);
        }
      } else if c != s[0] {
        ReplaceChars(s[1..], pat, rep, c);
      }
    }
  }

  /** The characters JavaScript treats as white space or line terminators:
      the set `trim()` removes and the regular-expression class `\s` matches. */
  predicate IsJsSpace(c: char) {
    var n := c as int;
    n == 0x09 || n == 0x0A || n == 0x0B || n == 0x0C || n == 0x0D || n == 0x20
    || n == 0xA0 || n == 0x1680 || (0x2000 <= n <= 0x200A)
    || n == 0x2028 || n == 0x2029 || n == 0x202F || n == 0x205F
    || n == 0x3000 || n == 0xFEFF
  }

  /** Index of the first character of `s` that is not white space. */
  function SpaceEnd(s: string, i: nat): (j: nat)
    requires i <= |s|
    ensures i <= j <= |s|
    ensures j == |s| || !IsJsSpace(s[j])
    decreases |s| - i
  {
    if i == |s| || !IsJsSpace(s[i]) then i else SpaceEnd(s, i + 1)
  }

  /** Everything `SpaceEnd` skips is white space. */
  lemma {:induction false} SpaceSkipped(s: string, i: nat, k: nat)
    requires i <= |s| && i <= k < SpaceEnd(s, i)
    ensures IsJsSpace(s[k])
    decreases k - i
  {
    if i < k {
      SpaceSkipped(s, i + 1, k);
    }
  }

  /** `s.trimStart()`. */
  function TrimStart(s: string): (r: string)
    ensures |r| <= |s| && r == s[|s| - |r|..]
    ensures |r| == 0 || !IsJsSpace(r[0])
    ensures forall k :: 0 <= k < |s| - |r| ==> IsJsSpace(s[k])
  {
    var j := SpaceEnd(s, 0);
    assert forall k :: 0 <= k < j ==> IsJsSpace(s[k]) by {
      forall k | 0 <= k < j
        ensures IsJsSpace(s[k])
      {
        SpaceSkipped(s, 0, k);
      }
    }
    s[j..]
  }

  /** `s.trimEnd()`. */
  function TrimEnd(s: string): (r: string)
    ensures |r| <= |s| && r == s[..|r|]
    ensures |r| == 0 || !IsJsSpace(r[|r| - 1])
    ensures forall k :: |r| <= k < |s| ==> IsJsSpace(s[k])
    decreases |s|
  {
    if |s| > 0 && IsJsSpace(s[|s| - 1]) then TrimEnd(s[..|s| - 1]) else s
  }

  /** `s.trim()`: neither end of the result is white space, and only white
      space was removed. */
  function Trim(s: string): (r: string)
    ensures |r| == 0 || (!IsJsSpace(r[0]) && !IsJsSpace(r[|r| - 1]))
    ensures SpaceEnd(s, 0) + |r| <= |s|
    ensures r == s[SpaceEnd(s, 0)..SpaceEnd(s, 0) + |r|]
    ensures forall k :: SpaceEnd(s, 0) + |r| <= k < |s| ==> IsJsSpace(s[k])
  {
    TrimEnd(TrimStart(s))
  }

  /** `s.split(sep)[0]`: the text before the first occurrence of `sep`, or all
      of `s` when `sep` does not occur. */
  function Before(s: string, sep: char): (r: string)
    ensures |r| <= |s| && r == s[..|r|]
    ensures sep !in r
    ensures |r| < |s| ==> s[|r|] == sep
  {
    if |s| == 0 then []
    else if s[0] == sep then []
    else [s[0]] + Before(s[1..], sep)
  }

  /** A text without `sep` is its own first part. */
  lemma {:induction false} BeforeAbsent(s: string, sep: char)
    requires sep !in s
    ensures Before(s, sep) == s
  {
  }

  /** The first part of `a + [sep] + b` is `a`, when `a` has no `sep`. */
  lemma {:induction false} BeforeSeparator(a: string, sep: char, b: string)
    requires sep !in a
    ensures Before(a + [sep] + b, sep) == a
    decreases |a|
  {
    var s := a + [sep] + b;
    if |a| > 0 {
      assert a[0] in a;
      assert s[1..] == a[1..] + [sep] + b;
      BeforeSeparator(a[1..], sep, b);
      assert a == [a[0]] + a[1..];
    }
  }

  /** The parts joined with `sep` in between. */
  function Join(parts: seq<string>, sep: char): string
    requires |parts| > 0
    decreases |parts|
  {
    if |parts| == 1 then parts[0] else parts[0] + [sep] + Join(parts[1..], sep)
  }

  /** `s.split(sep)` for a one-character separator: the maximal pieces
      between occurrences of `sep`; joining them back gives `s`. */
  function Split(s: string, sep: char): (r: seq<string>)
    ensures |r| > 0 && r[0] == Before(s, sep)
    ensures forall k :: 0 <= k < |r| ==> sep !in r[k]
    ensures Join(r, sep) == s
    decreases |s|
  {
    var head := Before(s, sep);
    if |head| == |s| then [s]
    else
      var tail := s[|head| + 1..];
      var rest := Split(tail, sep);
      var r := [head] + rest;
      assert s == head + [sep] + tail;
      assert r[1..] == rest;
      assert Join(r, sep) == head + [sep] + Join(rest, sep);
      assert forall k :: 1 <= k < |r| ==> r[k] == rest[k - 1];
      r
  }

  /** Splitting undoes joining, for parts without the separator. */
  lemma {:induction false} SplitJoin(parts: seq<string>, sep: char)
    requires |parts| > 0
    requires forall k :: 0 <= k < |parts| ==> sep !in parts[k]
    ensures Split(Join(parts, sep), sep) == parts
    decreases |parts|
  {
    if |parts| == 1 {
      BeforeAbsent(parts[0], sep);
    } else {
      var rest := Join(parts[1..], sep);
      BeforeSeparator(parts[0], sep, rest);
      var s := parts[0] + [sep] + rest;
      assert s[|parts[0]| + 1..] == rest;
      SplitJoin(parts[1..], sep);
      assert parts == [parts[0]] + parts[1..];
    }
  }

  /** The number of occurrences of `c` in `s`. */
  function Count(s: string, c: char): (n: nat)
    ensures n <= |s|
    ensures n == 0 <==> c !in s
    decreases |s|
  {
    if |s| == 0 then 0
    else
      assert s == [s[0]] + s[1..];
      (if s[0] == c then 1 else 0) + Count(s[1..], c)
  }

  /** `c` repeated `n` times. */
  function Repeat(c: char, n: nat): (r: string)
    ensures |r| == n && forall k :: 0 <= k < n ==> r[k] == c
  {
    seq(n, k => c)
  }

  /** A text of `n` copies of `c` counts `n` occurrences of it. */
  lemma {:induction false} CountRepeat(c: char, n: nat)
    ensures Count(Repeat(c, n), c) == n
    decreases n
  {
    if n > 0 {
      assert Repeat(c, n)[1..] == Repeat(c, n - 1);
      CountRepeat(c, n - 1);
    }
  }

  /** ASCII upper-case letters map to lower case; everything else is kept. */
  function LowerChar(c: char): (d: char)
    ensures 'A' <= c <= 'Z' ==> d as int == c as int + 32
    ensures !('A' <= c <= 'Z') ==> d == c
  {
    if 'A' <= c <= 'Z' then (c as int + 32) as char else c
  }

  /** `s.toLowerCase()` restricted to ASCII letters. */
  function Lower(s: string): (r: string)
    ensures |r| == |s|
    ensures forall k :: 0 <= k < |s| ==> r[k] == LowerChar(s[k])
  {
    seq(|s|, k requires 0 <= k < |s| => LowerChar(s[k]))
  }
}

=== FILE: unitcard.dfy ===
/** The unit card: the element icon, the one-character position label, and
    the list of skills that raised each ticked category. */
module UnitCard {
  import opened Wrappers
  import opened Model
  import opened Classifier
  import opened Lists
  import Units

  /** `getElementIconPath`: an icon per element, none for an unknown one. */
  function ElementIconPath(e: Element): (r: Option<string>)
    ensures r.None? <==> e == UnknownElement
  {
    match e
    case Fire => Some("/elementIcon/fire.png")
    case Water => Some("/elementIcon/water.png")
    case Wind => Some("/elementIcon/wind.png")
    case Light => Some("/elementIcon/light.png")
    case Dark => Some("/elementIcon/dark.png")
    case UnknownElement => None
  }

  /** Different elements never share an icon. */
  lemma ElementIconsDistinct(a: Element, b: Element)
    requires ElementIconPath(a).Some? && ElementIconPath(a) == ElementIconPath(b)
    ensures a == b
  {
  }

  /** `getShortPositionName`: the first character of the position name, or
      nothing for an unknown position. */
  function ShortPositionName(p: Position): (r: string)
    ensures p == UnknownPosition ==> r == ""
    ensures p != UnknownPosition ==> |r| == 1 && r == Units.PositionName(p)[..1]
  {
    match p
    case Front => "前"
    case Middle => "中"
    case Back => "後"
    case UnknownPosition => ""
  }

  /** The label of a matched skill: its name, or the generic slot name when
      the name is empty. */
  function SkillName(u: Unit, source: Source): (r: string)
    ensures |r| > 0
  {
    match source
    case UB => if |u.ubName| > 0 then u.ubName else "ユニオンバースト"
    case S1 => if |u.skill1Name| > 0 then u.skill1Name else "スキル1"
    case S2 => if |u.skill2Name| > 0 then u.skill2Name else "スキル2"
  }

  datatype MatchedSkill = MatchedSkill(source: Source, name: string)

  datatype MatchedCategory = MatchedCategory(category: string, skills: seq<MatchedSkill>)

  /** The flagged skills of one category, in the order union burst, skill 1,
      skill 2. */
  function MatchedSkills(u: Unit, info: SourceInfo): (r: seq<MatchedSkill>)
    ensures forall k :: 0 <= k < |r| ==> Flag(info, r[k].source) && r[k].name == SkillName(u, r[k].source)
    ensures forall s: Source :: Flag(info, s) ==> MatchedSkill(s, SkillName(u, s)) in r
    ensures |r| == 0 <==> !info.ub && !info.s1 && !info.s2
  {
    (if info.ub then [MatchedSkill(UB, SkillName(u, UB))] else [])
    + (if info.s1 then [MatchedSkill(S1, SkillName(u, S1))] else [])
    + (if info.s2 then [MatchedSkill(S2, SkillName(u, S2))] else [])
  }

  /** `getMatchedSkillDetails`: for each ticked category, in order, the
      skills of the unit flagged under it; categories without a flagged
      skill are left out. */
  function MatchedDetails(u: Unit, active: seq<string>): (r: seq<MatchedCategory>)
    ensures forall k :: 0 <= k < |r| ==> |r[k].skills| > 0 && r[k].category in u.skillFlags
    ensures |r| <= |active|
    decreases |active|
  {
    if |active| == 0 then []
    else
      var c := active[0];
      var rest := MatchedDetails(u, active[1..]);
      if c in u.skillFlags && |MatchedSkills(u, u.skillFlags[c])| > 0 then
        [MatchedCategory(c, MatchedSkills(u, u.skillFlags[c]))] + rest
      else rest
  }

  /** The unit has some skill flagged under `c`. */
  predicate Flagged(u: Unit, c: string) {
    c in u.skillFlags && (u.skillFlags[c].ub || u.skillFlags[c].s1 || u.skillFlags[c].s2)
  }

  function FlaggedIn(u: Unit): string -> bool {
    (c: string) => Flagged(u, c)
  }

  function CategoriesOf(r: seq<MatchedCategory>): (cs: seq<string>)
    ensures |cs| == |r|
    decreases |r|
  {
    if |r| == 0 then [] else [r[0].category] + CategoriesOf(r[1..])
  }

  /** The listed categories are the ticked categories under which the unit
      has a flagged skill, in the order they were ticked; each lists exactly
      its flagged skills. */
  lemma {:induction false} MatchedDetailsAreFlagged(u: Unit, active: seq<string>)
    ensures CategoriesOf(MatchedDetails(u, active)) == Filter(active, FlaggedIn(u))
    ensures forall k :: 0 <= k < |MatchedDetails(u, active)| ==>
      MatchedDetails(u, active)[k].skills == MatchedSkills(u, u.skillFlags[MatchedDetails(u, active)[k].category])
    decreases |active|
  {
    if |active| > 0 {
      MatchedDetailsAreFlagged(u, active[1..]);
      var r := MatchedDetails(u, active);
      var rest := MatchedDetails(u, active[1..]);
      if active[0] in u.skillFlags && |MatchedSkills(u, u.skillFlags[active[0]])| > 0 {
        assert r[1..] == rest;
      }
    }
  }

  /** A ticked category is on the card exactly when the unit has a skill
      flagged under it, and the card keeps the order of the ticks. */
  lemma MatchedDetailsMember(u: Unit, active: seq<string>, c: string)
    ensures c in CategoriesOf(MatchedDetails(u, active)) <==> c in active && Flagged(u, c)
    ensures Subsequence(CategoriesOf(MatchedDetails(u, active)), active)
  {
    MatchedDetailsAreFlagged(u, active);
    FilterMember(active, FlaggedIn(u), c);
    FilterInOrder(active, FlaggedIn(u));
  }

  /** For a unit built from its descriptions, every ticked category under
      which it is flagged at all appears on its card. */
  lemma FlaggedCategoriesShown(ub: string, s1: string, s2: string, u: Unit, active: seq<string>, c: string)
    requires u.skillFlags == ParseSkillFlags(ub, s1, s2)
    requires c in active && c in u.skillFlags
    ensures c in CategoriesOf(MatchedDetails(u, active))
  {
    ParseSkillFlagsShape(ub, s1, s2, c);
    MatchedDetailsMember(u, active, c);
  }
}

=== FILE: units.dfy ===
/** The unit list: the raw records of the unit data file turned into `Unit`
    values (names, defaults, parsed attributes, release date, skill flags),
    and the icon lookup by unit name. */
module Units {
  import opened Wrappers
  import opened Text
  import opened Numbers
  import opened Model
  import opened Classifier
  import Characters

  // ---------------------------------------------------------------------
  // Raw values. A raw property is either missing (`undefined`) or a string.
  // ---------------------------------------------------------------------

  /** A raw property is truthy when it is present and non-empty. */
  predicate Truthy(f: Option<string>) {
    f.Some? && |f.value| > 0
  }

  /** `f || fallback`. */
  function OrElse(f: Option<string>, fallback: string): (r: string)
    ensures Truthy(f) ==> r == f.value
    ensures !Truthy(f) ==> r == fallback
  {
    if Truthy(f) then f.value else fallback
  }

  const Star: char := '★'

  /** `parseRarity`: the number of stars; a missing or empty value counts as
      one star, a value without stars as none. */
  function ParseRarity(f: Option<string>): (r: nat)
    ensures !Truthy(f) ==> r == 1
    ensures Truthy(f) ==> r <= |f.value|
    ensures Truthy(f) ==> (r == 0 <==> Star !in f.value)
  {
    if !Truthy(f) then 1 else Count(f.value, Star)
  }

  /** A row of `n` stars reads back as `n`. */
  lemma RarityOfStars(n: nat)
    requires n > 0
    ensures ParseRarity(Some(Repeat(Star, n))) == n
  {
    CountRepeat(Star, n);
  }

  /** The text of an attack type: 1 physical, 2 magical. */
  function AttackTypeName(t: int): (s: string)
    requires t == 1 || t == 2
  {
    if t == 1 then "物理" else "魔法"
  }

  /** `parseAttackType`: 1 for physical, 2 for magical, 0 for anything else. */
  function ParseAttackType(f: Option<string>): (r: int)
    ensures r == 0 || r == 1 || r == 2
    ensures r != 0 ==> f == Some(AttackTypeName(r))
  {
    if f == Some("物理") then 1 else if f == Some("魔法") then 2 else 0
  }

  lemma AttackTypeRoundTrip(t: int)
    requires t == 1 || t == 2
    ensures ParseAttackType(Some(AttackTypeName(t))) == t
  {
  }

  function ElementName(e: Element): string {
    match e
    case Fire => "火"
    case Water => "水"
    case Wind => "風"
    case Light => "光"
    case Dark => "闇"
    case UnknownElement => "不明"
  }

  /** `parseElement`: one of the five elements, or unknown. */
  function ParseElement(f: Option<string>): (r: Element)
    ensures r != UnknownElement ==> f == Some(ElementName(r))
  {
    if f == Some("火") then Fire
    else if f == Some("水") then Water
    else if f == Some("風") then Wind
    else if f == Some("光") then Light
    else if f == Some("闇") then Dark
    else UnknownElement
  }

  /** Every element, including the unknown one, reads back from its name. */
  lemma ElementRoundTrip(e: Element)
    ensures ParseElement(Some(ElementName(e))) == e
  {
  }

  function PositionName(p: Position): string {
    match p
    case Front => "前衛"
    case Middle => "中衛"
    case Back => "後衛"
    case UnknownPosition => "不明"
  }

  /** `parsePosition`: front, middle or back line, or unknown. */
  function ParsePosition(f: Option<string>): (r: Position)
    ensures r != UnknownPosition ==> f == Some(PositionName(r))
  {
    if f == Some("前衛") then Front
    else if f == Some("中衛") then Middle
    else if f == Some("後衛") then Back
    else UnknownPosition
  }

  lemma PositionRoundTrip(p: Position)
    ensures ParsePosition(Some(PositionName(p))) == p
  {
  }

  /** `parseIsLimited`: 1 for a time-limited or festival unit, else 0. */
  function ParseIsLimited(f: Option<string>): (r: int)
    ensures r == 0 || r == 1
    ensures r == 1 <==> Truthy(f) && (Contains(f.value, "期間限定") || Contains(f.value, "フェス限定"))
  {
    if !Truthy(f) then 0
    else if Contains(f.value, "期間限定") || Contains(f.value, "フェス限定") then 1
    else 0
  }

  // ---------------------------------------------------------------------
  // Release dates: `Date.UTC` followed by a read-back check.
  // ---------------------------------------------------------------------

  predicate IsLeap(y: int) {
    y % 4 == 0 && (y % 100 != 0 || y % 400 == 0)
  }

  function DaysIn(y: int, m: int): (n: int)
    requires 1 <= m <= 12
    ensures 28 <= n <= 31
  {
    if m == 2 then (if IsLeap(y) then 29 else 28)
    else if m == 4 || m == 6 || m == 9 || m == 11 then 30
    else 31
  }

  /** A real calendar day. */
  predicate ValidDay(d: Date) {
    1 <= d.month <= 12 && 1 <= d.day <= DaysIn(d.year, d.month)
  }

  /** Day `d` of month `m` of year `y`, with days outside the month carried
      into the months before or after it, as `MakeDay` of ECMA-262 does. */
  function Roll(y: int, m: int, d: int): (r: Date)
    requires 1 <= m <= 12
    ensures ValidDay(r)
    ensures 1 <= d <= DaysIn(y, m) ==> r == Date(y, m, d)
    ensures d >= 1 ==> r.day <= d
    decreases if d < 1 then 1 - d else 0, if d < 1 then 0 else d
  {
    if d < 1 then
      var py := if m == 1 then y - 1 else y;
      var pm := if m == 1 then 12 else m - 1;
      Roll(py, pm, d + DaysIn(py, pm))
    else if d > DaysIn(y, m) then
      var ny := if m == 12 then y + 1 else y;
      var nm := if m == 12 then 1 else m + 1;
      Roll(ny, nm, d - DaysIn(y, m))
    else Date(y, m, d)
  }

  /** A carried day never keeps its number. */
  lemma RollKeepsDay(y: int, m: int, d: int)
    requires 1 <= m <= 12 && Roll(y, m, d).day == d
    ensures 1 <= d <= DaysIn(y, m)
  {
  }

  /** `a` is the same day as `b` or a later one. */
  predicate NotBefore(a: Date, b: Date) {
    a.year > b.year || (a.year == b.year && (a.month > b.month || (a.month == b.month && a.day >= b.day)))
  }

  /** The first and last days a JavaScript date can hold: 10^8 days either
      side of 1970-01-01 (`TimeClip` in ECMA-262). */
  const EarliestDate: Date := Date(-271821, 4, 20)
  const LatestDate: Date := Date(275760, 9, 13)

  predicate InTimeRange(d: Date) {
    NotBefore(d, EarliestDate) && NotBefore(LatestDate, d)
  }

  /** `new Date(Date.UTC(year, month0, day))` read back as a calendar day, or
      `None` for an invalid date: years 0 to 99 mean 1900 to 1999, the
      zero-based month carries into the year, the day into the months. */
  function DateUtc(year: int, month0: int, day: int): (r: Option<Date>)
    ensures r.Some? ==> ValidDay(r.value) && InTimeRange(r.value)
  {
    var y := if 0 <= year <= 99 then 1900 + year else year;
    var date := Roll(y + month0 / 12, month0 % 12 + 1, day);
    if InTimeRange(date) then Some(date) else None
  }

  /** The read-back check succeeds exactly for real calendar days within the
      date range, outside the years 0 to 99. */
  lemma UtcReadsBack(year: int, month0: int, day: int)
    ensures DateUtc(year, month0, day) == Some(Date(year, month0 + 1, day)) <==>
      (!(0 <= year <= 99) && ValidDay(Date(year, month0 + 1, day)) && InTimeRange(Date(year, month0 + 1, day)))
  {
    var y := if 0 <= year <= 99 then 1900 + year else year;
    var ym := y + month0 / 12;
    var mn := month0 % 12 + 1;
    if DateUtc(year, month0, day) == Some(Date(year, month0 + 1, day)) {
      RollKeepsDay(ym, mn, day);
      assert Roll(ym, mn, day) == Date(ym, mn, day);
      assert mn == month0 + 1;
      assert 0 <= month0 < 12;
      assert month0 / 12 == 0;
    }
    if !(0 <= year <= 99) && ValidDay(Date(year, month0 + 1, day)) {
      assert month0 / 12 == 0 && month0 % 12 == month0;
    }
  }

  const Epoch: Date := Date(1970, 1, 1)

  /** `parseDateToISO` without the final ISO formatting: `year/month/day`,
      each part read with `parseInt`, kept only when it names that very
      day; anything else gives the epoch. */
  function ParseDate(f: Option<string>): (r: Date)
    ensures ValidDay(r) && InTimeRange(r)
    ensures r != Epoch ==> !(0 <= r.year <= 99)
    ensures r != Epoch ==>
      && Truthy(f) && |Split(f.value, '/')| == 3
      && ParseIntPrefix(Split(f.value, '/')[0]) == Some(r.year)
      && ParseIntPrefix(Split(f.value, '/')[1]) == Some(r.month)
      && ParseIntPrefix(Split(f.value, '/')[2]) == Some(r.day)
  {
    if !Truthy(f) then Epoch
    else
      var parts := Split(f.value, '/');
      if |parts| != 3 then Epoch
      else
        match (ParseIntPrefix(parts[0]), ParseIntPrefix(parts[1]), ParseIntPrefix(parts[2]))
        case (Some(y), Some(m), Some(d)) =>
          if DateUtc(y, m - 1, d) == Some(Date(y, m, d)) then
            UtcReadsBack(y, m - 1, d);
            Date(y, m, d)
          else Epoch
        case _ => Epoch
  }

  lemma NoSlashInNumber(n: int)
    ensures '/' !in IntToString(n)
  {
  }

  /** The text of a day. */
  function DateText(d: Date): string {
    IntToString(d.year) + "/" + IntToString(d.month) + "/" + IntToString(d.day)
  }

  /** The text of a day splits into three parts that read back as the
      year, the month and the day. */
  lemma DateTextParts(d: Date)
    ensures |Split(DateText(d), '/')| == 3
    ensures ParseIntPrefix(Split(DateText(d), '/')[0]) == Some(d.year)
    ensures ParseIntPrefix(Split(DateText(d), '/')[1]) == Some(d.month)
    ensures ParseIntPrefix(Split(DateText(d), '/')[2]) == Some(d.day)
  {
    var a, b, c := IntToString(d.year), IntToString(d.month), IntToString(d.day);
    var parts := [a, b, c];
    NoSlashInNumber(d.year);
    NoSlashInNumber(d.month);
    NoSlashInNumber(d.day);
    assert parts[1..] == [b, c] && parts[1..][1..] == [c];
    assert Join([b, c], '/') == b + "/" + c;
    assert Join(parts, '/') == a + "/" + (b + "/" + c);
    assert Join(parts, '/') == DateText(d);
    SplitJoin(parts, '/');
    ParseIntRoundTrip(d.year, "");
    ParseIntRoundTrip(d.month, "");
    ParseIntRoundTrip(d.day, "");
    assert a + "" == a && b + "" == b && c + "" == c;
  }

  /** Every day of the date range outside the years 0 to 99 reads back from
      its `year/month/day` text. */
  lemma ParseDateRoundTrip(d: Date)
    requires ValidDay(d) && InTimeRange(d) && !(0 <= d.year <= 99)
    ensures ParseDate(Some(DateText(d))) == d
  {
    DateTextParts(d);
    ParseDateParts(DateText(d), d.year, d.month, d.day);
  }

  /** Any text of three `/`-separated parts that `parseInt` reads as `y`, `m`
      and `d` gives that day exactly when it is a real day in range outside
      the years 0 to 99, and the epoch otherwise. */
  lemma ParseDateParts(t: string, y: int, m: int, d: int)
    ensures
      && t != "" && |Split(t, '/')| == 3
      && ParseIntPrefix(Split(t, '/')[0]) == Some(y)
      && ParseIntPrefix(Split(t, '/')[1]) == Some(m)
      && ParseIntPrefix(Split(t, '/')[2]) == Some(d)
      ==>
      ParseDate(Some(t)) ==
        if ValidDay(Date(y, m, d)) && InTimeRange(Date(y, m, d)) && !(0 <= y <= 99)
        then Date(y, m, d) else Epoch
  {
    UtcReadsBack(y, m - 1, d);
  }

  /** A two-digit year never survives the read-back check. */
  lemma TwoDigitYearIsEpoch(d: Date)
    requires 0 <= d.year <= 99
    ensures ParseDate(Some(DateText(d))) == Epoch
  {
    DateTextParts(d);
  }

  // ---------------------------------------------------------------------
  // Record derivation.
  // ---------------------------------------------------------------------

  /** An entry of the unit data file: not an object, or an object with its
      string properties and its `unit_id` (`None` when absent). */
  datatype RawUnit = NotObject | RawObject(props: map<string, string>, unitId: Option<int>)

  function Prop(props: map<string, string>, key: string): Option<string> {
    if key in props then Some(props[key]) else None
  }

  /** `${charaName}（${version}）`, or the bare name without a version. */
  function UnitName(chara: string, version: string): (r: string)
    ensures StartsWith(r, chara)
    ensures |version| == 0 ==> r == chara
  {
    chara + (if |version| > 0 then "（" + version + "）" else "")
  }

  /** The unit name up to the first full-width parenthesis, trimmed, when it
      has one; the character name otherwise. */
  function ActualName(chara: string, unitName: string): string {
    if Contains(unitName, "（") then Trim(Before(unitName, '（')) else chara
  }

  /** A name without a parenthesis: the version is stripped again, and an
      untrimmed name is trimmed only when there is a version. */
  lemma ActualNameStripsVersion(chara: string, version: string)
    requires '（' !in chara
    ensures |version| > 0 ==> ActualName(chara, UnitName(chara, version)) == Trim(chara)
    ensures |version| == 0 ==> ActualName(chara, UnitName(chara, version)) == chara
  {
    if |version| == 0 && Contains(chara, "（") {
      ContainsChar(chara, "（", 0);
    }
    if |version| > 0 {
      var rest := version + "）";
      assert UnitName(chara, version) == chara + ['（'] + rest;
      BeforeSeparator(chara, '（', rest);
      assert StartsWith((chara + ['（'] + rest)[|chara|..], "（");
      ContainsAt(chara + ['（'] + rest, "（", |chara|);
    }
  }

  /** The fallback name of the entry at `index`. */
  function UnnamedName(index: nat): string {
    "名称不明(" + NatToString(index) + ")"
  }

  const NoDescription: string := "キャラクター説明がありません。"

  /** The first non-empty description, or a fixed notice. */
  function Comment(ub: string, s1: string, s2: string): (r: string)
    ensures |r| > 0
    ensures r == ub || r == s1 || r == s2 || r == NoDescription
    ensures |ub| > 0 ==> r == ub
    ensures |ub| == 0 && |s1| > 0 ==> r == s1
    ensures |ub| == 0 && |s1| == 0 && |s2| > 0 ==> r == s2
    ensures |ub| == 0 && |s1| == 0 && |s2| == 0 ==> r == NoDescription
  {
    if |ub| > 0 then ub else if |s1| > 0 then s1 else if |s2| > 0 then s2 else NoDescription
  }

  /** The unit at `index` of the data file, or `None` for an entry that is
      skipped. */
  function Derive(raw: RawUnit, index: nat): (r: Option<Unit>)
    ensures r.Some? <==> raw.RawObject?
  {
    match raw
    case NotObject => None
    case RawObject(props, unitId) =>
      var chara := OrElse(Prop(props, "キャラ名"), UnnamedName(index));
      var version := OrElse(Prop(props, "バージョン"), "");
      var unitName := UnitName(chara, version);
      var ub := OrElse(Prop(props, "ユニオンバースト説明"), "");
      var s1 := OrElse(Prop(props, "スキル1説明"), "");
      var s2 := OrElse(Prop(props, "スキル2説明"), "");
      Some(Unit(
        unitId := if unitId.Some? && unitId.value != 0 then unitId.value else 100000 + index + 1,
        unitName := unitName,
        comment := Comment(ub, s1, s2),
        isLimited := ParseIsLimited(Prop(props, "入手手段")),
        rarity := ParseRarity(Prop(props, "初期★")),
        atkType := ParseAttackType(Prop(props, "タイプ")),
        actualName := ActualName(chara, unitName),
        element := ParseElement(Prop(props, "属性")),
        position := ParsePosition(Prop(props, "配置")),
        ubDescription := ub,
        skill1Description := s1,
        skill2Description := s2,
        ubName := OrElse(Prop(props, "ユニオンバースト"), "ユニオンバースト"),
        skill1Name := OrElse(Prop(props, "スキル1"), "スキル1"),
        skill2Name := OrElse(Prop(props, "スキル2"), "スキル2"),
        skillFlags := ParseSkillFlags(ub, s1, s2),
        startTime := ParseDate(Prop(props, "キャラ実装日"))))
  }

  /** The skill flags of a unit are those its own descriptions raise: a slot
      is flagged under a category exactly when a rule of that category fires
      on the description of that slot. */
  lemma DerivedFlags(raw: RawUnit, index: nat, category: string)
    requires raw.RawObject?
    ensures var u := Derive(raw, index).value;
      (Has(u.skillFlags, category, UB) <==>
        exists i :: 0 <= i < |SkillRules.Rules| && SkillRules.Rules[i].category == category
          && Fires(SkillRules.Rules[i], Lower(u.ubDescription)))
      && (Has(u.skillFlags, category, S1) <==>
        exists i :: 0 <= i < |SkillRules.Rules| && SkillRules.Rules[i].category == category
          && Fires(SkillRules.Rules[i], Lower(u.skill1Description)))
      && (Has(u.skillFlags, category, S2) <==>
        exists i :: 0 <= i < |SkillRules.Rules| && SkillRules.Rules[i].category == category
          && Fires(SkillRules.Rules[i], Lower(u.skill2Description)))
  {
    var u := Derive(raw, index).value;
    ParseSkillFlagsSlots(u.ubDescription, u.skill1Description, u.skill2Description, category);
  }

  /** Units without a `unit_id` are numbered from 100001 by their position in
      the file, so two of them never share an id. */
  lemma DefaultIdsDistinct(a: RawUnit, i: nat, b: RawUnit, j: nat)
    requires a.RawObject? && b.RawObject? && i != j
    requires a.unitId.None? && b.unitId.None?
    ensures Derive(a, i).value.unitId == 100001 + i
    ensures Derive(a, i).value.unitId != Derive(b, j).value.unitId
  {
  }

  /** `xs.map(f).filter(Boolean)` from index `start` on, where `f` also
      receives the index. */
  function FilterMap<T, U>(xs: seq<T>, start: nat, f: (T, nat) -> Option<U>): (r: seq<U>)
    requires start <= |xs|
    ensures |r| <= |xs| - start
    decreases |xs| - start
  {
    if start == |xs| then []
    else
      var rest := FilterMap(xs, start + 1, f);
      match f(xs[start], start)
      case Some(u) => [u] + rest
      case None => rest
  }

  /** An element is kept exactly when some entry maps to it at its own
      index. */
  lemma {:induction false} FilterMapMember<T, U>(xs: seq<T>, start: nat, f: (T, nat) -> Option<U>, u: U)
    requires start <= |xs|
    ensures u in FilterMap(xs, start, f) <==> exists i :: start <= i < |xs| && f(xs[i], i) == Some(u)
    decreases |xs| - start
  {
    if start < |xs| {
      FilterMapMember(xs, start + 1, f, u);
    }
  }

  /** The number of entries from `start` on that `f` maps to a value. */
  function Kept<T, U>(xs: seq<T>, start: nat, f: (T, nat) -> Option<U>): nat
    requires start <= |xs|
    decreases |xs| - start
  {
    if start == |xs| then 0 else (if f(xs[start], start).Some? then 1 else 0) + Kept(xs, start + 1, f)
  }

  lemma {:induction false} FilterMapCount<T, U>(xs: seq<T>, start: nat, f: (T, nat) -> Option<U>)
    requires start <= |xs|
    ensures |FilterMap(xs, start, f)| == Kept(xs, start, f)
    decreases |xs| - start
  {
    if start < |xs| {
      FilterMapCount(xs, start + 1, f);
    }
  }

  /** The unit list built from the data file. */
  function Transform(raws: seq<RawUnit>): seq<Unit> {
    FilterMap(raws, 0, Derive)
  }

  /** A unit is in the list exactly when some object entry derives it at its
      own index, and every object entry gives one unit. */
  lemma TransformMember(raws: seq<RawUnit>, u: Unit)
    ensures u in Transform(raws) <==> exists i :: 0 <= i < |raws| && Derive(raws[i], i) == Some(u)
    ensures |Transform(raws)| == Kept(raws, 0, Derive)
  {
    FilterMapMember(raws, 0, Derive, u);
    FilterMapCount(raws, 0, Derive);
  }

  // ---------------------------------------------------------------------
  // Icons.
  // ---------------------------------------------------------------------

  /** `table.find(entry => entry.name === name)`, as an index. */
  function FindEntry(table: seq<IconEntry>, name: string): (r: Option<nat>)
    ensures r.Some? ==> r.value < |table| && table[r.value].name == name
    ensures r.Some? ==> forall k :: 0 <= k < r.value ==> table[k].name != name
    ensures r.None? ==> forall k :: 0 <= k < |table| ==> table[k].name != name
    decreases |table|
  {
    if |table| == 0 then None
    else if table[0].name == name then Some(0)
    else match FindEntry(table[1..], name)
      case None => None
      case Some(i) => Some(i + 1)
  }

  /** The three-star id, else the six-star id, else the one-star id. */
  function IconId(e: IconEntry): (id: nat)
    ensures id == 0 <==> e.idStar3 == 0 && e.idStar6 == 0 && e.idStar1 == 0
    ensures e.idStar3 != 0 ==> id == e.idStar3
  {
    if e.idStar3 != 0 then e.idStar3 else if e.idStar6 != 0 then e.idStar6 else e.idStar1
  }

  /** The name up to its first full-width parenthesis, trimmed. */
  function BaseName(name: string): string {
    if Contains(name, "（") then Trim(Before(name, '（')) else name
  }

  /** `getUnitIcon(name)`: the entry for the exact name, else for the base
      name; its preferred id as an icon path; `None` for a missing or empty
      name, a missing entry or an entry without ids. */
  function UnitIcon(table: seq<IconEntry>, name: Option<string>): (r: Option<string>)
    ensures (name.None? || name == Some("")) ==> r.None?
  {
    if name.None? || |name.value| == 0 then None
    else
      var entry := match FindEntry(table, name.value)
        case Some(i) => Some(table[i])
        case None => (match FindEntry(table, BaseName(name.value))
          case Some(i) => Some(table[i])
          case None => None);
      match entry
      case None => None
      case Some(e) => if IconId(e) == 0 then None else Some(Characters.IconFile(IconId(e)))
  }

  /** An exact entry wins, and the path names its preferred id. */
  lemma UnitIconExact(table: seq<IconEntry>, name: string, i: nat)
    requires |name| > 0 && i < |table| && table[i].name == name
    requires forall k :: 0 <= k < i ==> table[k].name != name
    ensures UnitIcon(table, Some(name)) ==
      (if IconId(table[i]) == 0 then None else Some(Characters.IconFile(IconId(table[i]))))
    ensures UnitIcon(table, Some(name)).Some? ==>
      ParseIntPrefix(UnitIcon(table, Some(name)).value[6..]) == Some(IconId(table[i]))
  {
    if IconId(table[i]) != 0 {
      Characters.IconFileId(IconId(table[i]));
    }
  }

  /** The base name of a versioned unit name is the character name. */
  lemma BaseNameOfVersioned(chara: string, version: string)
    requires |version| > 0 && '（' !in chara
    ensures BaseName(UnitName(chara, version)) == Trim(chara)
  {
    ActualNameStripsVersion(chara, version);
    var n := UnitName(chara, version);
    assert n == chara + ['（'] + (version + "）");
    assert StartsWith(n[|chara|..], "（");
    ContainsAt(n, "（", |chara|);
  }

  /** A versioned name without its own entry uses the entry of the bare
      character name. */
  lemma UnitIconVersioned(table: seq<IconEntry>, chara: string, version: string, i: nat)
    requires |version| > 0 && '（' !in chara && Trim(chara) == chara
    requires forall k :: 0 <= k < |table| ==> table[k].name != UnitName(chara, version)
    requires i < |table| && table[i].name == chara
    requires forall k :: 0 <= k < i ==> table[k].name != chara
    ensures UnitIcon(table, Some(UnitName(chara, version))) ==
      (if IconId(table[i]) == 0 then None else Some(Characters.IconFile(IconId(table[i]))))
  {
    BaseNameOfVersioned(chara, version);
    var n := UnitName(chara, version);
    assert FindEntry(table, n).None?;
    assert FindEntry(table, BaseName(n)) == Some(i);
    IconOfBase(table, n, i);
  }

  /** A name without its own entry takes the icon of its base name's entry. */
  lemma IconOfBase(table: seq<IconEntry>, name: string, i: nat)
    requires |name| > 0 && FindEntry(table, name).None?
    requires FindEntry(table, BaseName(name)) == Some(i)
    ensures UnitIcon(table, Some(name)) ==
      (if IconId(table[i]) == 0 then None else Some(Characters.IconFile(IconId(table[i]))))
  {
  }

  /** Without an entry under either name there is no icon. */
  lemma UnitIconMissing(table: seq<IconEntry>, name: string)
    requires forall k :: 0 <= k < |table| ==> table[k].name != name && table[k].name != BaseName(name)
    ensures UnitIcon(table, Some(name)).None?
  {
  }
}

=== FILE: wrappers.dfy ===
/** The optional value used wherever the source returns `null` or leaves a
    property `undefined`. */
module Wrappers {

  datatype Option<+T> = None | Some(value: T) {

    /** The wrapped value, or `default` when there is none (the source's `x || d`
        and `x ?? d` idioms). */
    function GetOr(default: T): T {
      match this
      case Some(v) => v
      case None => default
    }
  }
}
